=== FILE: README.md ===
# HTML to Editor.js import, modelled in Dafny

This project models the HTML import path of the Editor.js playground. Two
helpers make up that path:

- `editorjs-serializer.ts` turns an HTML page into an Editor.js block document.
  - It rewrites every `<br>`, `<br >` and `</br>` into the canonical `<br/>`.
  - It parses the page (not modelled).
  - `sanitizeDocument` splits every paragraph that holds a block-level
    element. It also drops every `<br>` with children that sits directly in
    a `<p>`.
  - `clearLineBreaks` removes text nodes that are only white space.
  - `serializedDocument` converts each top-level node into at most one
    block: a paragraph, header, list, table, audio player or raw-markup
    `code` block, or an `unknown` block. Comments, directives, CDATA
    sections and blank text give none. An image paragraph also becomes an `unknown`
    block, carrying the image data (the first finding below). The inline content of a block is rendered
    into a restricted inline markup (`<b>`, `<i>`, `<a href>`, and the
    editor's underline and strikethrough tags).
- `dom-tree-manipulator.ts` (`processDOMTree`) flattens the top-level
  anchors of a parsed tree. It replaces each top-level `<span>` by its
  children, or by its text wrapped in the inline tags its `style` attribute
  asks for. `domTreeToString` renders a tree back to markup.

## How the model is organised

- A parsed document is the sequence of its top-level nodes (`Dom.Node`).
- A node's place in its parent is its index in the parent's child sequence.
  The in-place splices of the source become pure functions that return the
  parent's new child sequence (`Dom.Splice`).
- The conversion can throw a `TypeError` in two places. The model returns a
  `Failure` there (`Wrappers.Result`):
  - an image `variant` with fewer than two `-`;
  - a comment or directive inside a `thead`/`tbody`/`tfoot`.
- Every member of the conversion takes a `build: Inline.Build`.
  - `AsWritten` computes what the code computes, defects included. This is
    the model of the source.
  - `Corrected` computes the behaviour the first two findings below call
    evidently intended.
  - A contract stated for any `build` holds for the code as written.
  - The `...BuildsAgree` lemmas state where the two builds differ: only in
    the type of an image paragraph and through an element named
    `constructor`.

| module | file | models |
|---|---|---|
| `Wrappers` | wrappers.dfy | `Option`, `Result` and the two crash reasons |
| `Strings` | strings.dfy | ECMAScript white space, `trim`, the `\s+` rewrites, `split`/`join`, ASCII case mapping, `parseInt` |
| `Dom` | dom.dfy | nodes, attribute lookup, `getTextContent`, `domTreeToString`, splicing |
| `Style` | style.dfy | `styleStringToMap` and the four style predicates |
| `Manipulator` | manipulator.dfy | `manipulateTagNode`, `replaceNodeWithChildren`, `processDOMTree`, both as written and as intended |
| `Breaks` | breaks.dfy | the two `<br>` regular-expression rewrites done before parsing |
| `Sanitize` | sanitize.dfy | `BLOCK_LEVEL_ELEMENTS`, `sanitizeDocument`, `clearLineBreaks` |
| `Inline` | inline.dfy | `getNodeText`, `processTagInText`, the choice between the two builds |
| `BlockTypes` | types.dfy | `getBlockType`, `getHeaderLevel` |
| `Blocks` | blocks.dfy | the block datatypes, `formatAttributes`, the code fallback, the image size |
| `Lists` | lists.dfy | `getListItem`, `processListItem` |
| `Tables` | tables.dfy | `processTableNodeToBlock`, `processTableRow` |
| `Serializer` | serializer.dfy | `convertNodeToBlock` and every converter, `serializedDocument`, `serializeHtmlToEditorjsFormat` |

### Behaviour of the code worth knowing

The `AsWritten` build follows the code in each case.

- **Image paragraphs.**
  - The code sets `getBlockType("image")`, which is `unknown`. The
    `AsWritten` build does the same.
  - Only the `Corrected` build writes `image`. This is the first finding
    below.
- **Top-level `<audio>`.**
  - A top-level `<audio>` element gets type `audioPlayer`, with empty data.
    The same holds for `hr` (`delimiter`) and `link-image` (`linkImage`).
  - Audio data is filled in only for a paragraph whose only child is
    `<audio>`.
- **Image variants.**
  - An absent or empty variant gives the size `LGL`.
  - A variant with fewer than three `-`-separated parts makes the
    conversion throw.
- **Non-row children of table sections.**
  - A text node is skipped, and a CDATA section gives no cells.
  - A comment or directive makes the conversion throw.
- **Letter case of tag names.**
  - The type comes from the lower-cased tag name, but the converter is
    chosen on the exact name.
  - So an element named in upper case gets its type with empty data. The
    parser lower-cases tag names, so this does not arise after parsing.

## Model

| member | source | states |
|---|---|---|
| Breaks.NormalizedIsClean | src/plugins/helper/editorjs-serializer.ts:25-26 | after both rewrites, every remaining `<br…>` match is the canonical `<br/>` itself, and no `</br>` match is left anywhere |
| Breaks.NormalizeIdempotent | src/plugins/helper/editorjs-serializer.ts:25-26 | applying the two rewrites to their own output changes nothing |
| Breaks.SpacedBreak | src/plugins/helper/editorjs-serializer.ts:25 | `<br` followed by white space and `>`, in either letter case, becomes `<br/>` |
| Breaks.ClosingBreak | src/plugins/helper/editorjs-serializer.ts:26 | `</br>`, in either letter case, becomes `<br/>` |
| Breaks.NormalizeWithoutTags | src/plugins/helper/editorjs-serializer.ts:25-26 | markup without any `<` passes through unchanged |
| Breaks.CleanFixed | src/plugins/helper/editorjs-serializer.ts:25-26 | a global replace leaves a string unchanged when every match in it is already the replacement |
| Breaks.CanonicalIsFixed | src/plugins/helper/editorjs-serializer.ts:26 | the second rewrite does not touch the `<br/>` the first one wrote |
| Sanitize.DropFilledBreaks | src/plugins/helper/editorjs-serializer.ts:654-660 | the kept children are original children and none is a `<br>` with children; a list without such a `<br>` is kept whole |
| Sanitize.PiecesSound | src/plugins/helper/editorjs-serializer.ts:662-700 | a paragraph's children split into runs of inline nodes and single block-level elements that concatenate back to the children; no two runs are adjacent |
| Sanitize.PiecesUnique | src/plugins/helper/editorjs-serializer.ts:662-700 | that split is the only one with those properties |
| Sanitize.SplitParagraph | src/plugins/helper/editorjs-serializer.ts:662-700 | the splitting loop emits, in order, a new `<p>` for each maximal inline run and each block-level element between them |
| Sanitize.PieceNodesText | src/plugins/helper/editorjs-serializer.ts:662-700 | splitting a paragraph keeps its text content |
| Sanitize.SanitizeNode | src/plugins/helper/editorjs-serializer.ts:641-706 | sanitizing keeps an element's name and attributes, and keeps it childless exactly when it was childless |
| Sanitize.SanitizeChildrenValid | src/plugins/helper/editorjs-serializer.ts:641-706 | afterwards no paragraph at any depth holds a block-level element or a `<br>` with children |
| Sanitize.SanitizeFixedPoints | src/plugins/helper/editorjs-serializer.ts:641-706 | sanitizing is idempotent, and it leaves a tree unchanged exactly when the tree already has that shape |
| Sanitize.SanitizeChildrenText | src/plugins/helper/editorjs-serializer.ts:641-706 | for a tree without `<br>`s that have children, sanitizing keeps the text content |
| Sanitize.SplitExample | src/plugins/helper/editorjs-serializer.ts:641-706 | `<p>a<div>b</div>c</p>` becomes `<p>a</p><div>b</div><p>c</p>` |
| Sanitize.ClearNode | src/plugins/helper/editorjs-serializer.ts:708-721 | clearing a node keeps its kind, an element's name and attributes, and leaves text, comments and directives as they are |
| Sanitize.ClearLineBreaksConcat | src/plugins/helper/editorjs-serializer.ts:708-721 | the clean-up treats the children one by one and keeps their order |
| Sanitize.ClearLineBreaksOne | src/plugins/helper/editorjs-serializer.ts:713-718 | a blank text child is dropped, and every other child is kept, cleared |
| Sanitize.ClearLineBreaksComplete | src/plugins/helper/editorjs-serializer.ts:708-721 | no text node made only of white space is left, at any depth |
| Sanitize.ClearLineBreaksValid | src/plugins/helper/editorjs-serializer.ts:708-721 | removing blank text keeps the paragraph shape that sanitizing established |
| Sanitize.ClearLineBreaksFixedPoints | src/plugins/helper/editorjs-serializer.ts:708-721 | the clean-up is idempotent, and it leaves a tree unchanged exactly when no blank text node is in it |
| Sanitize.ClearLineBreaksKeepsText | src/plugins/helper/editorjs-serializer.ts:708-721 | the clean-up keeps every non-white-space character of the text content, in order |
| Dom.RenderConcat | src/plugins/helper/dom-tree-manipulator.ts:194-207 | the rendering of a run of siblings is the renderings of its parts, in order |
| Dom.RenderOfText | src/plugins/helper/dom-tree-manipulator.ts:194-207 | a run of text nodes renders as its text content |
| Dom.OpeningTagBare | src/plugins/helper/dom-tree-manipulator.ts:209-214 | an opening tag has no attribute part exactly when the element has no attributes |
| Dom.RenderSplice | src/plugins/helper/dom-tree-manipulator.ts:194-228 | replacing one child by a run changes the rendering only in that child's place |
| Dom.TextContentSplice | src/plugins/helper/dom-tree-manipulator.ts:117-127 | replacing one child by a run changes the text content only in that child's place |
| Manipulator.ReplaceNodeWithChildren | src/plugins/helper/dom-tree-manipulator.ts:129-154 | the node is replaced in place by its children; the siblings before and after stay, and so does the text content; a node that is not there leaves the parent unchanged |
| Manipulator.UnwrapRender | src/plugins/helper/dom-tree-manipulator.ts:129-154 | unwrapping an element without attributes removes exactly its own opening and closing tags from the rendering |
| Manipulator.StyledText | src/plugins/helper/dom-tree-manipulator.ts:92-106 | the wrappers nest with strikethrough outermost and bold innermost, closing in reverse order; no condition leaves the text bare |
| Manipulator.ManipulateIsLocal | src/plugins/helper/dom-tree-manipulator.ts:35-115 | manipulating a child splices its replacement in at its own index and changes no other sibling |
| Manipulator.AnchorIsFlattened | src/plugins/helper/dom-tree-manipulator.ts:36-53 | an anchor keeps its attributes and gets its flattened text as its only child; an anchor with no text is unwrapped |
| Manipulator.AnchorKeepsText | src/plugins/helper/dom-tree-manipulator.ts:36-53 | the text of an anchor's replacement is either its flattened text or its original text |
| Manipulator.PlainSpanIsUnwrapped | src/plugins/helper/dom-tree-manipulator.ts:55-90 | a span with no attributes, a blank style or no text is replaced by its children |
| Manipulator.StyledSpanBecomesText | src/plugins/helper/dom-tree-manipulator.ts:69-113 | a styled span with text becomes one text node: its flattened text inside the inline tags the style calls for |
| Manipulator.OtherElementsUntouched | src/plugins/helper/dom-tree-manipulator.ts:35-115 | an element other than `a` or `span` is left as it is |
| Manipulator.ManipulateRootChild | src/plugins/helper/dom-tree-manipulator.ts:24-33 | a top-level text, comment or directive is left as it is (the `&nbsp;` clean-up result is discarded), and an element gets its replacement |
| Manipulator.ProcessDomTree | src/plugins/helper/dom-tree-manipulator.ts:12-22 | a document with no top-level `a` or `span` is returned unchanged |
| Manipulator.ProcessDomTreeConcat | src/plugins/helper/dom-tree-manipulator.ts:12-22 | the intended traversal treats each top-level child on its own, in document order |
| Manipulator.ProcessDomTreeRemovesSpans | src/plugins/helper/dom-tree-manipulator.ts:12-22 | for the intended traversal: when no top-level anchor or span holds a span directly, no span is left at the top level |
| Manipulator.ProcessDomTreeAsWrittenRemovesSpans | src/plugins/helper/dom-tree-manipulator.ts:12-22 | the code as written leaves no top-level span under the same condition, provided every top-level node is replaced by exactly one node |
| Manipulator.ForEachLiveWithoutShifts | src/plugins/helper/dom-tree-manipulator.ts:16-19 | a live `forEach` whose visits each replace a node by exactly one node visits every original child once |
| Manipulator.AsWrittenWithoutShifts | src/plugins/helper/dom-tree-manipulator.ts:16-19 | when every top-level replacement is a single node, the code as written agrees with the intended traversal |
| Manipulator.ProcessDomTreeSkipsShiftedSibling | src/plugins/helper/dom-tree-manipulator.ts:16-19 | on two adjacent spans, the first one empty, the code as written never visits the second; the intended traversal unwraps both |
| Style.ParseRuleValid | src/plugins/helper/dom-tree-manipulator.ts:163-164 | every declaration kept has a non-empty trimmed property and value |
| Style.DeclarationsValid | src/plugins/helper/dom-tree-manipulator.ts:159-166 | every declaration parsed from a style string has that form |
| Style.SetAllMeaning | src/plugins/helper/dom-tree-manipulator.ts:165 | a property is in the map exactly when some declaration names it, with the last such value |
| Style.StyleStringToMapMeaning | src/plugins/helper/dom-tree-manipulator.ts:156-169 | the map holds exactly the properties the style declares, each with its last declared value, so later declarations override earlier ones |
| Style.KeywordWeightIsNotBold | src/plugins/helper/dom-tree-manipulator.ts:171-176 | a weight without digits, such as `bold`, is never bold, because `parseInt` gives NaN |
| Style.DecimalWeightIsBold | src/plugins/helper/dom-tree-manipulator.ts:171-176 | a decimal weight, possibly followed by a unit, is bold exactly when its value is at least 700 |
| Style.ItalicIgnoresCase | src/plugins/helper/dom-tree-manipulator.ts:178-182 | the italic test does not depend on letter case |
| Style.DecorationIgnoresCase | src/plugins/helper/dom-tree-manipulator.ts:184-192 | the underline and line-through tests do not depend on letter case |
| Inline.NodeText | src/plugins/helper/editorjs-serializer.ts:438-487 | in either build, the inline text is trimmed, each white-space run is one space, no space comes before a `.`, and it is empty exactly when no child contributes a part |
| Inline.TextParts | src/plugins/helper/editorjs-serializer.ts:441-482 | in either build, every collected part is non-empty and trimmed |
| Inline.TextPartsConcat | src/plugins/helper/editorjs-serializer.ts:441-482 | parts are collected child by child, in document order |
| Inline.CommentIsIgnored | src/plugins/helper/editorjs-serializer.ts:441-482 | a comment contributes nothing to the inline text |
| Inline.PlainTextKeepsCharacters | src/plugins/helper/editorjs-serializer.ts:438-487 | for text-only children, the inline text keeps every non-white-space character, in order |
| Inline.TagText | src/plugins/helper/editorjs-serializer.ts:489-523 | in either build, the markup of an inline element has no leading or trailing white space; the `AsWritten` build looks tags up with the inherited keys, the `Corrected` build with the six own keys only |
| Inline.InlineTagIsSemantic | src/plugins/helper/editorjs-serializer.ts:490-497 | exactly `i`, `b`, `u`, `s`, `strong` and `em` are mapped, and only to `i`, `b`, `u` or `s` |
| Inline.StrongIsBold | src/plugins/helper/editorjs-serializer.ts:490-497 | `strong` renders like `b`, as `<b>…</b>` |
| Inline.EmphasisIsItalic | src/plugins/helper/editorjs-serializer.ts:490-497 | `em` renders like `i`, as `<i>…</i>` |
| Inline.StrikeIsStrikethrough | src/plugins/helper/editorjs-serializer.ts:506-508 | `strike` renders like `s`, with the editor's strikethrough class |
| Inline.DeletionIsStrikethrough | src/plugins/helper/editorjs-serializer.ts:506-508 | `del` renders as strikethrough |
| Inline.UnderlineSynonyms | src/plugins/helper/editorjs-serializer.ts:510-512 | `ins` renders like `u`, with the editor's underline class |
| Inline.LinkKeepsTarget | src/plugins/helper/editorjs-serializer.ts:502-504 | an anchor keeps its `href` around its inline text |
| Inline.LinkDefaultsToHash | src/plugins/helper/editorjs-serializer.ts:502-504 | an anchor whose `href` is absent or empty points at `#` |
| Inline.UnknownTagIsTransparent | src/plugins/helper/editorjs-serializer.ts:520-522 | any other tag contributes only its inline text; as written, a tag named `constructor` is the one exception |
| Inline.TagNameIgnoresCase | src/plugins/helper/editorjs-serializer.ts:500 | the inline markup does not depend on the letter case of the tag name |
| Inline.InlineTagAsWrittenAgrees | src/plugins/helper/editorjs-serializer.ts:514-518 | the `in` test as written agrees with an own-key lookup on every tag except `constructor` |
| Inline.ConstructorTag | src/plugins/helper/editorjs-serializer.ts:514-518 | as written, a `<constructor>` element is wrapped in the source text of `Object`; as intended, it contributes only its text |
| Inline.NodeTextBuildsAgree | src/plugins/helper/editorjs-serializer.ts:438-523 | the two builds give the same inline text whenever no element at any depth is named `constructor` |
| Inline.ConstructorTagCounterexample | src/plugins/helper/editorjs-serializer.ts:514-518 | `<constructor>x</constructor>` as written gives `<function Object() { [native code] }>x</…>` (V8's text for `Object`; the exact text is engine-dependent) instead of `x` |
| BlockTypes.GetBlockType | src/plugins/helper/editorjs-serializer.ts:544-594 | every type is one of the editor's block types |
| BlockTypes.HeaderTypeTags | src/plugins/helper/editorjs-serializer.ts:548-559 | the type is `header` exactly for `h1`–`h6` in any letter case |
| BlockTypes.ListTypeTags | src/plugins/helper/editorjs-serializer.ts:560-563 | the type is `list` exactly for `ul` and `ol` |
| BlockTypes.CodeTypeTags | src/plugins/helper/editorjs-serializer.ts:544-594 | the type is `code` exactly for the nine raw-markup tags |
| BlockTypes.ParagraphTypeTag | src/plugins/helper/editorjs-serializer.ts:546-547 | the type is `paragraph` exactly for `p` |
| BlockTypes.TableTypeTag | src/plugins/helper/editorjs-serializer.ts:584-585 | the type is `table` exactly for `table` |
| BlockTypes.DelimiterTypeTag | src/plugins/helper/editorjs-serializer.ts:576-577 | the type is `delimiter` exactly for `hr` |
| BlockTypes.AudioTypeTag | src/plugins/helper/editorjs-serializer.ts:582-583 | the type is `audioPlayer` exactly for `audio` |
| BlockTypes.LinkImageTypeTag | src/plugins/helper/editorjs-serializer.ts:574-575 | the type is `linkImage` exactly for `link-image` |
| BlockTypes.NoImageType | src/plugins/helper/editorjs-serializer.ts:590-592 | no tag name gets the type `image`; both `img` and `image` are `unknown` |
| BlockTypes.BlockTypeIgnoresCase | src/plugins/helper/editorjs-serializer.ts:545 | the type does not depend on letter case |
| BlockTypes.HeaderLevels | src/plugins/helper/editorjs-serializer.ts:596-599 | a heading name `hN` with N from 1 to 6 has level N; any name whose level is not 1 is `h` plus one ASCII digit, so every other name has level 1 |
| BlockTypes.LevelWithoutHeading | src/plugins/helper/editorjs-serializer.ts:596-599 | `h0`, `h7`, `h8` and `h9` have levels 0, 7, 8 and 9, although they are not heading tags |
| Dom.AttrOr | src/plugins/helper/editorjs-serializer.ts:503 | `attributes[key] || fallback`: the fallback exactly when the attribute is absent or empty, and otherwise its value |
| Blocks.FormatAttributes | src/plugins/helper/editorjs-serializer.ts:431-436 | the attribute text is empty exactly without attributes, and otherwise is a space followed by the attribute list |
| Blocks.CodeSpacing | src/plugins/helper/editorjs-serializer.ts:290-297 | in the raw markup, two spaces separate the tag name from the attributes, and `" >"` closes a tag without attributes |
| Blocks.IframeCode | src/plugins/helper/editorjs-serializer.ts:308-315 | an `iframe` block keeps the tag and attributes but none of the content |
| Blocks.ImageSize | src/plugins/helper/editorjs-serializer.ts:232-234 | a missing or empty variant gives the size `LGL` |
| Blocks.ImageSizeMeaning | src/plugins/helper/editorjs-serializer.ts:232-234 | the size fails exactly for a non-empty variant with fewer than two `-`; otherwise it is the third part in upper case, and contains no `-` |
| Blocks.ImageSizeOfVariant | src/plugins/helper/editorjs-serializer.ts:232-234 | a variant `x-y-z` gives the upper-cased `z` |
| Blocks.ImageSizeExample | src/plugins/helper/editorjs-serializer.ts:232-234 | `fm-img-lgp` gives `LGP` |
| Lists.ItemsWith | src/plugins/helper/editorjs-serializer.ts:183-191 | a list has at most one item per child |
| Lists.ListItemsConcat | src/plugins/helper/editorjs-serializer.ts:183-191 | items keep document order |
| Lists.ItemsComeFromItemElements | src/plugins/helper/editorjs-serializer.ts:188-190 | only `li` children give items, each exactly its own item |
| Lists.NestedItemsComeFromLists | src/plugins/helper/editorjs-serializer.ts:206-209 | an item's nested items are all the items of its nested `ol`/`ul` children, concatenated in order |
| Lists.NestedListIsNotContent | src/plugins/helper/editorjs-serializer.ts:197-205 | a nested list adds nothing to the item's content |
| Lists.ItemOf | src/plugins/helper/editorjs-serializer.ts:212-216 | an item's content is trimmed |
| Lists.ListItemsBuildsAgree | src/plugins/helper/editorjs-serializer.ts:183-217 | the two builds give the same items whenever no element at any depth is named `constructor` |
| Lists.ItemOfText | src/plugins/helper/editorjs-serializer.ts:193-217 | an item made of text nodes has no nested items and keeps every non-white-space character of its text |
| Tables.RowCells | src/plugins/helper/editorjs-serializer.ts:418-429 | a row has at most one cell per child, each cell text trimmed |
| Tables.RowCellsConcat | src/plugins/helper/editorjs-serializer.ts:418-429 | cells are collected child by child, in document order |
| Tables.RowCellsOne | src/plugins/helper/editorjs-serializer.ts:421-425 | a `td` or `th` child gives exactly one cell, its trimmed inline text, which trimming leaves unchanged; any other child gives none |
| Tables.TableRows | src/plugins/helper/editorjs-serializer.ts:359-409 | every row kept has at least one cell |
| Tables.SeenHeadMeaning | src/plugins/helper/editorjs-serializer.ts:360-372 | the table has headings exactly when one of its children is a `thead` |
| Tables.SectionRowsFail | src/plugins/helper/editorjs-serializer.ts:362-369 | reading a section fails exactly when one of its children is a comment or directive |
| Tables.TableRowsFail | src/plugins/helper/editorjs-serializer.ts:359-409 | reading a table fails exactly when one of its sections holds a comment or directive |
| Tables.TableRowsConcat | src/plugins/helper/editorjs-serializer.ts:359-409 | rows are collected child by child, in document order |
| Tables.TableRowsBuildsAgree | src/plugins/helper/editorjs-serializer.ts:359-429 | the two builds read the same rows, or fail alike, whenever no element at any depth is named `constructor` |
| Tables.TableOfRows | src/plugins/helper/editorjs-serializer.ts:398-408 | rows placed directly in the table are read one by one, with no section |
| Serializer.TextData | src/plugins/helper/editorjs-serializer.ts:248-253 | the text field is present exactly when the text is not blank, and then it is the text |
| Serializer.ConvertText | src/plugins/helper/editorjs-serializer.ts:77-89 | a text node gives a paragraph exactly when it is not blank; the paragraph text is trimmed, has single spaces, and keeps every non-white-space character |
| Serializer.ImageType | src/plugins/helper/editorjs-serializer.ts:225 | the type of an image paragraph is `unknown` as written and `image` as intended; both are editor types |
| Serializer.ParagraphBlock | src/plugins/helper/editorjs-serializer.ts:219-254 | a lone `img` child gives image data typed as the build's image type, with `url` the `src` attribute and `caption` the `alt` attribute (each `""` when absent or empty) and the size read from the variant, failing exactly on a bad variant; a lone `audio` child gives an `audioPlayer` block whose `src` is the `src` attribute or `""`; anything else gives a `paragraph` of the inline text |
| Serializer.ImageParagraphAsWritten | src/plugins/helper/editorjs-serializer.ts:224-236 | as written, an image paragraph gets the intended image data but the type `unknown`; as intended its type is `image`, which the editor accepts |
| Serializer.ImageParagraphExample | src/plugins/helper/editorjs-serializer.ts:224-236 | `<p><img src="a.png"></p>` gives an `unknown` block as written and an `image` block as intended |
| Serializer.ConvertElement | src/plugins/helper/editorjs-serializer.ts:91-162 | in either build, every element block has one of the editor's block types, `unknown` included |
| Serializer.ConvertElementFails | src/plugins/helper/editorjs-serializer.ts:91-162 | converting an element fails exactly for a table with a broken section, an image paragraph with a bad variant, or a `div` wrapping such a table |
| Serializer.WrappedTable | src/plugins/helper/editorjs-serializer.ts:116-125 | a `div` whose only child is a table converts as that table |
| Serializer.TableBlock | src/plugins/helper/editorjs-serializer.ts:353-416 | a readable table gives a table block of its rows, never stretched, with headings exactly when it has a `thead` |
| Serializer.ListBlock | src/plugins/helper/editorjs-serializer.ts:170-181 | an `ol`/`ul` gives a list block of its items, `ordered` exactly for `ol` |
| Serializer.HeadingBlock | src/plugins/helper/editorjs-serializer.ts:256-266 | `hN` gives a header block of level N, with the inline text present exactly when it is non-empty |
| Serializer.CodeBlock | src/plugins/helper/editorjs-serializer.ts:127-159 | every raw-markup tag gives a `code` block of the element's raw markup |
| Serializer.UnknownBlock | src/plugins/helper/editorjs-serializer.ts:95-98 | an unknown tag still gives a block, typed `unknown` and with empty data |
| Serializer.ConvertNode | src/plugins/helper/editorjs-serializer.ts:59-75 | in either build, only elements can fail; a node gives a block exactly when it is an element or non-blank text |
| Serializer.ConvertElementBuildsAgree | src/plugins/helper/editorjs-serializer.ts:91-162 | without an element named `constructor`, the two builds convert every element alike except an image paragraph, where each build uses its own paragraph converter |
| Serializer.ConvertNodeBuildsAgree | src/plugins/helper/editorjs-serializer.ts:59-75 | the two builds differ on a node only for an image paragraph, which gets the same data typed `unknown` as written and `image` as intended, or the same failure |
| Serializer.DocumentBuildsAgree | src/plugins/helper/editorjs-serializer.ts:42-57 | a document without top-level image paragraphs and without `constructor` elements converts identically in both builds |
| Serializer.BlocksWithConcat | src/plugins/helper/editorjs-serializer.ts:45-50 | the blocks of a document are those of its first part followed by those of the rest |
| Serializer.BlocksWithFails | src/plugins/helper/editorjs-serializer.ts:45-50 | the document fails exactly when one of its nodes fails, with the error of the first one |
| Serializer.BlocksCount | src/plugins/helper/editorjs-serializer.ts:42-57 | there is one block per element and non-blank text node |
| Serializer.BlocksKinds | src/plugins/helper/editorjs-serializer.ts:42-57 | every block of the document has one of the editor's block types |
| Serializer.SerializeDocument | src/plugins/helper/editorjs-serializer.ts:42-57 | the output carries the given time, the blocks of the top-level nodes in order, and the fixed version |
| Serializer.CleanTreeShape | src/plugins/helper/editorjs-serializer.ts:33-34 | after the two clean-ups, no paragraph holds a block-level element or a `<br>` with children, no blank text is left, and every top-level text node yields a block |
| Serializer.SerializeHtml | src/plugins/helper/editorjs-serializer.ts:18-40 | the import succeeds exactly when every cleaned top-level node converts, and it then gives one block per element or text node of the cleaned tree |

## Left out

- HTML parsing (htmlparser2 with lower-cased tag and attribute names) is an
  external library.
  - `Serializer.SerializeHtml` starts from the parsed tree.
  - The `<br>` rewrite (`Breaks.NormalizeBreaks`) is modelled on the markup
    string but is not connected to the tree.
- Block ids come from `nanoid`, which is random, and are not represented.
- The time stamp (`new Date().getTime()`) is a parameter.
- Logging is not modelled: `console.*`, `logBlockError`, `logTagError`,
  `stripCircular` and the logging slug.
- Parent references are not modelled. A node is identified by its index.
  - The "no parent" and "not found" early returns of
    `replaceNodeWithChildren` are the out-of-range index.
  - Re-parenting has no counterpart.
- Attributes are an ordered list of pairs with distinct names. How
  duplicate attributes are merged is up to the parser and is not modelled.
- `toLowerCase` and `toUpperCase` are modelled on ASCII letters only. The
  upper-cased image size of a non-ASCII variant is therefore approximate.
- The `meta: {}` of list items and list data is always empty and is not
  represented.
- `Manipulator.ManipulateRootChild`: the `&nbsp;` clean-up of a top-level
  text node computes a string and discards it. It has no effect, and the
  model keeps the node as it is.
- `Manipulator.AnchorKeepsText`: states only that the replacement's text is
  one of two strings, without saying which. `Manipulator.AnchorIsFlattened`
  gives the exact replacement.
- `Sanitize.SanitizeChildrenText`: stated only for trees with no `<br>` that
  has children, because the filter discards those together with their text.
- `Serializer.SerializeHtml`: states success, time, version and the number
  of blocks. The blocks themselves are stated through
  `Serializer.SerializeDocument` and the per-type lemmas.
- `Style.DecimalWeightIsBold`: covers plain decimal weights.
  - `Strings.ParseInt` also models leading white space, a sign and the `0x`
    prefix.
  - No lemma is stated for those forms.
- `Manipulator.ProcessDomTreeRemovesSpans`: only direct span children of a
  top-level anchor or span are considered, because `processDOMTree` visits
  only the top level.
  - It is stated for the intended traversal. The code as written can skip a
    span after a removal or an unwrap, as
    `Manipulator.ProcessDomTreeSkipsShiftedSibling` shows.
  - `Manipulator.ProcessDomTreeAsWrittenRemovesSpans` states it for the code
    as written only when every top-level node is replaced by exactly one
    node.

## Findings

| source | as written | input that shows it | evidently intended | confidence | as-written member | corrected member |
|---|---|---|---|---|---|---|
| src/plugins/helper/editorjs-serializer.ts:224-236 | an image paragraph gets the type `getBlockType("image")`, and `getBlockType` has no `image` case, so the type is `unknown` | `<p><img src="a.png"></p>` | a block of type `image`, a type the editor accepts, carrying the image data; the `Corrected` build of `Serializer.ParagraphBlock` writes it, and `Serializer.ConvertNodeBuildsAgree` shows this is the only change to a node's block | high (not executed) | Serializer.ImageParagraphAsWritten | Serializer.ImageType |
| src/plugins/helper/editorjs-serializer.ts:514-518 | `tagName in TAG_MAPPING` also finds keys the object inherits; `constructor` maps to the `Object` function, which is rendered as its source text (engine-dependent; V8's text is shown) | `<p><constructor>x</constructor></p>` gives `<function Object() { [native code] }>x</function Object() { [native code] }>` | only the six listed tags are mapped, and any other tag contributes only its text (`x`); proved for the `Corrected` build of `Inline.TagText` by `Inline.ConstructorTag` and `Inline.UnknownTagIsTransparent`, and `Inline.NodeTextBuildsAgree` shows nothing else changes | high (not executed) | Inline.ConstructorTagCounterexample | Inline.TagText |
| src/plugins/helper/dom-tree-manipulator.ts:16-19 | `forEach` runs over the live child array that `replaceNodeWithChildren` splices, so after a node is replaced by zero or several nodes, the next visit lands on the wrong sibling | `<span></span><span>x</span>` leaves `<span>x</span>` untouched | every original top-level child is manipulated exactly once, giving the text `x`; proved for the corrected `Manipulator.ProcessDomTree` by `Manipulator.ProcessDomTreeConcat` and `Manipulator.AsWrittenWithoutShifts` | high (not executed) | Manipulator.ProcessDomTreeSkipsShiftedSibling | Manipulator.ProcessDomTree |

=== FILE: blocks.dfy ===
/** The block document the serializer produces (editorjs-serializer.ts), the
    raw-markup fallback of the code-like blocks and the size of an image. */
module Blocks {
  import opened Wrappers
  import opened Strings
  import opened Dom
  import opened Inline

  /** One list entry: its inline content and its nested entries (`meta` is always
      the empty record and is not represented). */
  datatype ListItem = ListItem(content: string, items: seq<ListItem>)

  /** The `data` record of a block, one alternative per shape the converters
      write; `Empty` is the `{}` a block keeps when no converter fills it. */
  datatype BlockData =
    | Empty
    | ParagraphData(text: Option<string>)
    | HeaderData(headerText: Option<string>, level: int)
    | ListData(style: string, items: seq<ListItem>)
    | ImageData(url: string, caption: string, size: string)
    | AudioData(src: string)
    | CodeData(code: string)
    | TableData(content: seq<seq<string>>, stretched: bool, withHeadings: bool)

  /** One block; the random `id` is not represented. */
  datatype Block = Block(kind: string, data: BlockData)

  // ---------------------------------------------------------------------
  // Raw-markup fallback
  // ---------------------------------------------------------------------

  /** `formatAttributes`: the attribute list with a leading space, or nothing. */
  function FormatAttributes(attrs: seq<Attr>): (r: string)
    ensures r == "" <==> attrs == []
    ensures r != "" ==> r[0] == ' ' && r[1..] == AttrList(attrs)
  {
    var list := AttrList(attrs);
    if list != "" then " " + list else ""
  }

  /** The raw markup of an element named `name` with attributes `attrs` around
      the text `inner`: a space always follows the name, and `FormatAttributes`
      adds its own. */
  function CodeMarkup(name: string, attrs: seq<Attr>, inner: string): string {
    "<" + name + " " + FormatAttributes(attrs) + ">" + inner + "</" + name + ">"
  }

  /** The `data.code` of a code-like block: the element re-written with all its
      attributes around its inline text; an `iframe` keeps no content. */
  function CodeOf(build: Build, name: string, attrs: seq<Attr>, cs: seq<Node>): string {
    CodeMarkup(name, attrs, if name == "iframe" then "" else NodeText(build, cs))
  }

  /** The attribute list follows the tag name after two spaces, the one written
      before `formatAttributes` and the one it adds; without attributes the
      opening tag ends in `" >"`. */
  lemma CodeSpacing(name: string, attrs: seq<Attr>, inner: string)
    ensures attrs != [] ==> CodeMarkup(name, attrs, inner) == "<" + name + "  " + AttrList(attrs) + ">" + inner + "</" + name + ">"
    ensures attrs == [] ==> CodeMarkup(name, attrs, inner) == "<" + name + " >" + inner + "</" + name + ">"
  {
    if attrs != [] {
      assert FormatAttributes(attrs) == " " + AttrList(attrs);
      assert "<" + name + " " + (" " + AttrList(attrs)) == "<" + name + "  " + AttrList(attrs);
    } else {
      assert FormatAttributes(attrs) == "";
      assert "<" + name + " " + "" == "<" + name + " ";
    }
  }

  /** An `iframe` block does not depend on the element's content. */
  lemma IframeCode(build: Build, attrs: seq<Attr>, cs: seq<Node>)
    ensures CodeOf(build, "iframe", attrs, cs) == "<iframe " + FormatAttributes(attrs) + "></iframe>"
  {
    var f := FormatAttributes(attrs);
    assert CodeOf(build, "iframe", attrs, cs) == "<" + "iframe" + " " + f + ">" + "" + "</" + "iframe" + ">";
    assert "<" + "iframe" + " " == "<iframe ";
    assert ">" + "" + "</" + "iframe" + ">" == "></iframe>";
  }

  /** Any other code block carries the inline text of its content. */
  lemma CodeCarriesText(build: Build, name: string, attrs: seq<Attr>, cs: seq<Node>)
    requires name != "iframe"
    ensures CodeOf(build, name, attrs, cs) == CodeMarkup(name, attrs, NodeText(build, cs))
  {
  }

  // ---------------------------------------------------------------------
  // Images
  // ---------------------------------------------------------------------

  /** `variant ? variant.split("-")[2].toUpperCase() : "LGL"`: an absent or
      empty variant gives the default size; a variant with fewer than three
      `-`-separated parts has no third part and the conversion fails. */
  function ImageSize(attrs: seq<Attr>): (r: Result<string>)
    ensures Lookup(attrs, "variant").GetOr("") == "" ==> r == Success("LGL")
  {
    var variant := Lookup(attrs, "variant").GetOr("");
    if variant == "" then Success("LGL")
    else
      var parts := Split(variant, '-');
      if |parts| < 3 then Failure(VariantWithoutSize(variant))
      else Success(ToUpper(parts[2]))
  }

  /** The size fails exactly when the variant is present and has fewer than two
      `-`; otherwise it is the third part, upper-cased. */
  lemma ImageSizeMeaning(attrs: seq<Attr>)
    ensures var v := Lookup(attrs, "variant").GetOr("");
      ImageSize(attrs).Failure? <==> v != "" && Count(v, '-') < 2
    ensures var v := Lookup(attrs, "variant").GetOr("");
      v != "" && Count(v, '-') >= 2 ==> ImageSize(attrs) == Success(ToUpper(Split(v, '-')[2]))
    ensures var v := Lookup(attrs, "variant").GetOr("");
      ImageSize(attrs).Success? ==> '-' !in ImageSize(attrs).value
  {
    var v := Lookup(attrs, "variant").GetOr("");
    if v != "" {
      SplitPiecesFree(v, '-');
      if Count(v, '-') >= 2 {
        UpperKeepsDash(Split(v, '-')[2]);
      }
    }
  }

  lemma UpperKeepsDash(s: string)
    requires '-' !in s
    ensures '-' !in ToUpper(s)
  {
    var u := ToUpper(s);
    forall i | 0 <= i < |u|
      ensures u[i] != '-'
    {
      assert s[i] != '-';
    }
  }

  /** A variant `x-y-z` gives the size `z`, upper-cased. */
  lemma ImageSizeOfVariant(attrs: seq<Attr>, x: string, y: string, z: string)
    requires '-' !in x && '-' !in y && '-' !in z
    requires Lookup(attrs, "variant") == Some(x + "-" + y + "-" + z)
    ensures ImageSize(attrs) == Success(ToUpper(z))
  {
    var v := x + "-" + y + "-" + z;
    assert v != "";
    SplitThree(x, y, z, '-');
  }

  /** The size a `fm-img-lgp` variant gives. */
  lemma ImageSizeExample()
    ensures ImageSize([Attr("variant", "fm-img-lgp")]) == Success("LGP")
  {
    var attrs := [Attr("variant", "fm-img-lgp")];
    ExampleVariant();
    ImageSizeOfVariant(attrs, "fm", "img", "lgp");
    ExampleUpper();
  }

  lemma ExampleVariant()
    ensures Lookup([Attr("variant", "fm-img-lgp")], "variant") == Some("fm" + "-" + "img" + "-" + "lgp")
  {
    assert "fm-img-lgp" == "fm" + "-" + "img" + "-" + "lgp";
  }

  lemma ExampleUpper()
    ensures ToUpper("lgp") == "LGP"
  {
  }
}

=== FILE: breaks.dfy ===
/** The rewrite of line breaks `serializeHtmlToEditorjsFormat` applies to the raw
    markup before it is parsed (editorjs-serializer.ts): every bare opening
    break (`<br>`, `<br/>`, `<br />`, any letter case, any white space before
    the slash) and every closing `</br>` becomes the self-closing `<br/>`. */
module Breaks {
  import opened Strings

  /** The two global, case-insensitive patterns, applied in this order:
      `/<br(\s*\/?)>/gi` and `/<\/br>/gi`. */
  datatype Pattern = OpenBreak | CloseBreak

  /** The replacement both patterns write. */
  const Canonical: string := "<br/>"

  predicate IsB(c: char) {
    c == 'b' || c == 'B'
  }

  predicate IsR(c: char) {
    c == 'r' || c == 'R'
  }

  /** The length of the match of `\s*\/?>` at the start of `t`, 0 if there is
      none. White space never contains `/` or `>`, so the greedy star never has
      to give characters back. */
  function BreakEnd(t: string): (k: nat)
    ensures k <= |t|
    decreases |t|
  {
    if t == [] then 0
    else if IsSpace(t[0]) then
      var k := BreakEnd(t[1..]);
      if k == 0 then 0 else k + 1
    else if t[0] == '>' then 1
    else if t[0] == '/' && |t| >= 2 && t[1] == '>' then 2
    else 0
  }

  /** The length of the match of pattern `p` at the start of `t`, 0 if there is
      none; at most one match can start at a given position. */
  function MatchLength(p: Pattern, t: string): (k: nat)
    ensures k <= |t|
    ensures k > 0 ==> k >= 4 && t[0] == '<'
  {
    match p
    case OpenBreak =>
      if |t| >= 3 && t[0] == '<' && IsB(t[1]) && IsR(t[2]) && BreakEnd(t[3..]) > 0
      then 3 + BreakEnd(t[3..])
      else 0
    case CloseBreak =>
      if |t| >= 5 && t[0] == '<' && t[1] == '/' && IsB(t[2]) && IsR(t[3]) && t[4] == '>' then 5 else 0
  }

  /** `s.replace(pattern, "<br/>")` with the global flag: the string is scanned
      left to right, each match is replaced and the scan resumes after it, so
      matches never overlap. */
  function ReplaceAll(p: Pattern, s: string): string
    decreases |s|
  {
    if s == [] then []
    else
      var k := MatchLength(p, s);
      if k > 0 then Canonical + ReplaceAll(p, s[k..])
      else [s[0]] + ReplaceAll(p, s[1..])
  }

  /** The two replacements, opening breaks first. */
  function NormalizeBreaks(html: string): string {
    ReplaceAll(CloseBreak, ReplaceAll(OpenBreak, html))
  }

  /** Every match of `q` at the start of `t` is the canonical break. */
  predicate CanonicalAt(q: Pattern, t: string) {
    MatchLength(q, t) > 0 ==> |t| >= 5 && t[..5] == Canonical
  }

  /** Every match of `q` anywhere in `s` is the canonical break. */
  predicate Clean(q: Pattern, s: string) {
    forall i | 0 <= i <= |s| :: CanonicalAt(q, s[i..])
  }

  // ---------------------------------------------------------------------
  // What the rewrite guarantees
  // ---------------------------------------------------------------------

  /** After the rewrite no closing `</br>` is left and every opening break is
      written `<br/>`. */
  lemma NormalizedIsClean(html: string)
    ensures Clean(OpenBreak, NormalizeBreaks(html))
    ensures forall i | 0 <= i <= |NormalizeBreaks(html)| :: MatchLength(CloseBreak, NormalizeBreaks(html)[i..]) == 0
  {
    var firstPass := ReplaceAll(OpenBreak, html);
    CleanAfter(OpenBreak, OpenBreak, html);
    CleanAfter(CloseBreak, OpenBreak, firstPass);
    CleanAfter(CloseBreak, CloseBreak, firstPass);
    CleanCloseHasNoMatch(NormalizeBreaks(html));
  }

  /** Rewriting twice is rewriting once. */
  lemma NormalizeIdempotent(html: string)
    ensures NormalizeBreaks(NormalizeBreaks(html)) == NormalizeBreaks(html)
  {
    var n := NormalizeBreaks(html);
    var firstPass := ReplaceAll(OpenBreak, html);
    CleanAfter(OpenBreak, OpenBreak, html);
    CleanAfter(CloseBreak, OpenBreak, firstPass);
    CleanAfter(CloseBreak, CloseBreak, firstPass);
    CleanFixed(OpenBreak, n);
    CleanFixed(CloseBreak, n);
  }

  /** A break in any letter case with white space before the bracket, such
      as `<BR >`, becomes `<br/>`. */
  lemma SpacedBreak(b: char, r: char, sp: char)
    requires IsB(b) && IsR(r) && IsSpace(sp)
    ensures NormalizeBreaks(['<', b, r, sp, '>']) == Canonical
  {
    var t := ['<', b, r, sp, '>'];
    var tail := t[3..];
    assert tail[1..] == ['>'];
    assert BreakEnd(tail[1..]) == 1;
    assert BreakEnd(tail) == 2;
    assert MatchLength(OpenBreak, t) == 5;
    assert t[5..] == [];
    assert ReplaceAll(OpenBreak, t) == Canonical + ReplaceAll(OpenBreak, []);
    assert Canonical + [] == Canonical;
    CanonicalIsFixed();
    assert NormalizeBreaks(t) == ReplaceAll(CloseBreak, Canonical);
  }

  /** A closing break in any letter case becomes `<br/>`. */
  lemma ClosingBreak(b: char, r: char)
    requires IsB(b) && IsR(r)
    ensures NormalizeBreaks(['<', '/', b, r, '>']) == Canonical
  {
    var t := ['<', '/', b, r, '>'];
    assert MatchLength(OpenBreak, t) == 0;
    assert '<' !in t[1..];
    NoAngleUnchanged(OpenBreak, t[1..]);
    assert ReplaceAll(OpenBreak, t) == [t[0]] + t[1..] == t;
    assert MatchLength(CloseBreak, t) == 5;
    assert t[5..] == [];
    assert ReplaceAll(CloseBreak, t) == Canonical + ReplaceAll(CloseBreak, []);
  }

  lemma CanonicalIsFixed()
    ensures ReplaceAll(CloseBreak, Canonical) == Canonical
  {
    CanonicalMatch(CloseBreak, Canonical);
    assert '<' !in Canonical[1..];
    NoAngleUnchanged(CloseBreak, Canonical[1..]);
    assert Canonical == [Canonical[0]] + Canonical[1..];
  }

  /** Markup that is already clean is left exactly as it is. */
  lemma {:induction false} CleanFixed(p: Pattern, s: string)
    requires Clean(p, s)
    ensures ReplaceAll(p, s) == s
    decreases |s|
  {
    if s != [] {
      var k := MatchLength(p, s);
      assert CanonicalAt(p, s[0..]);
      assert s[0..] == s;
      if k > 0 {
        CanonicalMatch(p, s);
        CleanSuffix(p, s, 5);
        CleanFixed(p, s[5..]);
        assert s == s[..5] + s[5..];
      } else {
        CleanSuffix(p, s, 1);
        CleanFixed(p, s[1..]);
        assert s == [s[0]] + s[1..];
      }
    }
  }

  /** Text without a `<` is never rewritten. */
  lemma {:induction false} NoAngleUnchanged(p: Pattern, s: string)
    requires '<' !in s
    ensures ReplaceAll(p, s) == s
    decreases |s|
  {
    if s != [] {
      assert MatchLength(p, s) == 0;
      NoAngleUnchanged(p, s[1..]);
      assert s == [s[0]] + s[1..];
    }
  }

  /** Text without a `<` passes through the whole rewrite unchanged. */
  lemma NormalizeWithoutTags(html: string)
    requires '<' !in html
    ensures NormalizeBreaks(html) == html
  {
    NoAngleUnchanged(OpenBreak, html);
    NoAngleUnchanged(CloseBreak, html);
  }

  /** The closing-break pattern never matches the canonical break, so being
      clean for it means having no closing break at all. */
  lemma CleanCloseHasNoMatch(s: string)
    requires Clean(CloseBreak, s)
    ensures forall i | 0 <= i <= |s| :: MatchLength(CloseBreak, s[i..]) == 0
  {
    forall i | 0 <= i <= |s|
      ensures MatchLength(CloseBreak, s[i..]) == 0
    {
      assert CanonicalAt(CloseBreak, s[i..]);
      if MatchLength(CloseBreak, s[i..]) > 0 {
        CanonicalMatch(CloseBreak, s[i..]);
      }
    }
  }

  /** The opening pattern matches the canonical break exactly; the closing
      pattern does not match it. */
  lemma CanonicalMatch(q: Pattern, t: string)
    requires |t| >= 5 && t[..5] == Canonical
    ensures MatchLength(q, t) == if q == OpenBreak then 5 else 0
  {
    assert t[0] == '<' && t[1] == 'b' && t[2] == 'r' && t[3] == '/' && t[4] == '>';
    if q == OpenBreak {
      var u := t[3..];
      assert u[0] == '/' && u[1] == '>';
      assert BreakEnd(u) == 2;
    }
  }

  // ---------------------------------------------------------------------
  // One pass keeps every pattern clean
  // ---------------------------------------------------------------------

  /** A pass replacing `p` leaves only canonical matches of `p`, and it keeps
      any other pattern `q` clean. */
  lemma {:induction false} CleanAfter(p: Pattern, q: Pattern, s: string)
    requires q == p || Clean(q, s)
    ensures Clean(q, ReplaceAll(p, s))
    decreases |s|
  {
    var r := ReplaceAll(p, s);
    if s == [] {
      assert r == [];
      assert r[0..] == [];
    } else {
      var k := MatchLength(p, s);
      if k > 0 {
        var r1 := ReplaceAll(p, s[k..]);
        if q != p {
          CleanSuffix(q, s, k);
        }
        CleanAfter(p, q, s[k..]);
        assert r == Canonical + r1;
        CleanPrepend(q, r1);
      } else {
        var r1 := ReplaceAll(p, s[1..]);
        if q != p {
          CleanSuffix(q, s, 1);
          assert s[0..] == s;
        }
        CleanAfter(p, q, s[1..]);
        assert r == [s[0]] + r1;
        PassThroughCanonical(p, q, s);
        CleanCons(q, s[0], r1);
      }
    }
  }

  /** A character the pass keeps starts a match of `q` only where the input
      had one: the match cannot reach past the next `<`, and up to there the
      pass copies its input. */
  lemma PassThroughCanonical(p: Pattern, q: Pattern, s: string)
    requires s != [] && MatchLength(p, s) == 0
    requires q == p || CanonicalAt(q, s)
    ensures CanonicalAt(q, [s[0]] + ReplaceAll(p, s[1..]))
  {
    var r1 := ReplaceAll(p, s[1..]);
    var r := [s[0]] + r1;
    var m := MatchLength(q, r);
    if m > 0 {
      MatchAngleFree(q, r);
      assert r[1..m] == r1[..m - 1];
      ReplacePrefix(p, s[1..], m - 1);
      assert r[..m] == [s[0]] + r1[..m - 1];
      assert s[..m] == [s[0]] + s[1..][..m - 1];
      PrefixDetermines(q, r, s);
      CanonicalMatch(q, s);
      assert r[..5] == s[..5];
    }
  }

  /** Up to its first `<`, a pass copies its input. */
  lemma {:induction false} ReplacePrefix(p: Pattern, t: string, j: nat)
    requires j <= |ReplaceAll(p, t)| && '<' !in ReplaceAll(p, t)[..j]
    ensures j <= |t| && ReplaceAll(p, t)[..j] == t[..j]
    decreases |t|
  {
    if j > 0 {
      var r := ReplaceAll(p, t);
      assert r[0] == r[..j][0] != '<';
      assert MatchLength(p, t) == 0;
      var r1 := ReplaceAll(p, t[1..]);
      assert r == [t[0]] + r1;
      assert r1[..j - 1] == r[1..j];
      ReplacePrefix(p, t[1..], j - 1);
      assert r[..j] == [t[0]] + r1[..j - 1];
      assert t[..j] == [t[0]] + t[1..][..j - 1];
    }
  }

  // ---------------------------------------------------------------------
  // Matches
  // ---------------------------------------------------------------------

  /** A match holds no `<` after its first character. */
  lemma MatchAngleFree(q: Pattern, t: string)
    requires MatchLength(q, t) > 0
    ensures '<' !in t[1..MatchLength(q, t)]
  {
    var m := MatchLength(q, t);
    if q == OpenBreak {
      BreakEndAngleFree(t[3..]);
      assert t[1..m] == t[1..3] + t[3..][..m - 3];
    }
  }

  lemma {:induction false} BreakEndAngleFree(t: string)
    ensures '<' !in t[..BreakEnd(t)]
    decreases |t|
  {
    if t != [] && IsSpace(t[0]) && BreakEnd(t[1..]) > 0 {
      BreakEndAngleFree(t[1..]);
      assert t[..BreakEnd(t)] == [t[0]] + t[1..][..BreakEnd(t[1..])];
    }
  }

  /** Whether a match starts at a position depends only on the characters the
      match spans. */
  lemma PrefixDetermines(q: Pattern, x: string, y: string)
    requires MatchLength(q, x) > 0
    requires |y| >= MatchLength(q, x) && y[..MatchLength(q, x)] == x[..MatchLength(q, x)]
    ensures MatchLength(q, y) == MatchLength(q, x)
  {
    var m := MatchLength(q, x);
    assert y[0] == x[0] && y[1] == x[1] && y[2] == x[2] && y[3] == x[3];
    if q == OpenBreak {
      assert y[3..][..m - 3] == y[..m][3..];
      assert x[3..][..m - 3] == x[..m][3..];
      BreakEndDetermines(x[3..], y[3..]);
    } else {
      assert y[4] == x[4];
    }
  }

  lemma {:induction false} BreakEndDetermines(x: string, y: string)
    requires BreakEnd(x) > 0
    requires |y| >= BreakEnd(x) && y[..BreakEnd(x)] == x[..BreakEnd(x)]
    ensures BreakEnd(y) == BreakEnd(x)
    decreases |x|
  {
    var k := BreakEnd(x);
    assert y[0] == x[0];
    if IsSpace(x[0]) {
      assert y[1..][..k - 1] == x[1..][..k - 1];
      BreakEndDetermines(x[1..], y[1..]);
    } else if x[0] == '/' {
      assert y[1] == x[1];
    }
  }

  // ---------------------------------------------------------------------
  // Clean strings
  // ---------------------------------------------------------------------

  lemma CleanSuffix(q: Pattern, s: string, k: nat)
    requires Clean(q, s) && k <= |s|
    ensures Clean(q, s[k..])
  {
    forall i | 0 <= i <= |s[k..]|
      ensures CanonicalAt(q, s[k..][i..])
    {
      assert s[k..][i..] == s[k + i..];
    }
  }

  /** The canonical break in front of a clean string keeps it clean: its inner
      characters cannot start a match. */
  lemma CleanPrepend(q: Pattern, r: string)
    requires Clean(q, r)
    ensures Clean(q, Canonical + r)
  {
    var t := Canonical + r;
    forall i | 0 <= i <= |t|
      ensures CanonicalAt(q, t[i..])
    {
      if i == 0 {
        assert t[i..][..5] == Canonical;
        CanonicalMatch(q, t[i..]);
      } else if i < 5 {
        assert t[i..][0] == Canonical[i] != '<';
      } else {
        assert t[i..] == r[i - 5..];
      }
    }
  }

  lemma CleanCons(q: Pattern, c: char, r: string)
    requires Clean(q, r) && CanonicalAt(q, [c] + r)
    ensures Clean(q, [c] + r)
  {
    var t := [c] + r;
    forall i | 0 <= i <= |t|
      ensures CanonicalAt(q, t[i..])
    {
      if i == 0 {
        assert t[i..] == t;
      } else {
        assert t[i..] == r[i - 1..];
      }
    }
  }
}

=== FILE: dom.dfy ===
/** The parsed HTML tree both helper files work on, and the splice primitive they
    use to rewrite it. A document is the sequence of its top-level children; a
    node's place in its parent is its index in the parent's child sequence. */
module Dom {
  import opened Wrappers
  import opened Strings

  /** The opening tags of the editor's underline and strikethrough inline tools. */
  const UnderlineOpen: string := "<u class=\"cdx-underline\">"
  const StrikeOpen: string := "<s class=\"cdx-strikethrough\">"

  /** One attribute, its name lower-cased by the parser. */
  datatype Attr = Attr(key: string, value: string)

  datatype Node =
    | Element(name: string, attrs: seq<Attr>, children: seq<Node>)
    | Text(data: string)
    | CData(children: seq<Node>)
    /** A processing instruction such as `<!DOCTYPE …>`. */
    | Directive(data: string)
    | Comment(data: string)

  predicate IsElementNamed(n: Node, name: string) {
    n.Element? && n.name == name
  }

  /** The children of a node that has them (an element or a CDATA section). */
  function ChildrenOf(n: Node): seq<Node> {
    if n.Element? || n.CData? then n.children else []
  }

  /** `attribs[key]`: the value of the first attribute named `key`, if any. */
  function Lookup(attrs: seq<Attr>, key: string): (r: Option<string>)
    ensures r.Some? <==> exists i | 0 <= i < |attrs| :: attrs[i].key == key
    ensures r.Some? ==> Attr(key, r.value) in attrs
  {
    if attrs == [] then None
    else if attrs[0].key == key then Some(attrs[0].value)
    else Lookup(attrs[1..], key)
  }

  /** `attribs[key] || fallback`: an absent or empty attribute gives `fallback`. */
  function AttrOr(attrs: seq<Attr>, key: string, fallback: string): (r: string)
    ensures Lookup(attrs, key).GetOr("") == "" ==> r == fallback
    ensures Lookup(attrs, key).GetOr("") != "" ==> r == Lookup(attrs, key).value
  {
    var v := Lookup(attrs, key).GetOr("");
    if v == "" then fallback else v
  }

  /** `getTextContent` (dom-tree-manipulator.ts): the character data of text
      nodes below `n`, in document order; CDATA sections, directives and comments
      contribute nothing. */
  function TextContent(n: Node): string {
    match n
    case Text(d) => d
    case Element(_, _, cs) => TextContentOf(cs)
    case _ => ""
  }

  /** `children.map(getTextContent).join("")`. */
  function TextContentOf(cs: seq<Node>): string {
    if cs == [] then "" else TextContent(cs[0]) + TextContentOf(cs[1..])
  }

  lemma {:induction false} TextContentOfConcat(a: seq<Node>, b: seq<Node>)
    ensures TextContentOf(a + b) == TextContentOf(a) + TextContentOf(b)
  {
    if a == [] {
      assert a + b == b;
    } else {
      assert (a + b)[0] == a[0];
      assert (a + b)[1..] == a[1..] + b;
      TextContentOfConcat(a[1..], b);
    }
  }

  /** One `key="value"` entry of an attribute list. */
  function AttrEntry(a: Attr): string {
    a.key + "=\"" + a.value + "\""
  }

  function AttrEntries(attrs: seq<Attr>): (r: seq<string>)
    ensures |r| == |attrs|
    ensures forall i | 0 <= i < |r| :: r[i] == AttrEntry(attrs[i])
  {
    if attrs == [] then [] else [AttrEntry(attrs[0])] + AttrEntries(attrs[1..])
  }

  /** `Object.entries(attribs).map(([k, v]) => `${k}="${v}"`).join(" ")`. */
  function AttrList(attrs: seq<Attr>): (r: string)
    ensures r == "" <==> attrs == []
  {
    var entries := AttrEntries(attrs);
    assert entries != [] ==> |Join(entries, " ")| >= |entries[0]| >= 2;
    Join(entries, " ")
  }

  /** The opening tag `renderElementToString` writes: no space after the name
      when the element has no attributes. */
  function OpeningTag(name: string, attrs: seq<Attr>): string {
    var list := AttrList(attrs);
    if list != "" then "<" + name + " " + list + ">" else "<" + name + ">"
  }

  /** The opening tag is the bare `<name>` exactly when there are no attributes. */
  lemma OpeningTagBare(name: string, attrs: seq<Attr>)
    ensures OpeningTag(name, attrs) == "<" + name + ">" <==> attrs == []
  {
    if attrs != [] {
      assert |OpeningTag(name, attrs)| > |"<" + name + ">"|;
    }
  }

  /** `renderElementToString` for elements and the per-child rule of
      `domTreeToString`: character data verbatim, an element as its opening tag,
      rendered children and closing tag, anything else as nothing. */
  function RenderNode(n: Node): string {
    match n
    case Text(d) => d
    case Element(name, attrs, cs) => OpeningTag(name, attrs) + Render(cs) + "</" + name + ">"
    case _ => ""
  }

  /** `domTreeToString`: the rendering of a sequence of sibling nodes. */
  function Render(cs: seq<Node>): string {
    if cs == [] then "" else RenderNode(cs[0]) + Render(cs[1..])
  }

  /** Rendering distributes over concatenation of sibling runs. */
  lemma {:induction false} RenderConcat(a: seq<Node>, b: seq<Node>)
    ensures Render(a + b) == Render(a) + Render(b)
  {
    if a == [] {
      assert a + b == b;
    } else {
      assert (a + b)[0] == a[0];
      assert (a + b)[1..] == a[1..] + b;
      RenderConcat(a[1..], b);
    }
  }

  /** A run of text nodes renders as its text content. */
  lemma {:induction false} RenderOfText(cs: seq<Node>)
    requires forall i | 0 <= i < |cs| :: cs[i].Text?
    ensures Render(cs) == TextContentOf(cs)
  {
    if cs != [] {
      RenderOfText(cs[1..]);
    }
  }

  /** The single splice primitive: the node at `i` is replaced by the run `run`,
      every other sibling keeping its place relative to it. */
  function Splice(siblings: seq<Node>, i: nat, run: seq<Node>): (r: seq<Node>)
    requires i < |siblings|
    ensures |r| == |siblings| - 1 + |run|
    ensures r[..i] == siblings[..i]
    ensures r[i..i + |run|] == run
    ensures r[i + |run|..] == siblings[i + 1..]
  {
    siblings[..i] + run + siblings[i + 1..]
  }

  /** What a splice does to the rendering: the rendering of the replaced node is
      replaced by the rendering of the run. */
  lemma RenderSplice(siblings: seq<Node>, i: nat, run: seq<Node>)
    requires i < |siblings|
    ensures Render(siblings) == Render(siblings[..i]) + RenderNode(siblings[i]) + Render(siblings[i + 1..])
    ensures Render(Splice(siblings, i, run)) == Render(siblings[..i]) + Render(run) + Render(siblings[i + 1..])
  {
    RenderAround(siblings[..i], [siblings[i]], siblings[i + 1..]);
    assert siblings == siblings[..i] + [siblings[i]] + siblings[i + 1..];
    assert Render([siblings[i]]) == RenderNode(siblings[i]) + Render([]);
    RenderAround(siblings[..i], run, siblings[i + 1..]);
  }

  lemma RenderAround(a: seq<Node>, b: seq<Node>, c: seq<Node>)
    ensures Render(a + b + c) == Render(a) + Render(b) + Render(c)
  {
    RenderConcat(a + b, c);
    RenderConcat(a, b);
  }

  /** What a splice does to the text content, likewise. */
  lemma TextContentSplice(siblings: seq<Node>, i: nat, run: seq<Node>)
    requires i < |siblings|
    ensures TextContentOf(siblings) == TextContentOf(siblings[..i]) + TextContent(siblings[i]) + TextContentOf(siblings[i + 1..])
    ensures TextContentOf(Splice(siblings, i, run)) == TextContentOf(siblings[..i]) + TextContentOf(run) + TextContentOf(siblings[i + 1..])
  {
    assert siblings == siblings[..i] + [siblings[i]] + siblings[i + 1..];
    TextContentOfConcat(siblings[..i] + [siblings[i]], siblings[i + 1..]);
    TextContentOfConcat(siblings[..i], [siblings[i]]);
    TextContentOfConcat(siblings[..i] + run, siblings[i + 1..]);
    TextContentOfConcat(siblings[..i], run);
  }
}

=== FILE: inline.dfy ===
/** The inline text of a paragraph-like element (`getNodeText` and
    `processTagInText` in editorjs-serializer.ts): the trimmed text of its
    children joined with single spaces, inline formatting elements kept as the
    editor's inline markup, everything else flattened to its text. */
module Inline {
  import opened Wrappers
  import opened Strings
  import opened Dom

  /** Which program the model computes: the source as written, or the source
      with the defects listed under the README's findings corrected. The two
      differ only where a finding applies; `NodeTextBuildsAgree` and
      `ConvertNodeBuildsAgree` (in the serializer) state where. */
  datatype Build = AsWritten | Corrected

  /** `getNodeText`: the non-empty parts of the children joined with a space, then
      every white-space run collapsed to one space and every space before a full
      stop removed. The result never starts or ends with white space, holds no
      two adjacent white-space characters and no white space before a full stop. */
  function NodeText(build: Build, cs: seq<Node>): (r: string)
    ensures Trimmed(r) && Collapsed(r) && NoSpaceBeforeDot(r)
    ensures r == [] <==> TextParts(build, cs) == []
    decreases cs, 1
  {
    var parts := TextParts(build, cs);
    JoinTrimmed(parts);
    CleanUpKeepsTrimmed(Join(parts, " "));
    StripSpaceBeforeDot(CollapseSpaces(Join(parts, " ")))
  }

  /** The parts the children contribute, in order; every part is non-empty and
      trimmed. */
  function TextParts(build: Build, cs: seq<Node>): (r: seq<string>)
    ensures forall i | 0 <= i < |r| :: r[i] != [] && Trimmed(r[i])
    decreases cs, 0
  {
    if cs == [] then [] else Part(build, cs[0]) + TextParts(build, cs[1..])
  }

  /** What one child contributes: a text node its trimmed data, a CDATA section
      the inline text of its content and an element its `processTagInText`
      rendering, each only when non-empty; a directive `<!data>`; a comment
      nothing. */
  function Part(build: Build, c: Node): (r: seq<string>)
    ensures |r| <= 1
    ensures forall i | 0 <= i < |r| :: r[i] != [] && Trimmed(r[i])
    decreases c, 0
  {
    match c
    case Text(d) => NonEmpty(Trim(d))
    case CData(ch) => NonEmpty(NodeText(build, ch))
    case Element(name, attrs, ch) => NonEmpty(TagText(build, name, attrs, ch))
    case Directive(d) => ["<!" + d + ">"]
    case Comment(_) => []
  }

  /** The list holding `s` when `s` is not empty: `if (text)
      textParts.push(text)` here, and `if (rowCells.length > 0)
      rows.push(rowCells)` for table rows. */
  function NonEmpty<T>(s: seq<T>): (r: seq<seq<T>>)
    ensures r == [] <==> s == []
    ensures forall i | 0 <= i < |r| :: r[i] == s
  {
    if s == [] then [] else [s]
  }

  /** `TAG_MAPPING[tagName]` for the object's own keys: the semantic tag an inline
      formatting element is written as. */
  function InlineTag(tag: string): Option<string> {
    match tag
    case "i" => Some("i")
    case "b" => Some("b")
    case "u" => Some("u")
    case "s" => Some("s")
    case "strong" => Some("b")
    case "em" => Some("i")
    case _ => None
  }

  /** The source's `tagName in TAG_MAPPING` also finds the properties every
      object inherits. Of those, only `constructor` can be a lower-case HTML tag
      name, and its value, the `Object` function, renders as its source text. */
  function InlineTagAsWritten(tag: string): Option<string> {
    if tag == "constructor" then Some(ObjectSource) else InlineTag(tag)
  }

  /** How a JavaScript engine renders the `Object` function in a template
      string. The text is engine-dependent; this is V8's. */
  const ObjectSource: string := "function Object() { [native code] }"

  /** The markup `processTagInText` writes for an element whose lower-cased name
      is `tag` and whose inline text is `inner`, given its mapped tag. */
  function Markup(tag: string, href: string, inner: string, mapped: Option<string>): (r: string)
    requires Trimmed(inner)
    ensures Trimmed(r)
  {
    if tag == "a" then "<a href=\"" + href + "\">" + inner + "</a>"
    else if tag == "s" || tag == "strike" || tag == "del" then StrikeOpen + inner + "</s>"
    else if tag == "u" || tag == "ins" then UnderlineOpen + inner + "</u>"
    else if mapped.Some? then "<" + mapped.value + ">" + inner + "</" + mapped.value + ">"
    else inner
  }

  /** `TAG_MAPPING[tagName]` as the chosen build looks it up. */
  function Mapping(build: Build, tag: string): Option<string> {
    if build == AsWritten then InlineTagAsWritten(tag) else InlineTag(tag)
  }

  /** `processTagInText` for an element: links keep their target (`#` when the
      `href` is absent or empty), strikethrough and underline elements become the
      editor's inline-tool markup, the other formatting elements their semantic
      tag, and any other element only its inline text. */
  function TagText(build: Build, name: string, attrs: seq<Attr>, cs: seq<Node>): (r: string)
    ensures Trimmed(r)
    decreases cs, 2
  {
    var tag := ToLower(name);
    Markup(tag, AttrOr(attrs, "href", "#"), NodeText(build, cs), Mapping(build, tag))
  }

  /** Every tag the corrected lookup maps to is one of the four semantic inline
      tags, and the lookup finds exactly the six formatting names. */
  lemma InlineTagIsSemantic(tag: string)
    ensures InlineTag(tag).Some? ==> InlineTag(tag).value in {"i", "b", "u", "s"}
    ensures InlineTag(tag).Some? <==> tag in {"i", "b", "u", "s", "strong", "em"}
  {
  }

  /** The two lookups differ only on the inherited key. */
  lemma InlineTagAsWrittenAgrees(tag: string)
    ensures InlineTagAsWritten(tag) == InlineTag(tag) <==> tag != "constructor"
  {
  }

  /** An element named `constructor` is written as a tag named after the source
      text of the `Object` function, where the intended behaviour treats it as an
      unknown element and keeps only its text. */
  lemma ConstructorTagCounterexample()
    ensures TagText(AsWritten, "constructor", [], [Text("x")]) == "<" + ObjectSource + ">" + "x" + "</" + ObjectSource + ">"
    ensures TagText(Corrected, "constructor", [], [Text("x")]) == "x"
  {
    ConstructorTag([], [Text("x")]);
    SingleWord(AsWritten);
    SingleWord(Corrected);
  }

  /** Any element named `constructor`: as written its text is wrapped in the
      `Object` source text, as intended it is the bare text. */
  lemma ConstructorTag(attrs: seq<Attr>, cs: seq<Node>)
    ensures TagText(AsWritten, "constructor", attrs, cs)
      == "<" + ObjectSource + ">" + NodeText(AsWritten, cs) + "</" + ObjectSource + ">"
    ensures TagText(Corrected, "constructor", attrs, cs) == NodeText(Corrected, cs)
  {
    ConstructorIsLower();
    MarkupConstructor(AttrOr(attrs, "href", "#"), NodeText(AsWritten, cs));
    MarkupConstructor(AttrOr(attrs, "href", "#"), NodeText(Corrected, cs));
  }

  lemma ConstructorIsLower()
    ensures ToLower("constructor") == "constructor"
  {
    LowerOfLower("constructor");
  }

  lemma MarkupConstructor(href: string, inner: string)
    requires Trimmed(inner)
    ensures Markup("constructor", href, inner, InlineTagAsWritten("constructor"))
      == "<" + ObjectSource + ">" + inner + "</" + ObjectSource + ">"
    ensures Markup("constructor", href, inner, InlineTag("constructor")) == inner
  {
  }

  /** The inline text of the single text node `x`. */
  lemma SingleWord(build: Build)
    ensures NodeText(build, [Text("x")]) == "x"
  {
    SingleWordParts(build);
    assert Join(["x"], " ") == "x";
    SingleWordCleanUp();
  }

  lemma SingleWordParts(build: Build)
    ensures TextParts(build, [Text("x")]) == ["x"]
  {
    TrimOfWord();
    TextPartsOne(build, Text("x"));
  }

  lemma TextPartsOne(build: Build, c: Node)
    ensures TextParts(build, [c]) == Part(build, c)
  {
    assert [c][1..] == [];
    assert Part(build, c) + [] == Part(build, c);
  }

  lemma TrimOfWord()
    ensures Trim("x") == "x"
  {
    assert TrimStart("x") == "x" && TrimEnd("x") == "x";
  }

  lemma SingleWordCleanUp()
    ensures StripSpaceBeforeDot(CollapseSpaces("x")) == "x"
  {
    assert CollapseSpaces("x") == "x" by {
      assert CollapseSpaces("x") == ['x'] + CollapseSpaces([]);
    }
    assert StripSpaceBeforeDot("x") == ['x'] + StripSpaceBeforeDot([]);
  }

  /** An element whose name is already lower-case is written by `Markup` under
      that name. */
  lemma TagTextOfLower(build: Build, name: string, attrs: seq<Attr>, cs: seq<Node>)
    requires forall i | 0 <= i < |name| :: !('A' <= name[i] <= 'Z')
    ensures TagText(build, name, attrs, cs) == Markup(name, AttrOr(attrs, "href", "#"), NodeText(build, cs), Mapping(build, name))
  {
    LowerOfLower(name);
  }

  /** `<strong>` and `<b>` both become `<b>`. */
  lemma StrongIsBold(build: Build, attrs: seq<Attr>, cs: seq<Node>)
    ensures TagText(build, "strong", attrs, cs) == TagText(build, "b", attrs, cs) == "<b>" + NodeText(build, cs) + "</b>"
  {
    TagTextOfLower(build, "strong", attrs, cs);
    TagTextOfLower(build, "b", attrs, cs);
    MarkupBold(AttrOr(attrs, "href", "#"), NodeText(build, cs));
  }

  /** `<em>` and `<i>` both become `<i>`. */
  lemma EmphasisIsItalic(build: Build, attrs: seq<Attr>, cs: seq<Node>)
    ensures TagText(build, "em", attrs, cs) == TagText(build, "i", attrs, cs) == "<i>" + NodeText(build, cs) + "</i>"
  {
    TagTextOfLower(build, "em", attrs, cs);
    TagTextOfLower(build, "i", attrs, cs);
    MarkupItalic(AttrOr(attrs, "href", "#"), NodeText(build, cs));
  }

  /** `<strike>` and `<s>` both become the strikethrough tool's markup. */
  lemma StrikeIsStrikethrough(build: Build, attrs: seq<Attr>, cs: seq<Node>)
    ensures TagText(build, "strike", attrs, cs) == TagText(build, "s", attrs, cs) == StrikeOpen + NodeText(build, cs) + "</s>"
  {
    TagTextOfLower(build, "strike", attrs, cs);
    TagTextOfLower(build, "s", attrs, cs);
    MarkupStrike(AttrOr(attrs, "href", "#"), NodeText(build, cs));
  }

  /** `<del>` becomes the strikethrough tool's markup too. */
  lemma DeletionIsStrikethrough(build: Build, attrs: seq<Attr>, cs: seq<Node>)
    ensures TagText(build, "del", attrs, cs) == StrikeOpen + NodeText(build, cs) + "</s>"
  {
    TagTextOfLower(build, "del", attrs, cs);
    MarkupStrike(AttrOr(attrs, "href", "#"), NodeText(build, cs));
  }

  /** `<u>` and `<ins>` both become the underline tool's markup. */
  lemma UnderlineSynonyms(build: Build, attrs: seq<Attr>, cs: seq<Node>)
    ensures TagText(build, "ins", attrs, cs) == TagText(build, "u", attrs, cs) == UnderlineOpen + NodeText(build, cs) + "</u>"
  {
    TagTextOfLower(build, "ins", attrs, cs);
    TagTextOfLower(build, "u", attrs, cs);
    MarkupUnderline(AttrOr(attrs, "href", "#"), NodeText(build, cs));
  }

  lemma MarkupStrike(href: string, inner: string)
    requires Trimmed(inner)
    ensures Markup("strike", href, inner, InlineTag("strike")) == Markup("del", href, inner, InlineTag("del"))
      == Markup("s", href, inner, InlineTag("s")) == StrikeOpen + inner + "</s>"
  {
  }

  lemma MarkupUnderline(href: string, inner: string)
    requires Trimmed(inner)
    ensures Markup("ins", href, inner, InlineTag("ins")) == Markup("u", href, inner, InlineTag("u")) == UnderlineOpen + inner + "</u>"
  {
  }

  lemma MarkupBold(href: string, inner: string)
    requires Trimmed(inner)
    ensures Markup("strong", href, inner, InlineTag("strong")) == Markup("b", href, inner, InlineTag("b")) == "<b>" + inner + "</b>"
  {
  }

  lemma MarkupItalic(href: string, inner: string)
    requires Trimmed(inner)
    ensures Markup("em", href, inner, InlineTag("em")) == Markup("i", href, inner, InlineTag("i")) == "<i>" + inner + "</i>"
  {
  }

  /** The element name is compared case-insensitively. */
  lemma TagNameIgnoresCase(build: Build, name: string, attrs: seq<Attr>, cs: seq<Node>)
    ensures TagText(build, ToUpper(name), attrs, cs) == TagText(build, name, attrs, cs)
  {
    LowerOfUpper(name);
  }

  /** An element that is neither a link nor a formatting element contributes
      only its inline text, whatever its attributes; as written, an element
      named `constructor` is the exception. */
  lemma UnknownTagIsTransparent(build: Build, name: string, attrs: seq<Attr>, cs: seq<Node>)
    requires ToLower(name) !in {"a", "s", "strike", "del", "u", "ins", "i", "b", "strong", "em"}
    requires build == AsWritten ==> ToLower(name) != "constructor"
    ensures TagText(build, name, attrs, cs) == NodeText(build, cs)
  {
  }

  /** A link without a target, or with an empty one, points at `#`. */
  lemma LinkDefaultsToHash(build: Build, attrs: seq<Attr>, cs: seq<Node>)
    requires Lookup(attrs, "href").GetOr("") == ""
    ensures TagText(build, "a", attrs, cs) == "<a href=\"#\">" + NodeText(build, cs) + "</a>"
  {
    TagTextOfLower(build, "a", attrs, cs);
  }

  /** A link is written with its target and its inline text. */
  lemma LinkKeepsTarget(build: Build, attrs: seq<Attr>, cs: seq<Node>, href: string)
    requires Lookup(attrs, "href") == Some(href) && href != ""
    ensures TagText(build, "a", attrs, cs) == "<a href=\"" + href + "\">" + NodeText(build, cs) + "</a>"
  {
    TagTextOfLower(build, "a", attrs, cs);
  }

  lemma {:induction false} TextPartsConcat(build: Build, a: seq<Node>, b: seq<Node>)
    ensures TextParts(build, a + b) == TextParts(build, a) + TextParts(build, b)
  {
    if a == [] {
      assert a + b == b;
    } else {
      assert (a + b)[0] == a[0];
      assert (a + b)[1..] == a[1..] + b;
      TextPartsConcat(build, a[1..], b);
    }
  }

  /** Comments contribute nothing: removing one leaves the inline text as it is. */
  lemma CommentIsIgnored(build: Build, a: seq<Node>, data: string, b: seq<Node>)
    ensures NodeText(build, a + [Comment(data)] + b) == NodeText(build, a + b)
  {
    TextPartsConcat(build, a + [Comment(data)], b);
    TextPartsConcat(build, a, [Comment(data)]);
    TextPartsConcat(build, a, b);
    assert TextParts(build, [Comment(data)]) == [];
    assert TextParts(build, a + [Comment(data)] + b) == TextParts(build, a + b);
  }

  /** The parts of a run of text nodes hold exactly its non-white-space
      characters. */
  lemma {:induction false} TextPartsKeepText(build: Build, cs: seq<Node>)
    requires forall i | 0 <= i < |cs| :: cs[i].Text?
    ensures NonSpace(Concat(TextParts(build, cs))) == NonSpace(TextContentOf(cs))
  {
    if cs != [] {
      TextPartsKeepText(build, cs[1..]);
      var head := Part(build, cs[0]);
      var d := cs[0].data;
      assert TextParts(build, cs) == head + TextParts(build, cs[1..]);
      ConcatAppend(head, TextParts(build, cs[1..]));
      assert Concat(head) == Trim(d) by {
        if head != [] {
          assert Concat(head) == head[0] + Concat([]);
        }
      }
      NonSpaceConcat(Trim(d), Concat(TextParts(build, cs[1..])));
      NonSpaceConcat(d, TextContentOf(cs[1..]));
    }
  }

  lemma {:induction false} ConcatAppend(a: seq<string>, b: seq<string>)
    ensures Concat(a + b) == Concat(a) + Concat(b)
  {
    if a == [] {
      assert a + b == b;
    } else {
      assert (a + b)[0] == a[0];
      assert (a + b)[1..] == a[1..] + b;
      ConcatAppend(a[1..], b);
    }
  }

  /** The inline text of a run of text nodes keeps every non-white-space
      character, in order: only white space is trimmed, collapsed or removed. */
  lemma PlainTextKeepsCharacters(build: Build, cs: seq<Node>)
    requires forall i | 0 <= i < |cs| :: cs[i].Text?
    ensures NonSpace(NodeText(build, cs)) == NonSpace(TextContentOf(cs))
  {
    var parts := TextParts(build, cs);
    TextPartsKeepText(build, cs);
    JoinKeepsText(parts);
    CollapseKeepsText(Join(parts, " "));
    StripKeepsText(CollapseSpaces(Join(parts, " ")));
  }

  /** No element at any depth is named `constructor`, in any letter case. */
  predicate NoConstructor(cs: seq<Node>)
    decreases cs, 0
  {
    forall i | 0 <= i < |cs| :: NoConstructorNode(cs[i])
  }

  predicate NoConstructorNode(n: Node)
    decreases n, 1
  {
    match n
    case Element(name, _, ch) => ToLower(name) != "constructor" && NoConstructor(ch)
    case CData(ch) => NoConstructor(ch)
    case _ => true
  }

  /** The two builds render inline text differently only through an element
      named `constructor`: without one, at any depth, they agree. */
  lemma {:induction false} NodeTextBuildsAgree(cs: seq<Node>)
    requires NoConstructor(cs)
    ensures NodeText(AsWritten, cs) == NodeText(Corrected, cs)
    decreases cs, 1
  {
    TextPartsBuildsAgree(cs);
  }

  lemma {:induction false} TextPartsBuildsAgree(cs: seq<Node>)
    requires NoConstructor(cs)
    ensures TextParts(AsWritten, cs) == TextParts(Corrected, cs)
    decreases cs, 0
  {
    if cs != [] {
      PartBuildsAgree(cs[0]);
      TextPartsBuildsAgree(cs[1..]);
    }
  }

  lemma {:induction false} PartBuildsAgree(c: Node)
    requires NoConstructorNode(c)
    ensures Part(AsWritten, c) == Part(Corrected, c)
    decreases c, 0
  {
    match c
    case Text(_) =>
    case CData(ch) => NodeTextBuildsAgree(ch);
    case Element(name, attrs, ch) =>
      NodeTextBuildsAgree(ch);
      assert TagText(AsWritten, name, attrs, ch) == TagText(Corrected, name, attrs, ch);
    case Directive(_) =>
    case Comment(_) =>
  }
}

=== FILE: lists.dfy ===
/** List items (`getListItem` and `processListItem` in editorjs-serializer.ts).
    The shape of the item tree does not depend on how an item's own content is
    computed, so the traversal takes that rule as a parameter `text`; the
    serializer's rule is `ItemText`. */
module Lists {
  import opened Strings
  import opened Dom
  import opened Inline
  import opened Blocks

  predicate IsListElement(n: Node) {
    n.Element? && (n.name == "ol" || n.name == "ul")
  }

  predicate IsItemElement(n: Node) {
    n.Element? && n.name == "li"
  }

  // ---------------------------------------------------------------------
  // The traversal, for any content rule
  // ---------------------------------------------------------------------

  /** One item per `li` child, in order; other children are skipped. */
  function ItemsWith(text: seq<Node> -> string, cs: seq<Node>): (r: seq<ListItem>)
    ensures |r| <= |cs|
    decreases cs, 2
  {
    if cs == [] then []
    else (if IsItemElement(cs[0]) then [ItemWith(text, cs[0].children)] else []) + ItemsWith(text, cs[1..])
  }

  /** The item of an `li` with children `cs`. */
  function ItemWith(text: seq<Node> -> string, cs: seq<Node>): ListItem
    decreases cs, 1
  {
    ListItem(text(cs), NestedWith(text, cs))
  }

  /** The items of the nested lists among an item's children, concatenated in
      order. */
  function NestedWith(text: seq<Node> -> string, cs: seq<Node>): seq<ListItem>
    decreases cs, 0
  {
    if cs == [] then []
    else (if IsListElement(cs[0]) then ItemsWith(text, cs[0].children) else []) + NestedWith(text, cs[1..])
  }

  lemma ItemsWithHead(text: seq<Node> -> string, a: seq<Node>)
    requires a != []
    ensures ItemsWith(text, a) == ItemsWith(text, [a[0]]) + ItemsWith(text, a[1..])
  {
  }

  lemma {:induction false} ItemsWithConcat(text: seq<Node> -> string, a: seq<Node>, b: seq<Node>)
    ensures ItemsWith(text, a + b) == ItemsWith(text, a) + ItemsWith(text, b)
  {
    if a == [] {
      assert a + b == b;
    } else {
      ItemsWithHead(text, a);
      ItemsWithHead(text, a + b);
      assert (a + b)[0] == a[0];
      assert (a + b)[1..] == a[1..] + b;
      ItemsWithConcat(text, a[1..], b);
    }
  }

  lemma ItemsWithOne(text: seq<Node> -> string, c: Node)
    ensures ItemsWith(text, [c]) == if IsItemElement(c) then [ItemWith(text, c.children)] else []
  {
    assert ItemsWith(text, [c]) == (if IsItemElement(c) then [ItemWith(text, c.children)] else []) + ItemsWith(text, []);
  }

  lemma NestedWithHead(text: seq<Node> -> string, a: seq<Node>)
    requires a != []
    ensures NestedWith(text, a) == NestedWith(text, [a[0]]) + NestedWith(text, a[1..])
  {
  }

  lemma {:induction false} NestedWithConcat(text: seq<Node> -> string, a: seq<Node>, b: seq<Node>)
    ensures NestedWith(text, a + b) == NestedWith(text, a) + NestedWith(text, b)
  {
    if a == [] {
      assert a + b == b;
    } else {
      NestedWithHead(text, a);
      NestedWithHead(text, a + b);
      assert (a + b)[0] == a[0];
      assert (a + b)[1..] == a[1..] + b;
      NestedWithConcat(text, a[1..], b);
    }
  }

  lemma NestedWithOne(text: seq<Node> -> string, c: Node)
    ensures NestedWith(text, [c]) == if IsListElement(c) then ItemsWith(text, c.children) else []
  {
    assert NestedWith(text, [c]) == (if IsListElement(c) then ItemsWith(text, c.children) else []) + NestedWith(text, []);
  }

  // ---------------------------------------------------------------------
  // The serializer's items
  // ---------------------------------------------------------------------

  /** The content an item's children contribute, concatenated without a
      separator: a text node its trimmed data, an element other than a list its
      inline text, anything else nothing. */
  function ItemContent(build: Build, cs: seq<Node>): string {
    if cs == [] then "" else ContentPart(build, cs[0]) + ItemContent(build, cs[1..])
  }

  function ContentPart(build: Build, c: Node): string {
    match c
    case Text(d) => Trim(d)
    case Element(name, _, ch) => if name == "ol" || name == "ul" then "" else NodeText(build, ch)
    case _ => ""
  }

  /** `content.trim()` of the accumulated content. */
  function ItemText(build: Build, cs: seq<Node>): (r: string)
    ensures Trimmed(r)
  {
    var content := ItemContent(build, cs);
    TrimIsTrimmed(content);
    Trim(content)
  }

  /** The content rule of the chosen build, as the traversal takes it. */
  function ItemTextOf(build: Build): seq<Node> -> string {
    cs => ItemText(build, cs)
  }

  /** `getListItem`. */
  function ListItems(build: Build, cs: seq<Node>): seq<ListItem> {
    ItemsWith(ItemTextOf(build), cs)
  }

  /** `processListItem` on an `li` with children `cs`: its content is trimmed. */
  function ItemOf(build: Build, cs: seq<Node>): (r: ListItem)
    ensures Trimmed(r.content)
  {
    ItemWith(ItemTextOf(build), cs)
  }

  /** The nested items of an `li` with children `cs`. */
  function NestedItems(build: Build, cs: seq<Node>): seq<ListItem> {
    NestedWith(ItemTextOf(build), cs)
  }

  /** Items keep document order: the items of a run of children are those of
      its first part followed by those of the rest. */
  lemma ListItemsConcat(build: Build, a: seq<Node>, b: seq<Node>)
    ensures ListItems(build, a + b) == ListItems(build, a) + ListItems(build, b)
  {
    ItemsWithConcat(ItemTextOf(build), a, b);
  }

  /** Items come only from `li` children: removing any other child leaves the
      items as they are, and an `li` contributes exactly its own item. */
  lemma ItemsComeFromItemElements(build: Build, a: seq<Node>, c: Node, b: seq<Node>)
    ensures !IsItemElement(c) ==> ListItems(build, a + [c] + b) == ListItems(build, a + b)
    ensures IsItemElement(c) ==> ListItems(build, a + [c] + b) == ListItems(build, a) + [ItemOf(build, c.children)] + ListItems(build, b)
  {
    var text := ItemTextOf(build);
    ItemsWithConcat(text, a + [c], b);
    ItemsWithConcat(text, a, [c]);
    ItemsWithConcat(text, a, b);
    ItemsWithOne(text, c);
    if !IsItemElement(c) {
      assert ListItems(build, a) + [] == ListItems(build, a);
    }
  }

  /** Only nested lists contribute nested items, each with all of its items in
      order. */
  lemma NestedItemsComeFromLists(build: Build, a: seq<Node>, c: Node, b: seq<Node>)
    ensures IsListElement(c) ==> NestedItems(build, a + [c] + b) == NestedItems(build, a) + ListItems(build, c.children) + NestedItems(build, b)
    ensures !IsListElement(c) ==> NestedItems(build, a + [c] + b) == NestedItems(build, a + b)
  {
    var text := ItemTextOf(build);
    NestedWithConcat(text, a + [c], b);
    NestedWithConcat(text, a, [c]);
    NestedWithConcat(text, a, b);
    NestedWithOne(text, c);
  }

  lemma {:induction false} ItemContentConcat(build: Build, a: seq<Node>, b: seq<Node>)
    ensures ItemContent(build, a + b) == ItemContent(build, a) + ItemContent(build, b)
  {
    if a == [] {
      assert a + b == b;
    } else {
      assert (a + b)[0] == a[0];
      assert (a + b)[1..] == a[1..] + b;
      ItemContentConcat(build, a[1..], b);
    }
  }

  /** A nested list does not contribute to the item's content. */
  lemma NestedListIsNotContent(build: Build, a: seq<Node>, c: Node, b: seq<Node>)
    requires IsListElement(c)
    ensures ItemContent(build, a + [c] + b) == ItemContent(build, a + b)
  {
    ItemContentConcat(build, a + [c], b);
    ItemContentConcat(build, a, [c]);
    ItemContentOfList(build, c);
    assert ItemContent(build, a) + "" == ItemContent(build, a);
    ItemContentConcat(build, a, b);
  }

  lemma ItemContentOfList(build: Build, c: Node)
    requires IsListElement(c)
    ensures ItemContent(build, [c]) == ""
  {
    assert ContentPart(build, c) == "";
    assert ItemContent(build, [c]) == ContentPart(build, c) + ItemContent(build, []);
  }

  /** An item whose children are text nodes has no nested items, and its
      content keeps every non-white-space character of the text, in order. */
  lemma ItemOfText(build: Build, cs: seq<Node>)
    requires forall i | 0 <= i < |cs| :: cs[i].Text?
    ensures NonSpace(ItemOf(build, cs).content) == NonSpace(TextContentOf(cs))
    ensures ItemOf(build, cs).items == []
  {
    TextItemContent(build, cs);
    TextNested(build, cs);
  }

  lemma {:induction false} TextItemContent(build: Build, cs: seq<Node>)
    requires forall i | 0 <= i < |cs| :: cs[i].Text?
    ensures NonSpace(ItemContent(build, cs)) == NonSpace(TextContentOf(cs))
  {
    if cs != [] {
      TextItemContent(build, cs[1..]);
      NonSpaceConcat(Trim(cs[0].data), ItemContent(build, cs[1..]));
      NonSpaceConcat(cs[0].data, TextContentOf(cs[1..]));
    }
  }

  lemma {:induction false} TextNested(build: Build, cs: seq<Node>)
    requires forall i | 0 <= i < |cs| :: cs[i].Text?
    ensures NestedItems(build, cs) == []
  {
    if cs != [] {
      TextNested(build, cs[1..]);
      NestedWithHead(ItemTextOf(build), cs);
    }
  }

  // ---------------------------------------------------------------------
  // The two builds
  // ---------------------------------------------------------------------

  /** Without an element named `constructor`, the two builds give the same
      items. */
  lemma {:induction false} ListItemsBuildsAgree(cs: seq<Node>)
    requires NoConstructor(cs)
    ensures ListItems(AsWritten, cs) == ListItems(Corrected, cs)
    decreases cs, 2
  {
    if cs != [] {
      if IsItemElement(cs[0]) {
        ItemBuildsAgree(cs[0].children);
      }
      ListItemsBuildsAgree(cs[1..]);
    }
  }

  lemma {:induction false} ItemBuildsAgree(cs: seq<Node>)
    requires NoConstructor(cs)
    ensures ItemOf(AsWritten, cs) == ItemOf(Corrected, cs)
    decreases cs, 1
  {
    ItemContentBuildsAgree(cs);
    NestedBuildsAgree(cs);
  }

  lemma {:induction false} NestedBuildsAgree(cs: seq<Node>)
    requires NoConstructor(cs)
    ensures NestedItems(AsWritten, cs) == NestedItems(Corrected, cs)
    decreases cs, 0
  {
    if cs != [] {
      if IsListElement(cs[0]) {
        ListItemsBuildsAgree(cs[0].children);
      }
      NestedBuildsAgree(cs[1..]);
    }
  }

  lemma {:induction false} ItemContentBuildsAgree(cs: seq<Node>)
    requires NoConstructor(cs)
    ensures ItemContent(AsWritten, cs) == ItemContent(Corrected, cs)
  {
    if cs != [] {
      if cs[0].Element? {
        NodeTextBuildsAgree(cs[0].children);
      }
      ItemContentBuildsAgree(cs[1..]);
    }
  }
}

=== FILE: manipulator.dfy ===
/** The presentational-markup normalizer of dom-tree-manipulator.ts: styled
    `<span>`s become semantic inline markup, links are flattened to their text,
    and empty or attribute-less wrappers are unwrapped. */
module Manipulator {
  import opened Wrappers
  import opened Strings
  import opened Dom
  import opened Style

  /** `replaceNodeWithChildren` for the element at index `i` of its parent's
      children; an index outside the sequence is the `indexOf` miss, which leaves
      the parent alone. A childless element is simply removed. */
  function ReplaceNodeWithChildren(siblings: seq<Node>, i: int): (r: seq<Node>)
    requires 0 <= i < |siblings| ==> siblings[i].Element?
    ensures !(0 <= i < |siblings|) ==> r == siblings
    ensures 0 <= i < |siblings| ==> r == Splice(siblings, i, siblings[i].children)
    ensures 0 <= i < |siblings| ==> |r| == |siblings| - 1 + |siblings[i].children|
    ensures TextContentOf(r) == TextContentOf(siblings)
  {
    if !(0 <= i < |siblings|) then siblings
    else
      TextContentSplice(siblings, i, siblings[i].children);
      if siblings[i].children == [] then
        assert siblings[..i] + siblings[i + 1..] == Splice(siblings, i, []);
        siblings[..i] + siblings[i + 1..]
      else
        Splice(siblings, i, siblings[i].children)
  }

  /** Unwrapping an attribute-less element deletes exactly its opening and
      closing tags from the rendered document. */
  lemma UnwrapRender(siblings: seq<Node>, i: nat)
    requires i < |siblings| && siblings[i].Element? && siblings[i].attrs == []
    ensures var n := siblings[i];
      && Render(siblings) == Render(siblings[..i]) + ("<" + n.name + ">" + Render(n.children) + "</" + n.name + ">") + Render(siblings[i + 1..])
      && Render(ReplaceNodeWithChildren(siblings, i)) == Render(siblings[..i]) + Render(n.children) + Render(siblings[i + 1..])
  {
    var n := siblings[i];
    RenderSplice(siblings, i, n.children);
    assert OpeningTag(n.name, n.attrs) == "<" + n.name + ">" by {
      OpeningTagBare(n.name, n.attrs);
    }
    assert RenderNode(n) == "<" + n.name + ">" + Render(n.children) + "</" + n.name + ">";
  }

  /** The flattened text of an `<a>` or `<span>`: all descendant character data,
      literal `&nbsp;` entities removed, then trimmed. */
  function FlattenedText(children: seq<Node>): (r: string)
    ensures r == [] || (!IsSpace(r[0]) && !IsSpace(r[|r| - 1]))
  {
    Trim(RemoveNbsp(TextContentOf(children)))
  }

  /** `tag` when the condition holds, nothing otherwise. */
  function TagIf(on: bool, tag: string): string {
    if on then tag else ""
  }

  /** The opening tags a styled span receives, outermost first. */
  function OpeningTags(bold: bool, italic: bool, underline: bool, strike: bool): string {
    TagIf(strike, StrikeOpen) + (TagIf(underline, UnderlineOpen) + (TagIf(italic, "<i>") + TagIf(bold, "<b>")))
  }

  /** The matching closing tags, innermost first. */
  function ClosingTags(bold: bool, italic: bool, underline: bool, strike: bool): string {
    ((TagIf(bold, "</b>") + TagIf(italic, "</i>")) + TagIf(underline, "</u>")) + TagIf(strike, "</s>")
  }

  /** Wrapping an already wrapped text adds the new tags outside the old ones. */
  lemma WrapAround(open: string, inner: string, text: string, innerClose: string, close: string)
    ensures open + (inner + text + innerClose) + close == (open + inner) + text + (innerClose + close)
  {
  }

  /** The span's text wrapped, one condition after another, in `<b>`, `<i>`, the
      underline marker and the strikethrough marker: so bold is innermost and
      strikethrough outermost, and the wrappers nest properly. */
  function StyledText(text: string, bold: bool, italic: bool, underline: bool, strike: bool): (r: string)
    ensures r == OpeningTags(bold, italic, underline, strike) + text + ClosingTags(bold, italic, underline, strike)
    ensures !bold && !italic && !underline && !strike ==> r == text
  {
    var t1 := TagIf(bold, "<b>") + text + TagIf(bold, "</b>");
    var t2 := TagIf(italic, "<i>") + t1 + TagIf(italic, "</i>");
    var t3 := TagIf(underline, UnderlineOpen) + t2 + TagIf(underline, "</u>");
    var t4 := TagIf(strike, StrikeOpen) + t3 + TagIf(strike, "</s>");
    WrapAround(TagIf(italic, "<i>"), TagIf(bold, "<b>"), text, TagIf(bold, "</b>"), TagIf(italic, "</i>"));
    WrapAround(TagIf(underline, UnderlineOpen), TagIf(italic, "<i>") + TagIf(bold, "<b>"), text,
      TagIf(bold, "</b>") + TagIf(italic, "</i>"), TagIf(underline, "</u>"));
    WrapAround(TagIf(strike, StrikeOpen), TagIf(underline, UnderlineOpen) + (TagIf(italic, "<i>") + TagIf(bold, "<b>")), text,
      (TagIf(bold, "</b>") + TagIf(italic, "</i>")) + TagIf(underline, "</u>"), TagIf(strike, "</s>"));
    t4
  }

  /** The four style conditions of a span's trimmed, non-blank `style` attribute. */
  function StyleConditions(style: string): (bool, bool, bool, bool) {
    var m := StyleStringToMap(style);
    var decoration := Get(m, "text-decoration");
    (IsFontWeightBold(Get(m, "font-weight")), IsFontStyleItalic(Get(m, "font-style")),
     IsTextDecorationUnderline(decoration), IsTextDecorationLineThrough(decoration))
  }

  /** What `manipulateTagNode` decides for one element: leave it alone, rewrite
      it in place, or unwrap it after giving it the listed children. */
  datatype Action = Keep | Rewrite(node: Node) | Unwrap(children: seq<Node>)

  /** The decision `manipulateTagNode` takes for node `n`; anything but an `<a>`
      or a `<span>` is kept. */
  function TagAction(n: Node): Action {
    if !n.Element? then Keep
    else if n.name == "a" then AnchorAction(n.attrs, n.children)
    else if n.name == "span" then SpanAction(n.attrs, n.children)
    else Keep
  }

  /** The decision for an `<a>` with attributes `attrs` and children `cs`. */
  function AnchorAction(attrs: seq<Attr>, cs: seq<Node>): Action {
    var text := FlattenedText(cs);
    if text == "" then Unwrap(cs) else Rewrite(Element("a", attrs, [Text(text)]))
  }

  /** The decision for a `<span>` with attributes `attrs` and children `cs`. */
  function SpanAction(attrs: seq<Attr>, cs: seq<Node>): Action {
    var style := Trim(AttrOr(attrs, "style", ""));
    if attrs == [] || style == "" then Unwrap(cs)
    else
      var text := FlattenedText(cs);
      if text == "" then Unwrap(cs) else Unwrap([Text(SpanText(style, text))])
  }

  /** The text a span with trimmed style `style` and flattened text `text`
      becomes: the text inside the wrappers the style calls for. */
  function SpanText(style: string, text: string): (r: string)
    ensures var c := StyleConditions(style);
      r == OpeningTags(c.0, c.1, c.2, c.3) + text + ClosingTags(c.0, c.1, c.2, c.3)
  {
    var c := StyleConditions(style);
    StyledText(text, c.0, c.1, c.2, c.3)
  }

  /** Carrying out decision `a` for the element at index `i`: a styled span
      first gets its new children and is then unwrapped with
      `replaceNodeWithChildren`. */
  function ApplyAction(siblings: seq<Node>, i: nat, a: Action): seq<Node>
    requires i < |siblings| && siblings[i].Element?
  {
    var n := siblings[i];
    match a
    case Keep => siblings
    case Rewrite(m) => siblings[i := m]
    case Unwrap(cs) => ReplaceNodeWithChildren(siblings[i := Element(n.name, n.attrs, cs)], i)
  }

  /** The run of nodes decision `a` leaves in place of `n`. */
  function RunOf(n: Node, a: Action): seq<Node> {
    match a
    case Keep => [n]
    case Rewrite(m) => [m]
    case Unwrap(cs) => cs
  }

  /** `manipulateTagNode` for the element at index `i` of its parent's children:
      the parent's new child sequence. */
  function ManipulateTagNode(siblings: seq<Node>, i: nat): seq<Node>
    requires i < |siblings| && siblings[i].Element?
  {
    ApplyAction(siblings, i, TagAction(siblings[i]))
  }

  /** The run of nodes an element stands for after it has been manipulated. */
  function Replacement(n: Node): seq<Node>
    requires n.Element?
  {
    RunOf(n, TagAction(n))
  }

  /** Carrying out a decision in place is splicing its run in at the node's index. */
  lemma ApplyIsSplice(siblings: seq<Node>, i: nat, a: Action)
    requires i < |siblings| && siblings[i].Element?
    ensures ApplyAction(siblings, i, a) == Splice(siblings, i, RunOf(siblings[i], a))
  {
    var n := siblings[i];
    match a
    case Keep =>
      assert siblings == Splice(siblings, i, [n]);
    case Rewrite(m) =>
      assert siblings[i := m] == Splice(siblings, i, [m]);
    case Unwrap(cs) =>
      ReplaceElement(siblings, i, Element(n.name, n.attrs, cs));
  }

  /** Manipulating a node touches nothing but its own position: the parent's new
      children are the old ones with the node's replacement run spliced in at
      its index. */
  lemma ManipulateIsLocal(siblings: seq<Node>, i: nat)
    requires i < |siblings| && siblings[i].Element?
    ensures ManipulateTagNode(siblings, i) == Splice(siblings, i, Replacement(siblings[i]))
  {
    ApplyIsSplice(siblings, i, TagAction(siblings[i]));
  }

  /** Writing an element into position `i` and then unwrapping it splices its
      children in at `i`. */
  lemma ReplaceElement(siblings: seq<Node>, i: nat, e: Node)
    requires i < |siblings| && e.Element?
    ensures ReplaceNodeWithChildren(siblings[i := e], i) == Splice(siblings, i, e.children)
  {
    var s := siblings[i := e];
    assert s[..i] == siblings[..i] && s[i + 1..] == siblings[i + 1..];
  }

  /** An `<a>` with non-empty flattened text keeps its attributes and gets that
      text as its only child; otherwise it is unwrapped into its original
      children. */
  lemma AnchorIsFlattened(n: Node)
    requires n.Element? && n.name == "a"
    ensures var text := FlattenedText(n.children);
      Replacement(n) == if text == "" then n.children else [Element("a", n.attrs, [Text(text)])]
  {
    var text := FlattenedText(n.children);
    var act := AnchorAction(n.attrs, n.children);
    assert Replacement(n) == RunOf(n, act) by {
      assert TagAction(n) == act;
    }
    if text == "" {
      assert act == Unwrap(n.children);
    } else {
      assert act == Rewrite(Element("a", n.attrs, [Text(text)]));
    }
  }

  /** The text below a manipulated `<a>` is its flattened text, or the text it
      had. */
  lemma AnchorKeepsText(n: Node)
    requires n.Element? && n.name == "a"
    ensures TextContentOf(Replacement(n)) == FlattenedText(n.children) || TextContentOf(Replacement(n)) == TextContent(n)
  {
    AnchorIsFlattened(n);
    var text := FlattenedText(n.children);
    if text != "" {
      AnchorText(n.attrs, text);
    }
  }

  lemma AnchorText(attrs: seq<Attr>, text: string)
    ensures TextContentOf([Element("a", attrs, [Text(text)])]) == text
  {
    var a := Element("a", attrs, [Text(text)]);
    assert TextContentOf([Text(text)]) == text + TextContentOf([]);
    assert TextContentOf([a]) == TextContent(a) + TextContentOf([]);
  }

  /** A `<span>` without attributes, with a blank or absent `style`, or with
      empty flattened text is replaced by its original children. */
  lemma PlainSpanIsUnwrapped(n: Node)
    requires n.Element? && n.name == "span"
    requires n.attrs == [] || Trim(AttrOr(n.attrs, "style", "")) == "" || FlattenedText(n.children) == ""
    ensures Replacement(n) == n.children
  {
  }

  /** Any other `<span>` is replaced by a single text node: its flattened text
      inside the wrappers its style calls for (see `StyledText`). */
  lemma StyledSpanBecomesText(n: Node)
    requires n.Element? && n.name == "span"
    requires n.attrs != [] && Trim(AttrOr(n.attrs, "style", "")) != "" && FlattenedText(n.children) != ""
    ensures Replacement(n) == [Text(SpanText(Trim(AttrOr(n.attrs, "style", "")), FlattenedText(n.children)))]
  {
    var t := SpanText(Trim(AttrOr(n.attrs, "style", "")), FlattenedText(n.children));
    SpanTagAction(n);
    SpanActionStyled(n.attrs, n.children);
    UnwrapToText(n, t);
  }

  lemma UnwrapToText(n: Node, t: string)
    requires n.Element? && TagAction(n) == Unwrap([Text(t)])
    ensures Replacement(n) == [Text(t)]
  {
  }

  lemma SpanTagAction(n: Node)
    requires n.Element? && n.name == "span"
    ensures TagAction(n) == SpanAction(n.attrs, n.children)
  {
  }

  lemma SpanActionStyled(attrs: seq<Attr>, cs: seq<Node>)
    requires attrs != [] && Trim(AttrOr(attrs, "style", "")) != "" && FlattenedText(cs) != ""
    ensures SpanAction(attrs, cs) == Unwrap([Text(SpanText(Trim(AttrOr(attrs, "style", "")), FlattenedText(cs)))])
  {
  }

  /** Elements other than `<a>` and `<span>` are left exactly as they are,
      descendants included. */
  lemma OtherElementsUntouched(n: Node)
    requires n.Element? && n.name != "a" && n.name != "span"
    ensures Replacement(n) == [n]
  {
  }

  /** The run a top-level node stands for once decision procedure `act` has
      been carried out on it; nodes other than elements are never manipulated. */
  function RunWith(act: Node -> Action, n: Node): seq<Node> {
    if n.Element? then RunOf(n, act(n)) else [n]
  }

  /** The intended visiting discipline, for any decision procedure: every
      top-level child of the original document is visited exactly once, as if
      the child list had been snapshotted before the first splice. Nested
      elements are never visited. */
  function ProcessWith(act: Node -> Action, doc: seq<Node>): seq<Node> {
    if doc == [] then []
    else RunWith(act, doc[0]) + ProcessWith(act, doc[1..])
  }

  lemma {:induction false} ProcessWithConcat(act: Node -> Action, a: seq<Node>, b: seq<Node>)
    ensures ProcessWith(act, a + b) == ProcessWith(act, a) + ProcessWith(act, b)
  {
    if a == [] {
      assert a + b == b;
    } else {
      assert (a + b)[0] == a[0];
      assert (a + b)[1..] == a[1..] + b;
      ProcessWithConcat(act, a[1..], b);
    }
  }

  /** A pass whose every decision is `Keep` changes nothing. */
  lemma {:induction false} ProcessWithKeeps(act: Node -> Action, doc: seq<Node>)
    ensures (forall k | 0 <= k < |doc| :: doc[k].Element? ==> act(doc[k]) == Keep) ==> ProcessWith(act, doc) == doc
  {
    if doc != [] && forall k | 0 <= k < |doc| :: doc[k].Element? ==> act(doc[k]) == Keep {
      ProcessWithKeeps(act, doc[1..]);
      assert doc == [doc[0]] + doc[1..];
    }
  }

  /** A pass whose every run is free of top-level `<span>`s leaves none. */
  lemma {:induction false} ProcessWithSpanFree(act: Node -> Action, doc: seq<Node>)
    requires forall k | 0 <= k < |doc| :: SpanFree(RunWith(act, doc[k]))
    ensures SpanFree(ProcessWith(act, doc))
  {
    if doc != [] {
      ProcessWithSpanFree(act, doc[1..]);
      var head := RunWith(act, doc[0]);
      assert SpanFree(head);
      var r := ProcessWith(act, doc);
      assert r == head + ProcessWith(act, doc[1..]);
      forall k | 0 <= k < |r|
        ensures !IsElementNamed(r[k], "span")
      {
        if k >= |head| {
          assert r[k] == ProcessWith(act, doc[1..])[k - |head|];
        }
      }
    }
  }

  predicate SpanFree(cs: seq<Node>) {
    forall k | 0 <= k < |cs| :: !IsElementNamed(cs[k], "span")
  }

  /** `processDOMTree` as written, for any decision procedure:
      `Array.prototype.forEach` over the live child array, which fixes the
      number of visits to the original length and visits index `k` only while
      `k` is still inside the array, while each visit may splice that same
      array. */
  function ForEachLive(act: Node -> Action, cur: seq<Node>, k: nat, len: nat): seq<Node>
    decreases len - k
  {
    if k >= len then cur
    else if k < |cur| && cur[k].Element? then ForEachLive(act, ApplyAction(cur, k, act(cur[k])), k + 1, len)
    else ForEachLive(act, cur, k + 1, len)
  }

  /** The child list after the first `k` top-level nodes have been visited with
      the intended discipline. */
  function Progress(act: Node -> Action, doc: seq<Node>, k: nat): seq<Node>
    requires k <= |doc|
  {
    ProcessWith(act, doc[..k]) + doc[k..]
  }

  /** While every visited node is replaced by exactly one node nothing shifts,
      and the live loop computes the intended result. */
  lemma {:induction false} ForEachLiveWithoutShifts(act: Node -> Action, doc: seq<Node>, k: nat)
    requires k <= |doc|
    requires forall j | 0 <= j < |doc| :: |RunWith(act, doc[j])| == 1
    ensures ForEachLive(act, Progress(act, doc, k), k, |doc|) == ProcessWith(act, doc)
    decreases |doc| - k
  {
    if k == |doc| {
      assert doc[..k] == doc;
      assert Progress(act, doc, k) == ProcessWith(act, doc);
    } else {
      ProgressStep(act, doc, k);
      ForEachLiveWithoutShifts(act, doc, k + 1);
    }
  }

  /** One visit of the live loop at index `k` advances the progress by one. */
  lemma ProgressStep(act: Node -> Action, doc: seq<Node>, k: nat)
    requires k < |doc|
    requires forall j | 0 <= j < |doc| :: |RunWith(act, doc[j])| == 1
    ensures ForEachLive(act, Progress(act, doc, k), k, |doc|) == ForEachLive(act, Progress(act, doc, k + 1), k + 1, |doc|)
  {
    var done := ProcessWith(act, doc[..k]);
    var cur := Progress(act, doc, k);
    assert |done| == k by {
      RunLengths(act, doc[..k]);
    }
    assert cur[k] == doc[k];
    assert Progress(act, doc, k + 1) == done + RunWith(act, doc[k]) + doc[k + 1..] by {
      assert doc[..k + 1] == doc[..k] + [doc[k]];
      ProcessWithConcat(act, doc[..k], [doc[k]]);
      assert ProcessWith(act, [doc[k]]) == RunWith(act, doc[k]);
    }
    if cur[k].Element? {
      assert ApplyAction(cur, k, act(cur[k])) == Progress(act, doc, k + 1) by {
        ApplyIsSplice(cur, k, act(cur[k]));
        assert cur[..k] == done && cur[k + 1..] == doc[k + 1..];
      }
    } else {
      assert cur == Progress(act, doc, k + 1) by {
        assert cur == done + [doc[k]] + doc[k + 1..];
      }
    }
  }

  lemma {:induction false} RunLengths(act: Node -> Action, doc: seq<Node>)
    requires forall j | 0 <= j < |doc| :: |RunWith(act, doc[j])| == 1
    ensures |ProcessWith(act, doc)| == |doc|
  {
    if doc != [] {
      RunLengths(act, doc[1..]);
    }
  }

  /** `manipulateRootChildren` applied to one top-level node on its own: text
      nodes (whose `&nbsp;` clean-up result is discarded) and other non-element
      nodes stay as they are. */
  function ManipulateRootChild(n: Node): (r: seq<Node>)
    ensures !n.Element? ==> r == [n]
    ensures n.Element? ==> r == Replacement(n)
  {
    RunWith(TagAction, n)
  }

  /** `processDOMTree` with the intended visiting discipline. A document with no
      top-level `<a>` or `<span>` is left exactly as it is. */
  function ProcessDomTree(doc: seq<Node>): (r: seq<Node>)
    ensures (forall k | 0 <= k < |doc| :: !IsElementNamed(doc[k], "a") && !IsElementNamed(doc[k], "span")) ==> r == doc
  {
    ProcessWithKeeps(TagAction, doc);
    ProcessWith(TagAction, doc)
  }

  /** The intended pass is the concatenation of the runs of the top-level nodes. */
  lemma ProcessDomTreeConcat(a: seq<Node>, b: seq<Node>)
    ensures ProcessDomTree(a + b) == ProcessDomTree(a) + ProcessDomTree(b)
  {
    ProcessWithConcat(TagAction, a, b);
  }

  /** When no top-level `<a>` or `<span>` holds a `<span>` child, no `<span>` is
      left at the top level afterwards. */
  lemma ProcessDomTreeRemovesSpans(doc: seq<Node>)
    requires forall k | 0 <= k < |doc| :: (IsElementNamed(doc[k], "a") || IsElementNamed(doc[k], "span")) ==> SpanFree(doc[k].children)
    ensures SpanFree(ProcessDomTree(doc))
  {
    forall k | 0 <= k < |doc|
      ensures SpanFree(RunWith(TagAction, doc[k]))
    {
      RunSpanFree(doc[k]);
    }
    ProcessWithSpanFree(TagAction, doc);
  }

  /** The run of an `<a>` or `<span>` whose children hold no `<span>` holds none;
      any other node is kept and is not a `<span>`. */
  lemma RunSpanFree(n: Node)
    requires (IsElementNamed(n, "a") || IsElementNamed(n, "span")) ==> SpanFree(n.children)
    ensures SpanFree(RunWith(TagAction, n))
  {
    if IsElementNamed(n, "a") {
      AnchorIsFlattened(n);
    } else if IsElementNamed(n, "span") {
      var style := Trim(AttrOr(n.attrs, "style", ""));
      if n.attrs == [] || style == "" || FlattenedText(n.children) == "" {
        PlainSpanIsUnwrapped(n);
      } else {
        StyledSpanBecomesText(n);
      }
    } else if n.Element? {
      OtherElementsUntouched(n);
    }
  }

  function ProcessDomTreeAsWritten(doc: seq<Node>): seq<Node> {
    ForEachLive(TagAction, doc, 0, |doc|)
  }

  /** When every top-level node is replaced by exactly one node, the live loop
      as written computes the intended result. */
  lemma AsWrittenWithoutShifts(doc: seq<Node>)
    requires forall j | 0 <= j < |doc| :: |ManipulateRootChild(doc[j])| == 1
    ensures ProcessDomTreeAsWritten(doc) == ProcessDomTree(doc)
  {
    assert Progress(TagAction, doc, 0) == doc by {
      assert doc[..0] == [] && doc[0..] == doc;
    }
    ForEachLiveWithoutShifts(TagAction, doc, 0);
  }

  /** The code as written removes the top-level spans too, but only when no
      top-level node is replaced by zero or several nodes. */
  lemma ProcessDomTreeAsWrittenRemovesSpans(doc: seq<Node>)
    requires forall k | 0 <= k < |doc| :: (IsElementNamed(doc[k], "a") || IsElementNamed(doc[k], "span")) ==> SpanFree(doc[k].children)
    requires forall j | 0 <= j < |doc| :: |ManipulateRootChild(doc[j])| == 1
    ensures SpanFree(ProcessDomTreeAsWritten(doc))
  {
    AsWrittenWithoutShifts(doc);
    ProcessDomTreeRemovesSpans(doc);
  }

  /** The live loop skips a sibling: removing an empty attribute-less `<span>`
      shifts the next `<span>` into the index already visited, and it is never
      processed, whereas the intended pass unwraps both. */
  lemma ProcessDomTreeSkipsShiftedSibling()
    ensures var doc := [Element("span", [], []), Element("span", [], [Text("x")])];
      && ProcessDomTreeAsWritten(doc) == [Element("span", [], [Text("x")])]
      && ProcessDomTree(doc) == [Text("x")]
  {
    var doc := [Element("span", [], []), Element("span", [], [Text("x")])];
    var after := ManipulateTagNode(doc, 0);
    assert after == [Element("span", [], [Text("x")])];
    assert ForEachLive(TagAction, after, 1, 2) == after;
    assert Replacement(doc[1]) == [Text("x")];
  }
}

=== FILE: sanitize.dfy ===
/** The two tree clean-ups the serializer runs before converting
    (`sanitizeDocument` and `clearLineBreaks` in editorjs-serializer.ts): a
    paragraph may not contain block-level elements, so an offending `<p>` is
    split into paragraphs around them; then blank text nodes are dropped. */
module Sanitize {
  import opened Strings
  import opened Dom

  /** `BLOCK_LEVEL_ELEMENTS`. */
  const BlockLevelNames: set<string> := {
    "address", "article", "aside", "blockquote", "details", "dialog", "dd", "div",
    "dl", "dt", "fieldset", "figcaption", "figure", "footer", "form", "h1", "h2",
    "h3", "h4", "h5", "h6", "header", "hgroup", "hr", "li", "main", "nav", "ol",
    "p", "pre", "section", "table", "ul"
  }

  /** `isBlockLevel`: an element whose tag name is block-level. */
  predicate IsBlockLevel(n: Node) {
    n.Element? && n.name in BlockLevelNames
  }

  /** A `<br>` element that has children; a paragraph drops these. */
  predicate IsFilledBreak(n: Node) {
    n.Element? && n.name == "br" && n.children != []
  }

  /** The `filter` a paragraph's children go through first. */
  function DropFilledBreaks(cs: seq<Node>): (r: seq<Node>)
    ensures |r| <= |cs|
    ensures forall i | 0 <= i < |r| :: !IsFilledBreak(r[i]) && r[i] in cs
    ensures (forall i | 0 <= i < |cs| :: !IsFilledBreak(cs[i])) ==> r == cs
  {
    if cs == [] then []
    else
      var rest := DropFilledBreaks(cs[1..]);
      if IsFilledBreak(cs[0]) then rest else [cs[0]] + rest
  }

  // ---------------------------------------------------------------------
  // Splitting a paragraph
  // ---------------------------------------------------------------------

  /** The paragraph children between two block-level elements, or one
      block-level element. */
  datatype Piece = Run(nodes: seq<Node>) | Block(node: Node)

  /** The children the pieces stand for, in order. */
  function Flatten(ps: seq<Piece>): seq<Node> {
    if ps == [] then []
    else (match ps[0] case Run(ns) => ns case Block(n) => [n]) + Flatten(ps[1..])
  }

  /** Every run is non-empty and holds no block-level element; every block is a
      block-level element. */
  predicate WellFormed(ps: seq<Piece>) {
    forall k | 0 <= k < |ps| :: PieceOk(ps[k])
  }

  predicate PieceOk(p: Piece) {
    match p
    case Run(ns) => ns != [] && forall j | 0 <= j < |ns| :: !IsBlockLevel(ns[j])
    case Block(n) => IsBlockLevel(n)
  }

  /** No two runs are adjacent: every run is as long as it can be. */
  predicate Maximal(ps: seq<Piece>) {
    ps == [] || ((|ps| > 1 && ps[0].Run? ==> !ps[1].Run?) && Maximal(ps[1..]))
  }

  /** The reference grouping of paragraph children into maximal runs of inline
      nodes and single block-level elements. */
  function Pieces(cs: seq<Node>): (ps: seq<Piece>)
    ensures ps == [] <==> cs == []
    ensures cs != [] && !IsBlockLevel(cs[0]) ==> ps[0].Run? && ps[0].nodes != [] && ps[0].nodes[0] == cs[0]
  {
    if cs == [] then []
    else if IsBlockLevel(cs[0]) then [Block(cs[0])] + Pieces(cs[1..])
    else
      var rest := Pieces(cs[1..]);
      if rest != [] && rest[0].Run? then [Run([cs[0]] + rest[0].nodes)] + rest[1..]
      else [Run([cs[0]])] + rest
  }

  /** Grouping loses nothing and reorders nothing, and its pieces are well formed
      and maximal. */
  lemma {:induction false} PiecesSound(cs: seq<Node>)
    ensures Flatten(Pieces(cs)) == cs
    ensures WellFormed(Pieces(cs)) && Maximal(Pieces(cs))
  {
    if cs != [] {
      PiecesSound(cs[1..]);
      var rest := Pieces(cs[1..]);
      var ps := Pieces(cs);
      if IsBlockLevel(cs[0]) {
        assert ps[1..] == rest;
      } else if rest != [] && rest[0].Run? {
        MergeSound(cs[0], rest);
      } else {
        assert ps[1..] == rest;
        assert Flatten(ps) == [cs[0]] + Flatten(rest);
      }
    }
  }

  /** Extending the first run of well-formed, maximal pieces by an inline node. */
  lemma MergeSound(c: Node, rest: seq<Piece>)
    requires !IsBlockLevel(c) && rest != [] && rest[0].Run?
    requires WellFormed(rest) && Maximal(rest)
    ensures var ps := [Run([c] + rest[0].nodes)] + rest[1..];
      Flatten(ps) == [c] + Flatten(rest) && WellFormed(ps) && Maximal(ps)
  {
    var ps := [Run([c] + rest[0].nodes)] + rest[1..];
    assert ps[1..] == rest[1..];
    MergeFlatten(c, rest);
    MergeWellFormed(c, rest);
    assert Maximal(rest[1..]);
  }

  lemma MergeFlatten(c: Node, rest: seq<Piece>)
    requires rest != [] && rest[0].Run?
    ensures Flatten([Run([c] + rest[0].nodes)] + rest[1..]) == [c] + Flatten(rest)
  {
    var ps := [Run([c] + rest[0].nodes)] + rest[1..];
    assert ps[1..] == rest[1..];
    assert Flatten(rest) == rest[0].nodes + Flatten(rest[1..]);
  }

  lemma MergeWellFormed(c: Node, rest: seq<Piece>)
    requires !IsBlockLevel(c) && rest != [] && rest[0].Run?
    requires WellFormed(rest)
    ensures WellFormed([Run([c] + rest[0].nodes)] + rest[1..])
  {
    var ps := [Run([c] + rest[0].nodes)] + rest[1..];
    forall k | 0 <= k < |ps|
      ensures PieceOk(ps[k])
    {
      if k > 0 {
        assert ps[k] == rest[k];
      } else {
        var ns := [c] + rest[0].nodes;
        assert PieceOk(rest[0]);
        assert forall j | 1 <= j < |ns| :: ns[j] == rest[0].nodes[j - 1];
      }
    }
  }

  /** The grouping is the only well-formed, maximal one that flattens back to
      the children: it is determined by the children alone. */
  lemma {:induction false} PiecesUnique(cs: seq<Node>, ps: seq<Piece>)
    requires Flatten(ps) == cs && WellFormed(ps) && Maximal(ps)
    ensures ps == Pieces(cs)
    decreases |cs|
  {
    if ps != [] {
      var rest := ps[1..];
      assert WellFormed(rest) by {
        forall k | 0 <= k < |rest| ensures rest[k] == ps[k + 1] { }
      }
      match ps[0]
      case Block(n) =>
        assert cs == [n] + Flatten(rest);
        assert cs[1..] == Flatten(rest);
        PiecesUnique(cs[1..], rest);
      case Run(ns) =>
        assert cs == ns + Flatten(rest);
        if |ns| == 1 {
          assert cs[1..] == Flatten(rest);
          PiecesUnique(cs[1..], rest);
          SingleRunUnique(cs, ps);
        } else {
          var shorter := [Run(ns[1..])] + rest;
          ShorterRun(ps, shorter);
          assert cs[1..] == Flatten(shorter) by {
            assert Flatten(shorter) == ns[1..] + Flatten(rest);
          }
          PiecesUnique(cs[1..], shorter);
          LongRunUnique(cs, ps, shorter);
        }
    }
  }

  /** A leading run of one node, before the unique grouping of the rest. */
  lemma SingleRunUnique(cs: seq<Node>, ps: seq<Piece>)
    requires Flatten(ps) == cs && WellFormed(ps) && Maximal(ps)
    requires ps != [] && ps[0].Run? && |ps[0].nodes| == 1
    requires ps[1..] == Pieces(cs[1..])
    ensures ps == Pieces(cs)
  {
    var ns, rest := ps[0].nodes, ps[1..];
    assert PieceOk(ps[0]);
    assert cs == ns + Flatten(rest);
    assert rest != [] ==> !rest[0].Run?;
    assert cs == [cs[0]] + cs[1..] && ns == [cs[0]];
    SingleRunPieces(cs[0], cs[1..]);
  }

  /** A leading run of several nodes, whose shortened form starts the unique
      grouping of the rest. */
  lemma LongRunUnique(cs: seq<Node>, ps: seq<Piece>, shorter: seq<Piece>)
    requires Flatten(ps) == cs && WellFormed(ps)
    requires ps != [] && ps[0].Run? && |ps[0].nodes| > 1
    requires shorter == [Run(ps[0].nodes[1..])] + ps[1..] && shorter == Pieces(cs[1..])
    ensures ps == Pieces(cs)
  {
    var ns, rest := ps[0].nodes, ps[1..];
    assert PieceOk(ps[0]);
    assert cs == ns + Flatten(rest);
    assert cs == [cs[0]] + cs[1..] && ns == [cs[0]] + ns[1..];
    LongRunPieces(cs[0], cs[1..]);
  }

  /** An inline node before a grouping that does not start with a run is a
      run of its own. */
  lemma SingleRunPieces(c: Node, tail: seq<Node>)
    requires !IsBlockLevel(c) && (Pieces(tail) != [] ==> !Pieces(tail)[0].Run?)
    ensures Pieces([c] + tail) == [Run([c])] + Pieces(tail)
  {
    assert ([c] + tail)[1..] == tail;
  }

  /** An inline node before a grouping that starts with a run joins that run. */
  lemma LongRunPieces(c: Node, tail: seq<Node>)
    requires !IsBlockLevel(c) && Pieces(tail) != [] && Pieces(tail)[0].Run?
    ensures Pieces([c] + tail) == [Run([c] + Pieces(tail)[0].nodes)] + Pieces(tail)[1..]
  {
    assert ([c] + tail)[1..] == tail;
  }

  /** Dropping the first node of a leading run of length two or more keeps the
      pieces well formed and maximal. */
  lemma ShorterRun(ps: seq<Piece>, shorter: seq<Piece>)
    requires ps != [] && ps[0].Run? && |ps[0].nodes| > 1
    requires WellFormed(ps) && Maximal(ps)
    requires shorter == [Run(ps[0].nodes[1..])] + ps[1..]
    ensures WellFormed(shorter) && Maximal(shorter)
  {
    assert shorter[1..] == ps[1..];
    forall k | 0 <= k < |shorter|
      ensures PieceOk(shorter[k])
    {
      if k > 0 {
        assert shorter[k] == ps[k];
      } else {
        assert forall j | 0 <= j < |ps[0].nodes| - 1 :: ps[0].nodes[1..][j] == ps[0].nodes[j + 1];
      }
    }
  }

  /** A run becomes a new attribute-less `<p>`; a block stays as it is. */
  function PieceNode(p: Piece): Node {
    match p
    case Run(ns) => Element("p", [], ns)
    case Block(n) => n
  }

  function PieceNodes(ps: seq<Piece>): (r: seq<Node>)
    ensures |r| == |ps|
    ensures forall k | 0 <= k < |ps| :: r[k] == PieceNode(ps[k])
  {
    if ps == [] then [] else [PieceNode(ps[0])] + PieceNodes(ps[1..])
  }

  /** The run of inline children collected so far, prepended to the first run of
      the remaining grouping. */
  function Pending(run: seq<Node>, ps: seq<Piece>): seq<Piece> {
    if run == [] then ps
    else if ps != [] && ps[0].Run? then [Run(run + ps[0].nodes)] + ps[1..]
    else [Run(run)] + ps
  }

  /** The paragraph a non-empty collected run is flushed into. */
  function Flush(run: seq<Node>): seq<Node> {
    if run == [] then [] else [Element("p", [], run)]
  }

  lemma {:induction false} PieceNodesConcat(a: seq<Piece>, b: seq<Piece>)
    ensures PieceNodes(a + b) == PieceNodes(a) + PieceNodes(b)
  {
    if a == [] {
      assert a + b == b;
    } else {
      assert (a + b)[1..] == a[1..] + b;
      PieceNodesConcat(a[1..], b);
    }
  }

  /** The loop of `sanitizeDocument` that replaces a paragraph holding a
      block-level element by new siblings: inline children are collected, and
      each block-level child first flushes the collected ones into a new `<p>`
      and is then added itself; the last collected ones are flushed at the end.
      The result is the reference grouping, each run wrapped in a paragraph. */
  method SplitParagraph(cs: seq<Node>) returns (newSiblings: seq<Node>)
    ensures newSiblings == PieceNodes(Pieces(cs))
  {
    newSiblings := [];
    var current: seq<Node> := [];
    var i := 0;
    while i < |cs|
      invariant 0 <= i <= |cs|
      invariant PieceNodes(Pieces(cs)) == newSiblings + PieceNodes(Pending(current, Pieces(cs[i..])))
    {
      var grandchild := cs[i];
      assert cs[i..][1..] == cs[i + 1..];
      if IsBlockLevel(grandchild) {
        BlockStep(PieceNodes(Pieces(cs)), newSiblings, current, cs[i..]);
        newSiblings := newSiblings + Flush(current) + [grandchild];
        current := [];
      } else {
        StepInline(current, cs[i..]);
        current := current + [grandchild];
      }
      i := i + 1;
    }
    assert cs[i..] == [];
    newSiblings := newSiblings + Flush(current);
  }

  /** The loop invariant across a block-level child. */
  lemma BlockStep(whole: seq<Node>, done: seq<Node>, current: seq<Node>, rest: seq<Node>)
    requires rest != [] && IsBlockLevel(rest[0])
    requires whole == done + PieceNodes(Pending(current, Pieces(rest)))
    ensures whole == done + Flush(current) + [rest[0]] + PieceNodes(Pending([], Pieces(rest[1..])))
  {
    var tail := Pieces(rest[1..]);
    StepBlock(current, rest);
    AppendAssoc4(done, Flush(current), [rest[0]], PieceNodes(tail));
    assert Pending([], tail) == tail;
  }

  lemma AppendAssoc4(d: seq<Node>, a: seq<Node>, b: seq<Node>, c: seq<Node>)
    ensures d + (a + b + c) == d + a + b + c
  {
  }

  /** A block-level child flushes the collected run and is added itself. */
  lemma StepBlock(current: seq<Node>, rest: seq<Node>)
    requires rest != [] && IsBlockLevel(rest[0])
    ensures PieceNodes(Pending(current, Pieces(rest))) == Flush(current) + [rest[0]] + PieceNodes(Pieces(rest[1..]))
  {
    var tail := Pieces(rest[1..]);
    assert Pieces(rest) == [Block(rest[0])] + tail;
    PieceNodesConcat([Block(rest[0])], tail);
    if current != [] {
      assert Pending(current, Pieces(rest)) == [Run(current)] + ([Block(rest[0])] + tail);
      PieceNodesConcat([Run(current)], [Block(rest[0])] + tail);
    }
  }

  /** An inline child joins the collected run. */
  lemma StepInline(current: seq<Node>, rest: seq<Node>)
    requires rest != [] && !IsBlockLevel(rest[0])
    ensures Pending(current, Pieces(rest)) == Pending(current + [rest[0]], Pieces(rest[1..]))
  {
    var c := rest[0];
    var tail := Pieces(rest[1..]);
    if tail != [] && tail[0].Run? {
      assert Pieces(rest) == [Run([c] + tail[0].nodes)] + tail[1..];
      JoinRun(current, c, tail);
    } else {
      assert Pieces(rest) == [Run([c])] + tail;
      assert Pending(current + [c], tail) == [Run(current + [c])] + tail;
      if current == [] {
        assert current + [c] == [c];
      }
    }
  }

  lemma JoinRun(current: seq<Node>, c: Node, tail: seq<Piece>)
    requires tail != [] && tail[0].Run?
    ensures Pending(current, [Run([c] + tail[0].nodes)] + tail[1..]) == Pending(current + [c], tail)
  {
    var ns := tail[0].nodes;
    assert Pending(current + [c], tail) == [Run(current + [c] + ns)] + tail[1..];
    if current == [] {
      assert current + [c] + ns == [c] + ns;
    } else {
      assert current + ([c] + ns) == current + [c] + ns;
    }
  }

  /** The new siblings carry the paragraph's text, in order. */
  lemma {:induction false} PieceNodesText(ps: seq<Piece>)
    ensures TextContentOf(PieceNodes(ps)) == TextContentOf(Flatten(ps))
  {
    if ps != [] {
      PieceNodesText(ps[1..]);
      var head := match ps[0] case Run(ns) => ns case Block(n) => [n];
      assert PieceNodes(ps) == [PieceNode(ps[0])] + PieceNodes(ps[1..]);
      TextContentOfConcat([PieceNode(ps[0])], PieceNodes(ps[1..]));
      TextContentOfConcat(head, Flatten(ps[1..]));
      assert TextContentOf([PieceNode(ps[0])]) == TextContent(PieceNode(ps[0])) + TextContentOf([]);
      if ps[0].Block? {
        assert TextContentOf(head) == TextContent(ps[0].node) + TextContentOf([]);
      }
    }
  }

  // ---------------------------------------------------------------------
  // The whole tree
  // ---------------------------------------------------------------------

  /** The children of a paragraph after clean-up: no block-level element and no
      `<br>` with children. */
  predicate ParagraphContent(cs: seq<Node>) {
    forall i | 0 <= i < |cs| :: !IsBlockLevel(cs[i]) && !IsFilledBreak(cs[i])
  }

  /** Every paragraph in the tree holds paragraph content only. */
  predicate ValidNode(n: Node)
    decreases n, 1
  {
    match n
    case Element(name, _, cs) => (name == "p" ==> ParagraphContent(cs)) && ValidForest(cs)
    case CData(cs) => ValidForest(cs)
    case _ => true
  }

  predicate ValidForest(cs: seq<Node>)
    decreases cs, 0
  {
    forall i | 0 <= i < |cs| :: ValidNode(cs[i])
  }

  /** `sanitizeDocument` on a node: only its descendants change. */
  function SanitizeNode(n: Node): (r: Node)
    ensures r.Element? == n.Element? && (n.Element? ==> r.name == n.name && r.attrs == n.attrs)
    ensures n.Element? ==> (r.children == [] <==> n.children == [])
    decreases n, 0
  {
    match n
    case Element(name, attrs, cs) => Element(name, attrs, SanitizeChildren(cs))
    case CData(cs) => CData(SanitizeChildren(cs))
    case _ => n
  }

  /** The `flatMap` callback: the child is sanitized first; a paragraph then
      loses its `<br>`s with children and, if it holds a block-level element,
      is replaced by the new siblings of `SplitParagraph`. */
  function SanitizeChild(c: Node): (r: seq<Node>)
    ensures r != []
    decreases c, 1
  {
    var s := SanitizeNode(c);
    if IsElementNamed(s, "p") then
      var kept := DropFilledBreaks(s.children);
      if exists i | 0 <= i < |kept| :: IsBlockLevel(kept[i]) then PieceNodes(Pieces(kept))
      else [Element("p", s.attrs, kept)]
    else [s]
  }

  /** The children of a node after `sanitizeDocument`; the document itself is
      sanitized as the sequence of its top-level children. */
  function SanitizeChildren(cs: seq<Node>): (r: seq<Node>)
    ensures r == [] <==> cs == []
    decreases cs, 2
  {
    if cs == [] then [] else SanitizeChild(cs[0]) + SanitizeChildren(cs[1..])
  }

  lemma ValidConcat(a: seq<Node>, b: seq<Node>)
    requires ValidForest(a) && ValidForest(b)
    ensures ValidForest(a + b)
  {
    assert forall i | 0 <= i < |a + b| :: (a + b)[i] == if i < |a| then a[i] else b[i - |a|];
  }

  /** After sanitizing, no paragraph anywhere holds a block-level element or a
      `<br>` with children. */
  lemma {:induction false} SanitizeChildrenValid(cs: seq<Node>)
    ensures ValidForest(SanitizeChildren(cs))
    decreases cs, 2
  {
    if cs != [] {
      SanitizeChildValid(cs[0]);
      SanitizeChildrenValid(cs[1..]);
      ValidConcat(SanitizeChild(cs[0]), SanitizeChildren(cs[1..]));
    }
  }

  /** Sanitizing a node makes everything below it valid; the node itself is
      valid too unless it is a paragraph, which its parent fixes. */
  lemma {:induction false} SanitizeNodeValid(n: Node)
    ensures ValidForest(ChildrenOf(SanitizeNode(n)))
    ensures !IsElementNamed(n, "p") ==> ValidNode(SanitizeNode(n))
    decreases n, 0
  {
    match n
    case Element(_, _, cs) => SanitizeChildrenValid(cs);
    case CData(cs) => SanitizeChildrenValid(cs);
    case _ =>
  }

  lemma {:induction false} SanitizeChildValid(c: Node)
    ensures ValidForest(SanitizeChild(c))
    decreases c, 1
  {
    var s := SanitizeNode(c);
    SanitizeNodeValid(c);
    if IsElementNamed(s, "p") {
      var kept := DropFilledBreaks(s.children);
      assert ValidForest(kept) by {
        forall i | 0 <= i < |kept| ensures ValidNode(kept[i]) {
          assert kept[i] in s.children;
        }
      }
      if exists i | 0 <= i < |kept| :: IsBlockLevel(kept[i]) {
        SplitValid(kept);
      } else {
        assert ValidNode(Element("p", s.attrs, kept));
      }
    }
  }

  /** Splitting valid, break-free paragraph children gives valid siblings. */
  lemma {:induction false} SplitValid(kept: seq<Node>)
    requires ValidForest(kept)
    requires forall i | 0 <= i < |kept| :: !IsFilledBreak(kept[i])
    ensures ValidForest(PieceNodes(Pieces(kept)))
  {
    if kept != [] {
      var c := kept[0];
      var rest := Pieces(kept[1..]);
      SplitValid(kept[1..]);
      var tail := PieceNodes(rest);
      if IsBlockLevel(c) {
        assert PieceNodes(Pieces(kept)) == [c] + tail;
        ValidConcat([c], tail);
      } else if rest != [] && rest[0].Run? {
        assert tail[0] == Element("p", [], rest[0].nodes);
        assert ValidNode(tail[0]);
        var p := Element("p", [], [c] + rest[0].nodes);
        ExtendParagraph(c, rest[0].nodes);
        assert PieceNodes(Pieces(kept)) == [p] + tail[1..];
        ValidConcat([p], tail[1..]);
      } else {
        var p := Element("p", [], [c]);
        assert ValidNode(p);
        assert PieceNodes(Pieces(kept)) == [p] + tail;
        ValidConcat([p], tail);
      }
    }
  }

  /** A valid inline node that is not a filled `<br>` may join a valid
      paragraph's children. */
  lemma ExtendParagraph(c: Node, ns: seq<Node>)
    requires ValidNode(c) && !IsBlockLevel(c) && !IsFilledBreak(c)
    requires ValidNode(Element("p", [], ns))
    ensures ValidNode(Element("p", [], [c] + ns))
  {
    var cs := [c] + ns;
    assert forall j | 1 <= j < |cs| :: cs[j] == ns[j - 1];
  }

  /** A tree that is already valid is left exactly as it is. */
  lemma {:induction false} SanitizeChildrenOfValid(cs: seq<Node>)
    requires ValidForest(cs)
    ensures SanitizeChildren(cs) == cs
    decreases cs, 2
  {
    if cs != [] {
      SanitizeChildOfValid(cs[0]);
      SanitizeChildrenOfValid(cs[1..]);
      assert cs == [cs[0]] + cs[1..];
    }
  }

  lemma {:induction false} SanitizeNodeOfValid(n: Node)
    requires ValidNode(n)
    ensures SanitizeNode(n) == n
    decreases n, 0
  {
    match n
    case Element(_, _, cs) => SanitizeChildrenOfValid(cs);
    case CData(cs) => SanitizeChildrenOfValid(cs);
    case _ =>
  }

  lemma {:induction false} SanitizeChildOfValid(c: Node)
    requires ValidNode(c)
    ensures SanitizeChild(c) == [c]
    decreases c, 1
  {
    SanitizeNodeOfValid(c);
  }

  /** Sanitizing is idempotent, and the trees it leaves unchanged are exactly the
      valid ones. */
  lemma SanitizeFixedPoints(cs: seq<Node>)
    ensures SanitizeChildren(SanitizeChildren(cs)) == SanitizeChildren(cs)
    ensures SanitizeChildren(cs) == cs <==> ValidForest(cs)
  {
    SanitizeChildrenValid(cs);
    SanitizeChildrenOfValid(SanitizeChildren(cs));
    if ValidForest(cs) {
      SanitizeChildrenOfValid(cs);
    }
  }

  /** No `<br>` with children anywhere in the tree. */
  predicate BreakFreeNode(n: Node)
    decreases n, 1
  {
    !IsFilledBreak(n) &&
    match n
    case Element(_, _, cs) => BreakFreeForest(cs)
    case CData(cs) => BreakFreeForest(cs)
    case _ => true
  }

  predicate BreakFreeForest(cs: seq<Node>)
    decreases cs, 0
  {
    forall i | 0 <= i < |cs| :: BreakFreeNode(cs[i])
  }

  /** No block-level element is a `<br>`. */
  lemma BlockLevelIsNotBreak(n: Node)
    requires IsBlockLevel(n)
    ensures !IsFilledBreak(n)
  {
    assert "br" !in BlockLevelNames;
  }

  /** Sanitizing a child that is not a filled `<br>` produces none. */
  lemma SanitizeChildNotFilled(c: Node)
    requires !IsFilledBreak(c)
    ensures NoFilledBreak(SanitizeChild(c))
  {
    var s := SanitizeNode(c);
    if IsElementNamed(s, "p") {
      var kept := DropFilledBreaks(s.children);
      if exists i | 0 <= i < |kept| :: IsBlockLevel(kept[i]) {
        PiecesNotFilled(kept);
      }
    }
  }

  predicate NoFilledBreak(cs: seq<Node>) {
    forall i | 0 <= i < |cs| :: !IsFilledBreak(cs[i])
  }

  lemma PiecesNotFilled(kept: seq<Node>)
    ensures NoFilledBreak(PieceNodes(Pieces(kept)))
  {
    var ps := Pieces(kept);
    PiecesSound(kept);
    forall k | 0 <= k < |ps|
      ensures !IsFilledBreak(PieceNode(ps[k]))
    {
      assert PieceOk(ps[k]);
      if ps[k].Block? {
        BlockLevelIsNotBreak(ps[k].node);
      }
    }
  }

  lemma NoFilledConcat(a: seq<Node>, b: seq<Node>)
    requires NoFilledBreak(a) && NoFilledBreak(b)
    ensures NoFilledBreak(a + b)
  {
    assert forall i | 0 <= i < |a + b| :: (a + b)[i] == if i < |a| then a[i] else b[i - |a|];
  }

  lemma {:induction false} SanitizeChildrenNotFilled(cs: seq<Node>)
    requires NoFilledBreak(cs)
    ensures NoFilledBreak(SanitizeChildren(cs))
  {
    if cs != [] {
      SanitizeChildNotFilled(cs[0]);
      SanitizeChildrenNotFilled(cs[1..]);
      NoFilledConcat(SanitizeChild(cs[0]), SanitizeChildren(cs[1..]));
    }
  }

  /** When no `<br>` has children, sanitizing keeps all the text of the tree, in
      order: paragraphs are only split and re-wrapped. */
  lemma {:induction false} SanitizeChildrenText(cs: seq<Node>)
    requires BreakFreeForest(cs)
    ensures TextContentOf(SanitizeChildren(cs)) == TextContentOf(cs)
    decreases cs, 2
  {
    if cs != [] {
      SanitizeChildText(cs[0]);
      SanitizeChildrenText(cs[1..]);
      TextContentOfConcat(SanitizeChild(cs[0]), SanitizeChildren(cs[1..]));
    }
  }

  lemma {:induction false} SanitizeNodeText(n: Node)
    requires BreakFreeNode(n)
    ensures TextContent(SanitizeNode(n)) == TextContent(n)
    decreases n, 0
  {
    if n.Element? {
      SanitizeChildrenText(n.children);
    }
  }

  lemma {:induction false} SanitizeChildText(c: Node)
    requires BreakFreeNode(c)
    ensures TextContentOf(SanitizeChild(c)) == TextContent(c)
    decreases c, 1
  {
    var s := SanitizeNode(c);
    SanitizeNodeText(c);
    if IsElementNamed(s, "p") {
      assert NoFilledBreak(c.children) by {
        forall i | 0 <= i < |c.children| ensures !IsFilledBreak(c.children[i]) {
          assert BreakFreeNode(c.children[i]);
        }
      }
      SanitizeChildrenNotFilled(c.children);
      var kept := DropFilledBreaks(s.children);
      assert kept == s.children;
      if exists i | 0 <= i < |kept| :: IsBlockLevel(kept[i]) {
        PiecesSound(kept);
        PieceNodesText(Pieces(kept));
      } else {
        assert TextContentOf([Element("p", s.attrs, kept)]) == TextContentOf(kept) + TextContentOf([]);
      }
    } else {
      assert TextContentOf([s]) == TextContent(s) + TextContentOf([]);
    }
  }

  /** `<p>a<div>b</div>c</p>` becomes `<p>a</p><div>b</div><p>c</p>`. */
  lemma SplitExample()
    ensures SanitizeChildren([Element("p", [], [Text("a"), Element("div", [], [Text("b")]), Text("c")])])
      == [Element("p", [], [Text("a")]), Element("div", [], [Text("b")]), Element("p", [], [Text("c")])]
  {
    var div := Element("div", [], [Text("b")]);
    var kept := [Text("a"), div, Text("c")];
    ExampleChildren();
    ExamplePieces();
    assert SanitizeChildren([Element("p", [], kept)]) == SanitizeChild(Element("p", [], kept)) + SanitizeChildren([]);
  }

  lemma ExampleChildren()
    ensures var div := Element("div", [], [Text("b")]);
      SanitizeChildren([Text("a"), div, Text("c")]) == [Text("a"), div, Text("c")]
  {
    var div := Element("div", [], [Text("b")]);
    assert SanitizeChildren([Text("b")]) == [Text("b")];
    assert SanitizeNode(div) == div;
    assert SanitizeChildren([Text("c")]) == [Text("c")];
    assert SanitizeChildren([div, Text("c")]) == [div] + SanitizeChildren([Text("c")]);
    assert SanitizeChildren([Text("a"), div, Text("c")]) == [Text("a")] + SanitizeChildren([div, Text("c")]);
  }

  lemma ExamplePieces()
    ensures var div := Element("div", [], [Text("b")]);
      && IsBlockLevel(div)
      && PieceNodes(Pieces([Text("a"), div, Text("c")])) == [Element("p", [], [Text("a")]), div, Element("p", [], [Text("c")])]
  {
    var div := Element("div", [], [Text("b")]);
    assert IsBlockLevel(div);
    assert Pieces([Text("c")]) == [Run([Text("c")])];
    assert Pieces([div, Text("c")]) == [Block(div), Run([Text("c")])];
    assert Pieces([Text("a"), div, Text("c")]) == [Run([Text("a")]), Block(div), Run([Text("c")])];
  }

  // ---------------------------------------------------------------------
  // Dropping blank text
  // ---------------------------------------------------------------------

  /** A text node holding white space only: the line breaks and indentation
      between tags. */
  predicate IsBlankText(n: Node) {
    n.Text? && Trim(n.data) == ""
  }

  /** `clearLineBreaks` on the children of a node: blank text nodes are
      dropped, then every remaining child is cleared in turn. */
  function ClearLineBreaks(cs: seq<Node>): (r: seq<Node>)
    ensures |r| <= |cs|
    decreases cs, 1
  {
    if cs == [] then []
    else (if IsBlankText(cs[0]) then [] else [ClearNode(cs[0])]) + ClearLineBreaks(cs[1..])
  }

  /** `clearLineBreaks` on one kept node: an element keeps its name and
      attributes and a CDATA section stays one, each with its children cleared;
      text, comments and directives are left as they are. */
  function ClearNode(n: Node): (r: Node)
    ensures r.Element? == n.Element? && r.Text? == n.Text? && r.CData? == n.CData?
    ensures n.Element? ==> r.name == n.name && r.attrs == n.attrs
    ensures !n.Element? && !n.CData? ==> r == n
    decreases n, 0
  {
    match n
    case Element(name, attrs, cs) => Element(name, attrs, ClearLineBreaks(cs))
    case CData(cs) => CData(ClearLineBreaks(cs))
    case _ => n
  }

  /** The clean-up keeps the order of the children: clearing a run of children
      clears its first part, then the rest. */
  lemma {:induction false} ClearLineBreaksConcat(a: seq<Node>, b: seq<Node>)
    ensures ClearLineBreaks(a + b) == ClearLineBreaks(a) + ClearLineBreaks(b)
  {
    if a == [] {
      assert a + b == b;
    } else {
      assert (a + b)[0] == a[0];
      assert (a + b)[1..] == a[1..] + b;
      ClearLineBreaksConcat(a[1..], b);
    }
  }

  /** A blank text child is dropped; any other child is kept, cleared. */
  lemma ClearLineBreaksOne(c: Node)
    ensures ClearLineBreaks([c]) == if IsBlankText(c) then [] else [ClearNode(c)]
  {
    assert [c][1..] == [];
  }

  /** No blank text node anywhere in the tree. */
  predicate NoBlankNode(n: Node)
    decreases n, 1
  {
    !IsBlankText(n) &&
    match n
    case Element(_, _, cs) => NoBlankForest(cs)
    case CData(cs) => NoBlankForest(cs)
    case _ => true
  }

  predicate NoBlankForest(cs: seq<Node>)
    decreases cs, 0
  {
    forall i | 0 <= i < |cs| :: NoBlankNode(cs[i])
  }

  lemma NoBlankConcat(a: seq<Node>, b: seq<Node>)
    requires NoBlankForest(a) && NoBlankForest(b)
    ensures NoBlankForest(a + b)
  {
    assert forall i | 0 <= i < |a + b| :: (a + b)[i] == if i < |a| then a[i] else b[i - |a|];
  }

  /** Afterwards no blank text node is left anywhere. */
  lemma {:induction false} ClearLineBreaksComplete(cs: seq<Node>)
    ensures NoBlankForest(ClearLineBreaks(cs))
    decreases cs, 1
  {
    if cs != [] {
      ClearLineBreaksComplete(cs[1..]);
      if !IsBlankText(cs[0]) {
        ClearNodeComplete(cs[0]);
        NoBlankConcat([ClearNode(cs[0])], ClearLineBreaks(cs[1..]));
      }
    }
  }

  lemma {:induction false} ClearNodeComplete(n: Node)
    requires !IsBlankText(n)
    ensures NoBlankNode(ClearNode(n))
    decreases n, 0
  {
    match n
    case Element(_, _, cs) => ClearLineBreaksComplete(cs);
    case CData(cs) => ClearLineBreaksComplete(cs);
    case _ =>
  }

  /** Clearing keeps every paragraph free of block-level elements and of
      `<br>`s with children. */
  lemma {:induction false} ClearLineBreaksValid(cs: seq<Node>)
    requires ValidForest(cs)
    ensures ValidForest(ClearLineBreaks(cs))
    decreases cs, 1
  {
    if cs != [] {
      ClearLineBreaksValid(cs[1..]);
      if !IsBlankText(cs[0]) {
        ClearNodeValid(cs[0]);
        ValidConcat([ClearNode(cs[0])], ClearLineBreaks(cs[1..]));
      }
    }
  }

  lemma {:induction false} ClearNodeValid(n: Node)
    requires ValidNode(n)
    ensures ValidNode(ClearNode(n))
    decreases n, 0
  {
    match n
    case Element(name, _, cs) =>
      ClearLineBreaksValid(cs);
      if name == "p" {
        ClearParagraphContent(cs);
      }
    case CData(cs) => ClearLineBreaksValid(cs);
    case _ =>
  }

  lemma {:induction false} ClearParagraphContent(cs: seq<Node>)
    requires ParagraphContent(cs)
    ensures ParagraphContent(ClearLineBreaks(cs))
  {
    if cs != [] {
      ClearParagraphContent(cs[1..]);
      var head := if IsBlankText(cs[0]) then [] else [ClearNode(cs[0])];
      if !IsBlankText(cs[0]) {
        ClearNodeNotFilled(cs[0]);
      }
      ParagraphContentConcat(head, ClearLineBreaks(cs[1..]));
    }
  }

  lemma ParagraphContentConcat(a: seq<Node>, b: seq<Node>)
    requires ParagraphContent(a) && ParagraphContent(b)
    ensures ParagraphContent(a + b)
  {
    assert forall i | 0 <= i < |a + b| :: (a + b)[i] == if i < |a| then a[i] else b[i - |a|];
  }

  lemma ClearNodeNotFilled(n: Node)
    requires !IsBlockLevel(n) && !IsFilledBreak(n)
    ensures !IsBlockLevel(ClearNode(n)) && !IsFilledBreak(ClearNode(n))
  {
  }

  /** A tree without blank text is left exactly as it is. */
  lemma {:induction false} ClearLineBreaksOfClean(cs: seq<Node>)
    requires NoBlankForest(cs)
    ensures ClearLineBreaks(cs) == cs
    decreases cs, 1
  {
    if cs != [] {
      ClearLineBreaksOfClean(cs[1..]);
      ClearNodeOfClean(cs[0]);
      assert cs == [cs[0]] + cs[1..];
    }
  }

  lemma {:induction false} ClearNodeOfClean(n: Node)
    requires NoBlankNode(n)
    ensures ClearNode(n) == n
    decreases n, 0
  {
    match n
    case Element(_, _, cs) => ClearLineBreaksOfClean(cs);
    case CData(cs) => ClearLineBreaksOfClean(cs);
    case _ =>
  }

  /** Clearing is idempotent, and its fixed points are exactly the trees without
      blank text. */
  lemma ClearLineBreaksFixedPoints(cs: seq<Node>)
    ensures ClearLineBreaks(ClearLineBreaks(cs)) == ClearLineBreaks(cs)
    ensures ClearLineBreaks(cs) == cs <==> NoBlankForest(cs)
  {
    ClearLineBreaksComplete(cs);
    ClearLineBreaksOfClean(ClearLineBreaks(cs));
    if NoBlankForest(cs) {
      ClearLineBreaksOfClean(cs);
    }
  }

  /** Only white space is removed: the non-white-space characters of the text
      are kept, in order. */
  lemma {:induction false} ClearLineBreaksKeepsText(cs: seq<Node>)
    ensures NonSpace(TextContentOf(ClearLineBreaks(cs))) == NonSpace(TextContentOf(cs))
    decreases cs, 1
  {
    if cs != [] {
      ClearLineBreaksKeepsText(cs[1..]);
      var head := if IsBlankText(cs[0]) then [] else [ClearNode(cs[0])];
      var rest := ClearLineBreaks(cs[1..]);
      assert ClearLineBreaks(cs) == head + rest;
      TextContentOfConcat(head, rest);
      NonSpaceConcat(TextContentOf(head), TextContentOf(rest));
      NonSpaceConcat(TextContent(cs[0]), TextContentOf(cs[1..]));
      ClearHeadKeepsText(cs[0]);
    }
  }

  /** What one child leaves behind carries its non-white-space text. */
  lemma {:induction false} ClearHeadKeepsText(c: Node)
    ensures NonSpace(TextContentOf(if IsBlankText(c) then [] else [ClearNode(c)])) == NonSpace(TextContent(c))
    decreases c, 1
  {
    if IsBlankText(c) {
      assert NonSpace(c.data) == NonSpace(Trim(c.data)) == NonSpace([]);
    } else {
      ClearNodeKeepsText(c);
      var x := ClearNode(c);
      assert TextContentOf([x]) == TextContent(x) + TextContentOf([]);
      assert TextContent(x) + [] == TextContent(x);
    }
  }

  lemma {:induction false} ClearNodeKeepsText(n: Node)
    ensures NonSpace(TextContent(ClearNode(n))) == NonSpace(TextContent(n))
    decreases n, 0
  {
    if n.Element? {
      ClearLineBreaksKeepsText(n.children);
    }
  }
}

=== FILE: serializer.dfy ===
/** The conversion of the cleaned-up tree into blocks (`serializedDocument`,
    `convertNodeToBlock` and the per-type converters in
    editorjs-serializer.ts), and the whole import pipeline. */
module Serializer {
  import opened Wrappers
  import opened Strings
  import opened Dom
  import opened Inline
  import opened Blocks
  import opened BlockTypes
  import opened Lists
  import opened Tables
  import Sanitize

  /** The editor format version every document is stamped with. */
  const Version: string := "2.31.0-rc.7"

  /** The output document; `time` is the clock reading at conversion, which the
      caller supplies. */
  datatype OutputData = OutputData(time: int, blocks: seq<Block>, version: string)

  /** `if (text.trim()) block.data.text = text`: blank text is not written. */
  function TextData(text: string): (r: Option<string>)
    ensures r.Some? <==> !AllSpace(text)
    ensures r.Some? ==> r.value == text
  {
    if Trim(text) != "" then Some(text) else None
  }

  /** The node is an element child of its parent's single child, named `name`. */
  predicate SoleChild(cs: seq<Node>, name: string) {
    |cs| == 1 && cs[0].Element? && cs[0].name == name
  }

  // ---------------------------------------------------------------------
  // Text nodes
  // ---------------------------------------------------------------------

  /** `convertTextNodeToBlockParagraph`: a text node with something besides
      white space becomes a paragraph of its trimmed text, every white-space
      run folded into one space; blank text gives no block. The type is
      `getBlockType("p")`, `paragraph` (`ParagraphType`). */
  function ConvertText(data: string): (r: Option<Block>)
    ensures r.Some? <==> !AllSpace(data)
    ensures r.Some? ==> r.value.kind == "paragraph" && r.value.data.ParagraphData? && r.value.data.text.Some?
    ensures r.Some? ==> var t := r.value.data.text.value;
      t != "" && Trimmed(t) && Collapsed(t) && NonSpace(t) == NonSpace(data)
  {
    var trimmed := Trim(data);
    if trimmed == "" then None
    else
      CollapseKeepsText(trimmed);
      Some(Block("paragraph", ParagraphData(Some(CollapseSpaces(trimmed)))))
  }

  // ---------------------------------------------------------------------
  // Paragraphs and headers
  // ---------------------------------------------------------------------

  /** The type an image paragraph is written with: `getBlockType("image")`,
      which the type table does not know, as written; `image`, a type the editor
      accepts, as intended. */
  function ImageType(build: Build): (r: string)
    ensures r in EditorTypes
    ensures build == AsWritten ==> r == "unknown"
    ensures build == Corrected ==> r == "image"
  {
    NoImageType("image");
    if build == AsWritten then GetBlockType("image") else "image"
  }

  /** `processParagraphNodeToBlock` on a paragraph with children `cs`: a single
      `img` child gives an image block, a single `audio` child an audio block of
      type `getBlockType("audio")`, `audioPlayer` (`AudioType`), anything else a
      paragraph of the inline text, typed `getBlockType("p")`, `paragraph`. */
  function ParagraphBlock(build: Build, cs: seq<Node>): (r: Result<Block>)
    ensures r.Failure? <==> SoleChild(cs, "img") && ImageSize(cs[0].attrs).Failure?
    ensures r.Success? ==> r.value.kind in EditorTypes
    ensures r.Success? && SoleChild(cs, "img") ==> r.value.kind == ImageType(build) && r.value.data.ImageData?
    ensures r.Success? && SoleChild(cs, "img") ==>
      r.value.data == ImageData(AttrOr(cs[0].attrs, "src", ""), AttrOr(cs[0].attrs, "alt", ""), ImageSize(cs[0].attrs).value)
    ensures SoleChild(cs, "audio") ==> r == Success(Block("audioPlayer", AudioData(AttrOr(cs[0].attrs, "src", ""))))
    ensures !SoleChild(cs, "img") && !SoleChild(cs, "audio") ==>
      r == Success(Block("paragraph", ParagraphData(TextData(NodeText(build, cs)))))
  {
    if SoleChild(cs, "img") then
      var attrs := cs[0].attrs;
      var size :- ImageSize(attrs);
      Success(Block(ImageType(build), ImageData(AttrOr(attrs, "src", ""), AttrOr(attrs, "alt", ""), size)))
    else if SoleChild(cs, "audio") then
      Success(Block("audioPlayer", AudioData(AttrOr(cs[0].attrs, "src", ""))))
    else
      Success(Block("paragraph", ParagraphData(TextData(NodeText(build, cs)))))
  }

  /** The converter as written types every image paragraph `unknown`, while
      writing the same image data the intended converter writes under `image`. */
  lemma ImageParagraphAsWritten(cs: seq<Node>)
    requires SoleChild(cs, "img")
    ensures ParagraphBlock(AsWritten, cs).Success? <==> ParagraphBlock(Corrected, cs).Success?
    ensures ParagraphBlock(AsWritten, cs).Failure? ==> ParagraphBlock(AsWritten, cs) == ParagraphBlock(Corrected, cs)
    ensures ParagraphBlock(AsWritten, cs).Success? ==>
      ParagraphBlock(AsWritten, cs).value == Block("unknown", ParagraphBlock(Corrected, cs).value.data) &&
      ParagraphBlock(Corrected, cs).value.kind == "image"
  {
  }

  /** A bare `<p><img src="a.png"></p>`. */
  lemma ImageParagraphExample()
    ensures ConvertElement(AsWritten, "p", [], [Element("img", [Attr("src", "a.png")], [])]) ==
      Success(Block("unknown", ImageData("a.png", "", "LGL")))
    ensures ConvertElement(Corrected, "p", [], [Element("img", [Attr("src", "a.png")], [])]) ==
      Success(Block("image", ImageData("a.png", "", "LGL")))
  {
    ConverterTypes();
    assert AttrOr([Attr("src", "a.png")], "alt", "") == "";
  }

  /** `processHeaderNodeToBlock` on a heading named `name`, the block type `ty`
      already set. */
  function HeaderBlock(build: Build, ty: string, name: string, cs: seq<Node>): Block {
    Block(ty, HeaderData(TextData(NodeText(build, cs)), GetHeaderLevel(name)))
  }

  // ---------------------------------------------------------------------
  // Elements
  // ---------------------------------------------------------------------

  /** `processTableNodeToBlock`: the rows of the table, never stretched, with
      headings when a `thead` was met. */
  function TableBlockOf(build: Build, cs: seq<Node>): Result<Block> {
    var rows :- TableRows(build, cs);
    Success(Block("table", TableData(rows, false, SeenHead(cs))))
  }

  /** `convertTagNodeToBlock` on an element: the block type comes from the
      letter-case-insensitive `getBlockType`, the converter from the exact tag
      name. */
  function ConvertElement(build: Build, name: string, attrs: seq<Attr>, cs: seq<Node>): (r: Result<Block>)
    ensures r.Success? ==> r.value.kind in EditorTypes
  {
    ConvertTyped(build, GetBlockType(name), name, attrs, cs)
  }

  /** The converter chosen by the tag name, once the type `ty` is set. An
      unknown type, and a known type without a converter (an `hr`, a
      `link-image`, a top-level `audio`, an upper-case name), keep the empty
      data. A `div` whose only child is a table is converted as that table:
      the recursive call sets the type to `getBlockType("table")`, `table`, and
      takes the table branch. */
  function ConvertTyped(build: Build, ty: string, name: string, attrs: seq<Attr>, cs: seq<Node>): (r: Result<Block>)
    requires ty in EditorTypes
    ensures r.Success? ==> r.value.kind in EditorTypes
  {
    if ty == "unknown" then Success(Block(ty, Empty))
    else if name == "table" then TableBlockOf(build, cs)
    else if name == "ol" || name == "ul" then
      Success(Block(ty, ListData(if name == "ol" then "ordered" else "unordered", ListItems(build, cs))))
    else if name == "p" then ParagraphBlock(build, cs)
    else if IsHeadingName(name) then Success(HeaderBlock(build, ty, name, cs))
    else if name == "div" && SoleChild(cs, "table") then TableBlockOf(build, cs[0].children)
    else if name in CodeTags then Success(Block(ty, CodeData(CodeOf(build, name, attrs, cs))))
    else Success(Block(ty, Empty))
  }

  /** A `div` wrapping a single table is the table itself. */
  lemma WrappedTable(build: Build, attrs: seq<Attr>, t: Node)
    requires IsElementNamed(t, "table")
    ensures ConvertElement(build, "div", attrs, [t]) == ConvertElement(build, "table", t.attrs, t.children)
  {
    CodeTagsLower("div");
    TypeOfLowerCase("div");
    ConverterTypes();
  }

  /** A conversion fails only on a table whose rows cannot be read (directly
      or as the single child of a `div`) or on an image paragraph whose variant
      has no size. */
  lemma ConvertElementFails(build: Build, name: string, attrs: seq<Attr>, cs: seq<Node>)
    ensures ConvertElement(build, name, attrs, cs).Failure? <==>
      (name == "table" && TableRows(build, cs).Failure?) ||
      (name == "p" && SoleChild(cs, "img") && ImageSize(cs[0].attrs).Failure?) ||
      (name == "div" && SoleChild(cs, "table") && TableRows(build, cs[0].children).Failure?)
  {
    var ty := GetBlockType(name);
    if name == "table" {
      ConverterTypes();
    } else if name == "p" {
      ConverterTypes();
    } else if name == "div" {
      CodeTagsLower("div");
      TypeOfLowerCase("div");
    }
  }

  /** A table block holds the non-empty rows of the table in document order,
      is never stretched, and has headings exactly when a `thead` is among the
      children. */
  lemma TableBlock(build: Build, attrs: seq<Attr>, cs: seq<Node>)
    requires TableRows(build, cs).Success?
    ensures var r := ConvertElement(build, "table", attrs, cs);
      r.Success? && r.value.kind == "table" && r.value.data.TableData? &&
      r.value.data.content == TableRows(build, cs).value && !r.value.data.stretched &&
      (r.value.data.withHeadings <==> exists i | 0 <= i < |cs| :: IsElementNamed(cs[i], "thead")) &&
      forall i | 0 <= i < |r.value.data.content| :: r.value.data.content[i] != []
  {
    ConverterTypes();
    SeenHeadMeaning(cs);
  }

  /** An `ol` gives an ordered and a `ul` an unordered list block holding the
      items of its `li` children. */
  lemma ListBlock(build: Build, name: string, attrs: seq<Attr>, cs: seq<Node>)
    requires name == "ol" || name == "ul"
    ensures var r := ConvertElement(build, name, attrs, cs);
      r.Success? && r.value.kind == "list" && r.value.data.ListData? &&
      (r.value.data.style == "ordered" <==> name == "ol") &&
      r.value.data.items == ListItems(build, cs)
  {
    ListTagsLower(name);
    TypeOfLowerCase(name);
  }

  /** A heading `h1` to `h6` gives a header block at the heading's level, with
      its inline text when that is not blank. */
  lemma HeadingBlock(build: Build, name: string, attrs: seq<Attr>, cs: seq<Node>)
    requires IsHeadingName(name)
    ensures var r := ConvertElement(build, name, attrs, cs);
      r.Success? && r.value.kind == "header" && r.value.data.HeaderData? &&
      1 <= r.value.data.level <= 6 && name == HeadingName(r.value.data.level) &&
      (r.value.data.headerText.Some? <==> NodeText(build, cs) != "") &&
      (r.value.data.headerText.Some? ==> r.value.data.headerText.value == NodeText(build, cs))
  {
    HeadingConverts(build, name, attrs, cs);
    HeaderBlockShape(build, name, cs);
  }

  lemma HeaderBlockShape(build: Build, name: string, cs: seq<Node>)
    requires IsHeadingName(name)
    ensures var b := HeaderBlock(build, "header", name, cs);
      b.kind == "header" && b.data.HeaderData? &&
      1 <= b.data.level <= 6 && name == HeadingName(b.data.level) &&
      (b.data.headerText.Some? <==> NodeText(build, cs) != "") &&
      (b.data.headerText.Some? ==> b.data.headerText.value == NodeText(build, cs))
  {
    HeaderLevels(name);
    var t := NodeText(build, cs);
    assert HeaderBlock(build, "header", name, cs) == Block("header", HeaderData(TextData(t), GetHeaderLevel(name)));
    TrimmedTextData(t);
  }

  /** Trimmed text is written exactly when it is not empty. */
  lemma TrimmedTextData(t: string)
    requires Trimmed(t)
    ensures TextData(t).Some? <==> t != ""
  {
    if t != "" {
      assert !IsSpace(t[0]);
    }
  }

  lemma HeadingConverts(build: Build, name: string, attrs: seq<Attr>, cs: seq<Node>)
    requires IsHeadingName(name)
    ensures ConvertElement(build, name, attrs, cs) == Success(HeaderBlock(build, "header", name, cs))
  {
    HeadingType(name);
    assert name != "table" && name != "ol" && name != "ul" && name != "p";
  }

  /** Every other tag of the raw-markup family gives a code block holding the
      element re-written with its attributes. */
  lemma CodeBlock(build: Build, name: string, attrs: seq<Attr>, cs: seq<Node>)
    requires name in CodeTags && !(name == "div" && SoleChild(cs, "table"))
    ensures ConvertElement(build, name, attrs, cs) == Success(Block("code", CodeData(CodeOf(build, name, attrs, cs))))
  {
    CodeTagsLower(name);
    LowerOfLower(name);
    CodeTypeTags(name);
    CodeTagsOther(name);
    assert ConvertElement(build, name, attrs, cs) == ConvertTyped(build, "code", name, attrs, cs);
  }

  /** A name the type table does not know, `img` among them, gives an
      `unknown` block with no data. */
  lemma UnknownBlock(build: Build, name: string, attrs: seq<Attr>, cs: seq<Node>)
    requires GetBlockType(name) == "unknown"
    ensures ConvertElement(build, name, attrs, cs) == Success(Block("unknown", Empty))
  {
  }

  // ---------------------------------------------------------------------
  // Nodes and documents
  // ---------------------------------------------------------------------

  /** The nodes that produce a block: every element, and text with something
      besides white space. */
  predicate Yields(n: Node) {
    n.Element? || (n.Text? && !AllSpace(n.data))
  }

  /** `convertNodeToBlock`: text and elements are converted, CDATA sections,
      directives and comments give no block. */
  function ConvertNode(build: Build, n: Node): (r: Result<Option<Block>>)
    ensures r.Failure? ==> n.Element?
    ensures r.Success? ==> (r.value.Some? <==> Yields(n))
    ensures r.Success? && r.value.Some? ==> r.value.value.kind in EditorTypes
  {
    match n
    case Text(d) => Success(ConvertText(d))
    case Element(name, attrs, cs) =>
      var b :- ConvertElement(build, name, attrs, cs);
      Success(Some(b))
    case _ => Success(None)
  }

  function OptionSeq(o: Option<Block>): (r: seq<Block>)
    ensures |r| <= 1
  {
    if o.Some? then [o.value] else []
  }

  /** The blocks of a run of top-level nodes under a conversion `convert`, in
      order; the first failure ends the conversion. */
  function BlocksWith(convert: Node -> Result<Option<Block>>, cs: seq<Node>): (r: Result<seq<Block>>)
    ensures r.Success? ==> |r.value| <= |cs|
  {
    if cs == [] then Success([])
    else
      var head :- convert(cs[0]);
      var rest :- BlocksWith(convert, cs[1..]);
      Success(OptionSeq(head) + rest)
  }

  /** The conversion of the chosen build, as the document loop takes it. */
  function ConvertNodeOf(build: Build): Node -> Result<Option<Block>> {
    n => ConvertNode(build, n)
  }

  /** The blocks of the document's top-level nodes. */
  function DocumentBlocks(build: Build, cs: seq<Node>): Result<seq<Block>> {
    BlocksWith(ConvertNodeOf(build), cs)
  }

  /** The blocks one node contributes, as a run of blocks. */
  function Lift(o: Result<Option<Block>>): (r: Result<seq<Block>>)
    ensures r.Failure? <==> o.Failure?
  {
    if o.Failure? then Failure(o.error) else Success(OptionSeq(o.value))
  }

  /** Two runs of blocks one after the other: the first failure, or all the
      blocks in order. */
  function Chain(x: Result<seq<Block>>, y: Result<seq<Block>>): (r: Result<seq<Block>>)
    ensures r.Failure? <==> x.Failure? || y.Failure?
  {
    if x.Failure? then x else if y.Failure? then y else Success(x.value + y.value)
  }

  lemma ChainAssoc(x: Result<seq<Block>>, y: Result<seq<Block>>, z: Result<seq<Block>>)
    ensures Chain(Chain(x, y), z) == Chain(x, Chain(y, z))
  {
    if x.Success? && y.Success? && z.Success? {
      assert (x.value + y.value) + z.value == x.value + (y.value + z.value);
    }
  }

  lemma BlocksWithHead(convert: Node -> Result<Option<Block>>, a: seq<Node>)
    requires a != []
    ensures BlocksWith(convert, a) == Chain(Lift(convert(a[0])), BlocksWith(convert, a[1..]))
  {
  }

  lemma BlocksWithOne(convert: Node -> Result<Option<Block>>, c: Node)
    ensures BlocksWith(convert, [c]) == Lift(convert(c))
  {
    BlocksWithHead(convert, [c]);
    assert [c][1..] == [];
    if convert(c).Success? {
      assert OptionSeq(convert(c).value) + [] == OptionSeq(convert(c).value);
    }
  }

  /** The blocks of two runs one after the other: a failure in the first run
      is the result, then a failure in the second, and otherwise the blocks of
      the first followed by those of the second. */
  lemma {:induction false} BlocksWithConcat(convert: Node -> Result<Option<Block>>, a: seq<Node>, b: seq<Node>)
    ensures BlocksWith(convert, a + b) == Chain(BlocksWith(convert, a), BlocksWith(convert, b))
  {
    var y := BlocksWith(convert, b);
    if a == [] {
      assert a + b == b;
      if y.Success? {
        assert [] + y.value == y.value;
      }
    } else {
      var h := Lift(convert(a[0]));
      var x := BlocksWith(convert, a[1..]);
      BlocksWithHead(convert, a);
      BlocksWithHead(convert, a + b);
      assert (a + b)[0] == a[0];
      assert (a + b)[1..] == a[1..] + b;
      BlocksWithConcat(convert, a[1..], b);
      ChainAssoc(h, x, y);
    }
  }

  /** The conversion fails exactly when some node fails, and then with the
      error of the first node that fails. */
  lemma {:induction false} BlocksWithFails(convert: Node -> Result<Option<Block>>, cs: seq<Node>)
    ensures BlocksWith(convert, cs).Failure? <==> exists i | 0 <= i < |cs| :: convert(cs[i]).Failure?
    ensures BlocksWith(convert, cs).Failure? ==> exists i | 0 <= i < |cs| ::
      convert(cs[i]).Failure? && BlocksWith(convert, cs).error == convert(cs[i]).error &&
      forall j | 0 <= j < i :: convert(cs[j]).Success?
  {
    if cs != [] {
      BlocksWithFails(convert, cs[1..]);
      assert forall i | 1 <= i < |cs| :: cs[i] == cs[1..][i - 1];
      if convert(cs[0]).Failure? {
        assert convert(cs[0]).Failure? && BlocksWith(convert, cs).error == convert(cs[0]).error;
      } else if BlocksWith(convert, cs[1..]).Failure? {
        var k :| 0 <= k < |cs[1..]| && convert(cs[1..][k]).Failure? &&
          BlocksWith(convert, cs[1..]).error == convert(cs[1..][k]).error &&
          forall j | 0 <= j < k :: convert(cs[1..][j]).Success?;
        assert forall j | 0 <= j < k + 1 :: convert(cs[j]).Success?;
        assert convert(cs[k + 1]).Failure?;
      }
    }
  }

  /** How many of the nodes produce a block. */
  function YieldCount(cs: seq<Node>): nat {
    if cs == [] then 0 else (if Yields(cs[0]) then 1 else 0) + YieldCount(cs[1..])
  }

  /** One block per yielding node, for any conversion that yields a block on
      exactly those nodes. */
  lemma {:induction false} BlocksWithCount(convert: Node -> Result<Option<Block>>, cs: seq<Node>)
    requires forall n :: convert(n).Success? ==> (convert(n).value.Some? <==> Yields(n))
    requires BlocksWith(convert, cs).Success?
    ensures |BlocksWith(convert, cs).value| == YieldCount(cs)
  {
    if cs != [] {
      BlocksWithCount(convert, cs[1..]);
    }
  }

  lemma ConvertNodeYields(build: Build)
    ensures forall n :: ConvertNodeOf(build)(n).Success? ==> (ConvertNodeOf(build)(n).value.Some? <==> Yields(n))
  {
  }

  /** A successful conversion has one block per element and per non-blank text
      node, each of a type the editor accepts. */
  lemma BlocksCount(build: Build, cs: seq<Node>)
    requires DocumentBlocks(build, cs).Success?
    ensures |DocumentBlocks(build, cs).value| == YieldCount(cs)
  {
    ConvertNodeYields(build);
    BlocksWithCount(ConvertNodeOf(build), cs);
  }

  /** Every block of a successful conversion has a type the editor accepts. */
  lemma {:induction false} BlocksWithKinds(convert: Node -> Result<Option<Block>>, cs: seq<Node>)
    requires forall n :: convert(n).Success? && convert(n).value.Some? ==> convert(n).value.value.kind in EditorTypes
    requires BlocksWith(convert, cs).Success?
    ensures forall i | 0 <= i < |BlocksWith(convert, cs).value| :: BlocksWith(convert, cs).value[i].kind in EditorTypes
  {
    if cs != [] {
      BlocksWithHead(convert, cs);
      BlocksWithKinds(convert, cs[1..]);
      var h := OptionSeq(convert(cs[0]).value);
      var t := BlocksWith(convert, cs[1..]).value;
      assert BlocksWith(convert, cs).value == h + t;
      KindsConcat(h, t);
    }
  }

  lemma KindsConcat(h: seq<Block>, t: seq<Block>)
    requires forall i | 0 <= i < |h| :: h[i].kind in EditorTypes
    requires forall i | 0 <= i < |t| :: t[i].kind in EditorTypes
    ensures forall i | 0 <= i < |h + t| :: (h + t)[i].kind in EditorTypes
  {
    assert forall i | 0 <= i < |h + t| :: (h + t)[i] == if i < |h| then h[i] else t[i - |h|];
  }

  lemma BlocksKinds(build: Build, cs: seq<Node>)
    requires DocumentBlocks(build, cs).Success?
    ensures forall i | 0 <= i < |DocumentBlocks(build, cs).value| :: DocumentBlocks(build, cs).value[i].kind in EditorTypes
  {
    BlocksWithKinds(ConvertNodeOf(build), cs);
  }

  /** `serializedDocument`: the loop over the top-level nodes, collecting the
      blocks of those that give one. */
  method SerializeDocument(build: Build, time: int, doc: seq<Node>) returns (r: Result<OutputData>)
    ensures r.Success? <==> DocumentBlocks(build, doc).Success?
    ensures r.Success? ==> r.value == OutputData(time, DocumentBlocks(build, doc).value, Version)
    ensures r.Failure? ==> r.error == DocumentBlocks(build, doc).error
  {
    var convert := ConvertNodeOf(build);
    var blocks: seq<Block> := [];
    var i := 0;
    while i < |doc|
      invariant 0 <= i <= |doc|
      invariant BlocksWith(convert, doc[..i]) == Success(blocks)
    {
      var b := convert(doc[i]);
      LoopStep(convert, doc, i, blocks);
      if b.Failure? {
        return Failure(b.error);
      }
      blocks := blocks + OptionSeq(b.value);
      i := i + 1;
    }
    assert doc[..i] == doc;
    return Success(OutputData(time, blocks, Version));
  }

  /** One turn of the document loop: a failing node ends the conversion with
      its error, any other adds its blocks. */
  lemma LoopStep(convert: Node -> Result<Option<Block>>, doc: seq<Node>, i: nat, blocks: seq<Block>)
    requires i < |doc| && BlocksWith(convert, doc[..i]) == Success(blocks)
    ensures convert(doc[i]).Failure? ==> BlocksWith(convert, doc) == Failure(convert(doc[i]).error)
    ensures convert(doc[i]).Success? ==> BlocksWith(convert, doc[..i + 1]) == Success(blocks + OptionSeq(convert(doc[i]).value))
  {
    BlocksWithConcat(convert, doc[..i], [doc[i]]);
    BlocksWithOne(convert, doc[i]);
    assert doc[..i + 1] == doc[..i] + [doc[i]];
    if convert(doc[i]).Failure? {
      BlocksWithConcat(convert, doc[..i + 1], doc[i + 1..]);
      assert doc[..i + 1] + doc[i + 1..] == doc;
    }
  }

  // ---------------------------------------------------------------------
  // The pipeline
  // ---------------------------------------------------------------------

  /** The parsed document after `sanitizeDocument` and `clearLineBreaks`. */
  function CleanTree(doc: seq<Node>): seq<Node> {
    Sanitize.ClearLineBreaks(Sanitize.SanitizeChildren(doc))
  }

  /** After the clean-ups no paragraph holds a block-level element or a `<br>`
      with children, and no blank text node is left. */
  lemma CleanTreeShape(doc: seq<Node>)
    ensures Sanitize.ValidForest(CleanTree(doc))
    ensures Sanitize.NoBlankForest(CleanTree(doc))
    ensures forall i | 0 <= i < |CleanTree(doc)| :: CleanTree(doc)[i].Text? ==> Yields(CleanTree(doc)[i])
  {
    Sanitize.SanitizeChildrenValid(doc);
    Sanitize.ClearLineBreaksValid(Sanitize.SanitizeChildren(doc));
    Sanitize.ClearLineBreaksComplete(Sanitize.SanitizeChildren(doc));
    var t := CleanTree(doc);
    forall i | 0 <= i < |t| && t[i].Text?
      ensures Yields(t[i])
    {
      assert Sanitize.NoBlankNode(t[i]);
    }
  }

  /** `serializeHtmlToEditorjsFormat` on an already parsed document: clean the
      tree, then serialize it. */
  method SerializeHtml(build: Build, time: int, doc: seq<Node>) returns (r: Result<OutputData>)
    ensures r.Success? <==> DocumentBlocks(build, CleanTree(doc)).Success?
    ensures r.Success? ==> r.value.time == time && r.value.version == Version
    ensures r.Success? ==> |r.value.blocks| == YieldCount(CleanTree(doc))
  {
    var tree := CleanTree(doc);
    r := SerializeDocument(build, time, tree);
    if r.Success? {
      BlocksCount(build, tree);
    }
  }

  // ---------------------------------------------------------------------
  // The two builds
  // ---------------------------------------------------------------------

  /** A paragraph whose only child is an image. */
  predicate ImageParagraph(n: Node) {
    IsElementNamed(n, "p") && SoleChild(n.children, "img")
  }

  /** The two builds convert a node differently only in the type of an image
      paragraph and through an element named `constructor`: without such an
      element, any other node gives the same result, and an image paragraph the
      same data, typed `unknown` as written and `image` as intended. */
  lemma ConvertNodeBuildsAgree(n: Node)
    requires NoConstructorNode(n)
    ensures !ImageParagraph(n) ==> ConvertNode(AsWritten, n) == ConvertNode(Corrected, n)
    ensures ImageParagraph(n) ==>
      (ConvertNode(AsWritten, n).Success? <==> ConvertNode(Corrected, n).Success?) &&
      (ConvertNode(AsWritten, n).Failure? ==> ConvertNode(AsWritten, n) == ConvertNode(Corrected, n)) &&
      (ConvertNode(AsWritten, n).Success? ==>
        ConvertNode(AsWritten, n).value == Some(Block("unknown", ConvertNode(Corrected, n).value.value.data)) &&
        ConvertNode(Corrected, n).value.value.kind == "image")
  {
    if n.Element? {
      ConvertElementBuildsAgree(n.name, n.attrs, n.children);
    }
  }

  lemma ConvertElementBuildsAgree(name: string, attrs: seq<Attr>, cs: seq<Node>)
    requires ToLower(name) != "constructor" && NoConstructor(cs)
    ensures !(name == "p" && SoleChild(cs, "img")) ==>
      ConvertElement(AsWritten, name, attrs, cs) == ConvertElement(Corrected, name, attrs, cs)
    ensures name == "p" && SoleChild(cs, "img") ==>
      ConvertElement(AsWritten, name, attrs, cs) == ParagraphBlock(AsWritten, cs) &&
      ConvertElement(Corrected, name, attrs, cs) == ParagraphBlock(Corrected, cs)
  {
    var ty := GetBlockType(name);
    if name == "p" {
      ConverterTypes();
      if !SoleChild(cs, "img") {
        NodeTextBuildsAgree(cs);
      }
    } else if ty == "unknown" {
    } else if name == "table" {
      TableRowsBuildsAgree(cs);
    } else if name == "ol" || name == "ul" {
      ListItemsBuildsAgree(cs);
    } else if IsHeadingName(name) {
      NodeTextBuildsAgree(cs);
    } else if name == "div" && SoleChild(cs, "table") {
      assert NoConstructorNode(cs[0]);
      TableRowsBuildsAgree(cs[0].children);
    } else if name in CodeTags {
      NodeTextBuildsAgree(cs);
    }
  }

  /** A document without image paragraphs at the top level and without an
      element named `constructor` anywhere converts to the same blocks, or the
      same failure, in both builds. */
  lemma {:induction false} DocumentBuildsAgree(cs: seq<Node>)
    requires NoConstructor(cs)
    requires forall i | 0 <= i < |cs| :: !ImageParagraph(cs[i])
    ensures DocumentBlocks(AsWritten, cs) == DocumentBlocks(Corrected, cs)
  {
    if cs != [] {
      ConvertNodeBuildsAgree(cs[0]);
      DocumentBuildsAgree(cs[1..]);
      BlocksWithHead(ConvertNodeOf(AsWritten), cs);
      BlocksWithHead(ConvertNodeOf(Corrected), cs);
    }
  }
}

=== FILE: strings.dfy ===
/** The ECMAScript string operations the import pipeline relies on: trimming, the
    two whitespace-rewriting regular expressions, `split`, `join`, ASCII case
    mapping, substring search and `parseInt`. */
module Strings {
  import opened Wrappers

  /** White space as ECMAScript defines it (WhiteSpace and LineTerminator): what the
      regular-expression class `\s` matches and what `String.prototype.trim` strips. */
  predicate IsSpace(c: char) {
    || c == ' ' || c == '\t' || c == '\n' || c == '\r' || c == '\U{000B}' || c == '\U{000C}'
    || c == '\U{00A0}' || c == '\U{1680}' || ('\U{2000}' <= c <= '\U{200A}')
    || c == '\U{2028}' || c == '\U{2029}' || c == '\U{202F}' || c == '\U{205F}'
    || c == '\U{3000}' || c == '\U{FEFF}'
  }

  predicate AllSpace(s: string) {
    forall i | 0 <= i < |s| :: IsSpace(s[i])
  }

  /** Every white-space character is a plain space and no two are adjacent. */
  predicate Collapsed(s: string) {
    s == [] ||
    ((IsSpace(s[0]) ==> s[0] == ' ' && (|s| > 1 ==> !IsSpace(s[1]))) && Collapsed(s[1..]))
  }

  /** No white-space character stands directly before a full stop. */
  predicate NoSpaceBeforeDot(s: string) {
    s == [] || ((IsSpace(s[0]) && |s| > 1 ==> s[1] != '.') && NoSpaceBeforeDot(s[1..]))
  }

  /** The non-white-space characters of `s`, in order. */
  function NonSpace(s: string): string {
    if s == [] then [] else (if IsSpace(s[0]) then [] else [s[0]]) + NonSpace(s[1..])
  }

  lemma {:induction false} NonSpaceConcat(a: string, b: string)
    ensures NonSpace(a + b) == NonSpace(a) + NonSpace(b)
  {
    if a == [] {
      assert a + b == b;
    } else {
      var h := if IsSpace(a[0]) then [] else [a[0]];
      assert (a + b)[0] == a[0];
      assert (a + b)[1..] == a[1..] + b;
      NonSpaceConcat(a[1..], b);
      calc {
        NonSpace(a + b);
        h + NonSpace(a[1..] + b);
        h + (NonSpace(a[1..]) + NonSpace(b));
        (h + NonSpace(a[1..])) + NonSpace(b);
      }
    }
  }

  lemma {:induction false} NonSpaceOfSpaces(s: string)
    requires AllSpace(s)
    ensures NonSpace(s) == []
  {
    if s != [] {
      NonSpaceOfSpaces(s[1..]);
    }
  }

  /** `s.trimStart()`: the longest suffix of `s` that does not begin with white space. */
  function TrimStart(s: string): (r: string)
    ensures |r| <= |s| && r == s[|s| - |r|..]
    ensures r == [] || !IsSpace(r[0])
    ensures AllSpace(s[..|s| - |r|])
  {
    if s != [] && IsSpace(s[0]) then TrimStart(s[1..]) else s
  }

  /** `s.trimEnd()`: the longest prefix of `s` that does not end with white space. */
  function TrimEnd(s: string): (r: string)
    ensures |r| <= |s| && r == s[..|r|]
    ensures r == [] || !IsSpace(r[|r| - 1])
    ensures AllSpace(s[|r|..])
  {
    if s != [] && IsSpace(s[|s| - 1]) then TrimEnd(s[..|s| - 1]) else s
  }

  lemma AllSpaceConcat(a: string, b: string)
    requires AllSpace(a) && AllSpace(b)
    ensures AllSpace(a + b)
  {
  }

  /** `s.trim()`: `s` without its leading and trailing white space. */
  function Trim(s: string): (r: string)
    ensures |r| <= |s|
    ensures r == [] || (!IsSpace(r[0]) && !IsSpace(r[|r| - 1]))
    ensures r == [] <==> AllSpace(s)
    ensures NonSpace(r) == NonSpace(s)
  {
    var t := TrimStart(s);
    TrimStartKeepsText(s);
    TrimEndKeepsText(t);
    assert TrimEnd(t) == [] ==> AllSpace(s) by {
      if TrimEnd(t) == [] {
        AllSpaceConcat(s[..|s| - |t|], t);
        assert s == s[..|s| - |t|] + t;
      }
    }
    assert TrimEnd(t) != [] ==> !AllSpace(s) by {
      if t != [] {
        assert !IsSpace(s[|s| - |t|]);
      }
    }
    TrimEnd(t)
  }

  lemma TrimStartKeepsText(s: string)
    ensures NonSpace(TrimStart(s)) == NonSpace(s)
  {
    var t := TrimStart(s);
    assert s == s[..|s| - |t|] + t;
    NonSpaceConcat(s[..|s| - |t|], t);
    NonSpaceOfSpaces(s[..|s| - |t|]);
  }

  lemma TrimEndKeepsText(t: string)
    ensures NonSpace(TrimEnd(t)) == NonSpace(t)
  {
    var r := TrimEnd(t);
    assert t == r + t[|r|..];
    NonSpaceConcat(r, t[|r|..]);
    NonSpaceOfSpaces(t[|r|..]);
  }

  /** Trimming introduces no character that is not white space. */
  lemma TrimAddsNothing(s: string, c: char)
    requires !IsSpace(c) && c !in s
    ensures c !in Trim(s)
  {
    NonSpaceMember(s, c);
    NonSpaceMember(Trim(s), c);
  }

  lemma {:induction false} NonSpaceMember(s: string, c: char)
    requires !IsSpace(c)
    ensures c in s <==> c in NonSpace(s)
  {
    if s != [] {
      NonSpaceMember(s[1..], c);
      assert c in s <==> c == s[0] || c in s[1..];
    }
  }

  /** A string without leading or trailing white space is its own trim. */
  lemma TrimOfTrimmed(s: string)
    requires s == [] || (!IsSpace(s[0]) && !IsSpace(s[|s| - 1]))
    ensures Trim(s) == s
  {
  }

  lemma CollapsedCons(c: char, t: string)
    requires Collapsed(t)
    requires IsSpace(c) ==> c == ' ' && (t != [] ==> !IsSpace(t[0]))
    ensures Collapsed([c] + t)
  {
    assert ([c] + t)[1..] == t;
  }

  /** `s.replace(/\s+/g, " ")`: every maximal run of white space becomes one space. */
  function CollapseSpaces(s: string): (r: string)
    ensures Collapsed(r)
    ensures r == [] <==> s == []
    ensures s != [] ==> (IsSpace(r[0]) <==> IsSpace(s[0]))
    ensures s != [] ==> (IsSpace(r[|r| - 1]) <==> IsSpace(s[|s| - 1]))
    decreases |s|
  {
    if s == [] then []
    else if IsSpace(s[0]) then
      var t := TrimStart(s);
      var rest := CollapseSpaces(t);
      CollapsedCons(' ', rest);
      assert t != [] ==> t[|t| - 1] == s[|s| - 1];
      assert t == [] ==> IsSpace(s[|s| - 1]) by {
        if t == [] {
          assert s[|s| - 1] == s[..|s| - |t|][|s| - 1];
        }
      }
      " " + rest
    else
      var rest := CollapseSpaces(s[1..]);
      CollapsedCons(s[0], rest);
      [s[0]] + rest
  }

  /** Collapsing keeps every non-white-space character, in order. */
  lemma {:induction false} CollapseKeepsText(s: string)
    ensures NonSpace(CollapseSpaces(s)) == NonSpace(s)
    decreases |s|
  {
    if s != [] {
      if IsSpace(s[0]) {
        CollapseKeepsText(TrimStart(s));
        CollapseKeepsTextAtSpace(s);
      } else {
        CollapseKeepsText(s[1..]);
        assert s == [s[0]] + s[1..];
        NonSpaceConcat([s[0]], s[1..]);
        NonSpaceConcat([s[0]], CollapseSpaces(s[1..]));
      }
    }
  }

  lemma CollapseKeepsTextAtSpace(s: string)
    requires s != [] && IsSpace(s[0])
    requires NonSpace(CollapseSpaces(TrimStart(s))) == NonSpace(TrimStart(s))
    ensures NonSpace(CollapseSpaces(s)) == NonSpace(s)
  {
    var t := TrimStart(s);
    assert CollapseSpaces(s) == " " + CollapseSpaces(t);
    NonSpaceConcat(" ", CollapseSpaces(t));
    TrimStartKeepsText(s);
  }

  lemma {:induction false} CollapsedSuffix(s: string, k: nat)
    requires Collapsed(s) && k <= |s|
    ensures Collapsed(s[k..])
  {
    if k > 0 {
      CollapsedSuffix(s[1..], k - 1);
      assert s[1..][k - 1..] == s[k..];
    }
  }

  /** A collapsed string is a fixed point of whitespace collapsing. */
  lemma {:induction false} CollapseOfCollapsed(s: string)
    requires Collapsed(s)
    ensures CollapseSpaces(s) == s
    decreases |s|
  {
    if s != [] {
      CollapsedSuffix(s, 1);
      CollapseOfCollapsed(s[1..]);
      assert s == [s[0]] + s[1..];
      if IsSpace(s[0]) {
        CollapseAtSingleSpace(s);
      }
    }
  }

  lemma CollapseAtSingleSpace(s: string)
    requires s != [] && s[0] == ' ' && (|s| > 1 ==> !IsSpace(s[1]))
    ensures CollapseSpaces(s) == " " + CollapseSpaces(s[1..])
  {
    var t := s[1..];
    assert TrimStart(s) == t by {
      assert TrimStart(t) == t;
    }
    assert CollapseSpaces(s) == " " + CollapseSpaces(t);
  }

  /** Collapsing whitespace is idempotent, and its fixed points are exactly the
      collapsed strings. */
  lemma CollapseIdempotent(s: string)
    ensures CollapseSpaces(CollapseSpaces(s)) == CollapseSpaces(s)
    ensures CollapseSpaces(s) == s <==> Collapsed(s)
  {
    CollapseOfCollapsed(CollapseSpaces(s));
    if Collapsed(s) {
      CollapseOfCollapsed(s);
    }
  }

  /** `s.replace(/\s+\./g, ".")`: every maximal run of white space that is directly
      followed by a full stop is deleted. */
  function StripSpaceBeforeDot(s: string): (r: string)
    ensures NoSpaceBeforeDot(r)
    ensures r == [] <==> s == []
    ensures s != [] && !IsSpace(s[0]) ==> r[0] == s[0]
    ensures r != [] && IsSpace(r[0]) ==> IsSpace(s[0])
    decreases |s|
  {
    if s == [] then []
    else if IsSpace(s[0]) then
      var t := TrimStart(s);
      var k := |s| - |t|;
      if t != [] && t[0] == '.' then
        var rest := StripSpaceBeforeDot(t[1..]);
        NoSpaceBeforeDotCons('.', rest);
        "." + rest
      else
        var rest := StripSpaceBeforeDot(t);
        assert t == [] ==> s[..k] == s;
        NoSpaceBeforeDotAppend(s[..k], rest);
        s[..k] + rest
    else
      var rest := StripSpaceBeforeDot(s[1..]);
      NoSpaceBeforeDotCons(s[0], rest);
      [s[0]] + rest
  }

  /** A space run followed by a full stop is deleted. */
  lemma StripUnfoldDot(s: string)
    requires s != [] && IsSpace(s[0])
    requires TrimStart(s) != [] && TrimStart(s)[0] == '.'
    ensures StripSpaceBeforeDot(s) == "." + StripSpaceBeforeDot(TrimStart(s)[1..])
  {
  }

  /** A space run followed by anything else is kept. */
  lemma StripUnfoldSpace(s: string)
    requires s != [] && IsSpace(s[0])
    requires !(TrimStart(s) != [] && TrimStart(s)[0] == '.')
    ensures StripSpaceBeforeDot(s) == s[..|s| - |TrimStart(s)|] + StripSpaceBeforeDot(TrimStart(s))
  {
  }

  lemma NoSpaceBeforeDotCons(c: char, t: string)
    requires NoSpaceBeforeDot(t)
    requires IsSpace(c) && t != [] ==> t[0] != '.'
    ensures NoSpaceBeforeDot([c] + t)
  {
    assert ([c] + t)[1..] == t;
  }

  lemma {:induction false} NoSpaceBeforeDotAppend(a: string, t: string)
    requires AllSpace(a) && NoSpaceBeforeDot(t)
    requires a != [] && t != [] ==> t[0] != '.'
    ensures NoSpaceBeforeDot(a + t)
  {
    if a != [] {
      NoSpaceBeforeDotAppend(a[1..], t);
      var rest := a[1..] + t;
      assert a + t == [a[0]] + rest;
      if a[1..] != [] {
        assert rest[0] == a[1];
      } else {
        assert rest == t;
      }
      NoSpaceBeforeDotCons(a[0], rest);
    } else {
      assert a + t == t;
    }
  }

  /** On a collapsed string, deleting the spaces before full stops keeps it collapsed. */
  lemma {:induction false} StripKeepsCollapsed(s: string)
    requires Collapsed(s)
    ensures Collapsed(StripSpaceBeforeDot(s))
    decreases |s|
  {
    if s != [] {
      if IsSpace(s[0]) {
        StripKeepsCollapsedAtSpace(s);
      } else {
        CollapsedSuffix(s, 1);
        StripKeepsCollapsed(s[1..]);
        CollapsedCons(s[0], StripSpaceBeforeDot(s[1..]));
      }
    }
  }

  lemma {:induction false} StripKeepsCollapsedAtSpace(s: string)
    requires Collapsed(s) && s != [] && IsSpace(s[0])
    ensures Collapsed(StripSpaceBeforeDot(s))
    decreases |s|, 0
  {
    var t := s[1..];
    CollapsedAfterSpace(s);
    if t != [] && t[0] == '.' {
      CollapsedSuffix(t, 1);
      StripKeepsCollapsed(t[1..]);
      StripCollapsedDot(s);
    } else {
      StripKeepsCollapsed(t);
      StripCollapsedSpace(s);
    }
  }

  /** In a collapsed string a space stands alone. */
  lemma CollapsedAfterSpace(s: string)
    requires Collapsed(s) && s != [] && IsSpace(s[0])
    ensures s[0] == ' ' && TrimStart(s) == s[1..] && Collapsed(s[1..])
    ensures s[1..] != [] ==> !IsSpace(s[1])
  {
    assert s[1..] == [] || !IsSpace(s[1]);
    assert TrimStart(s[1..]) == s[1..];
    CollapsedSuffix(s, 1);
  }

  lemma StripCollapsedDot(s: string)
    requires |s| >= 2 && IsSpace(s[0]) && TrimStart(s) == s[1..] && s[1] == '.'
    requires Collapsed(StripSpaceBeforeDot(s[2..]))
    ensures Collapsed(StripSpaceBeforeDot(s))
  {
    StripUnfoldDot(s);
    assert TrimStart(s)[1..] == s[2..];
    CollapsedCons('.', StripSpaceBeforeDot(s[2..]));
  }

  lemma StripCollapsedSpace(s: string)
    requires s != [] && s[0] == ' ' && TrimStart(s) == s[1..]
    requires s[1..] != [] ==> !IsSpace(s[1]) && s[1] != '.'
    requires Collapsed(StripSpaceBeforeDot(s[1..]))
    ensures Collapsed(StripSpaceBeforeDot(s))
  {
    StripUnfoldSpace(s);
    assert s[..1] == [' '];
    CollapsedCons(' ', StripSpaceBeforeDot(s[1..]));
  }

  /** Neither the first nor the last character is white space. */
  predicate Trimmed(s: string) {
    s == [] || (!IsSpace(s[0]) && !IsSpace(s[|s| - 1]))
  }

  lemma TrimIsTrimmed(s: string)
    ensures Trimmed(Trim(s))
  {
  }

  /** Deleting the spaces before full stops keeps every other character. */
  lemma {:induction false} StripKeepsText(s: string)
    ensures NonSpace(StripSpaceBeforeDot(s)) == NonSpace(s)
    decreases |s|
  {
    if s != [] {
      if IsSpace(s[0]) {
        var t := TrimStart(s);
        if t != [] && t[0] == '.' {
          StripKeepsText(t[1..]);
        } else {
          StripKeepsText(t);
        }
        StripKeepsTextAtSpace(s);
      } else {
        StripKeepsText(s[1..]);
        assert s == [s[0]] + s[1..];
        NonSpaceConcat([s[0]], s[1..]);
        NonSpaceConcat([s[0]], StripSpaceBeforeDot(s[1..]));
      }
    }
  }

  lemma StripKeepsTextAtSpace(s: string)
    requires s != [] && IsSpace(s[0])
    requires var t := TrimStart(s);
      if t != [] && t[0] == '.' then NonSpace(StripSpaceBeforeDot(t[1..])) == NonSpace(t[1..])
      else NonSpace(StripSpaceBeforeDot(t)) == NonSpace(t)
    ensures NonSpace(StripSpaceBeforeDot(s)) == NonSpace(s)
  {
    var t := TrimStart(s);
    var k := |s| - |t|;
    TrimStartKeepsText(s);
    if t != [] && t[0] == '.' {
      var rest := StripSpaceBeforeDot(t[1..]);
      StripUnfoldDot(s);
      DotKeepsText(t, rest);
    } else {
      var rest := StripSpaceBeforeDot(t);
      StripUnfoldSpace(s);
      NonSpaceConcat(s[..k], rest);
      NonSpaceOfSpaces(s[..k]);
    }
  }

  lemma DotKeepsText(t: string, rest: string)
    requires t != [] && t[0] == '.' && NonSpace(rest) == NonSpace(t[1..])
    ensures NonSpace("." + rest) == NonSpace(t)
  {
    assert t == "." + t[1..];
    NonSpaceConcat(".", t[1..]);
    NonSpaceConcat(".", rest);
  }

  /** Deleting the spaces before full stops never leaves white space at the end
      of a string that did not end in white space. */
  lemma {:induction false} StripKeepsLast(s: string)
    requires s != [] && !IsSpace(s[|s| - 1])
    ensures EndsInText(StripSpaceBeforeDot(s))
    decreases |s|
  {
    if IsSpace(s[0]) {
      var t := TrimStart(s);
      assert s[..|s|][|s| - 1] == s[|s| - 1];
      assert t != [] && t[|t| - 1] == s[|s| - 1];
      if t[0] == '.' {
        if |t| > 1 {
          assert t[1..][|t[1..]| - 1] == t[|t| - 1];
          StripKeepsLast(t[1..]);
        }
        StripLastAtDot(s, t);
      } else {
        StripKeepsLast(t);
        StripLastAtSpace(s, t);
      }
    } else if |s| > 1 {
      assert s[1..][|s[1..]| - 1] == s[|s| - 1];
      StripKeepsLast(s[1..]);
      StripLastAtText(s);
    }
  }

  /** A non-empty string that does not end in white space. */
  predicate EndsInText(s: string) {
    s != [] && !IsSpace(s[|s| - 1])
  }

  lemma StripLastAtDot(s: string, t: string)
    requires s != [] && IsSpace(s[0]) && t == TrimStart(s) && t != [] && t[0] == '.'
    requires |t| > 1 ==> EndsInText(StripSpaceBeforeDot(t[1..]))
    ensures EndsInText(StripSpaceBeforeDot(s))
  {
    var rest := StripSpaceBeforeDot(t[1..]);
    assert StripSpaceBeforeDot(s) == "." + rest;
    if |t| > 1 {
      assert ("." + rest)[|rest|] == rest[|rest| - 1];
    } else {
      assert rest == [];
    }
  }

  lemma StripLastAtSpace(s: string, t: string)
    requires s != [] && IsSpace(s[0]) && t == TrimStart(s) && t != [] && t[0] != '.'
    requires EndsInText(StripSpaceBeforeDot(t))
    ensures EndsInText(StripSpaceBeforeDot(s))
  {
    var k := |s| - |t|;
    var rest := StripSpaceBeforeDot(t);
    StripUnfoldSpace(s);
    LastOfConcat(s[..k], rest);
  }

  lemma LastOfConcat(a: string, b: string)
    requires EndsInText(b)
    ensures EndsInText(a + b)
  {
    assert (a + b)[|a + b| - 1] == b[|b| - 1];
  }

  lemma StripLastAtText(s: string)
    requires |s| > 1 && !IsSpace(s[0])
    requires EndsInText(StripSpaceBeforeDot(s[1..]))
    ensures EndsInText(StripSpaceBeforeDot(s))
  {
    var rest := StripSpaceBeforeDot(s[1..]);
    assert StripSpaceBeforeDot(s) == [s[0]] + rest;
    assert ([s[0]] + rest)[|rest|] == rest[|rest| - 1];
  }

  /** The regular-expression clean-up `getNodeText` applies to its joined parts
      keeps a trimmed string trimmed, collapsed and free of spaces before full
      stops. */
  lemma CleanUpKeepsTrimmed(s: string)
    requires Trimmed(s)
    ensures var r := StripSpaceBeforeDot(CollapseSpaces(s));
      Trimmed(r) && Collapsed(r) && NoSpaceBeforeDot(r) && (r == [] <==> s == [])
  {
    var c := CollapseSpaces(s);
    assert Trimmed(c);
    StripKeepsCollapsed(c);
    if s != [] {
      StripKeepsLast(c);
      assert EndsInText(StripSpaceBeforeDot(c));
    }
  }

  /** `parts.join(sep)`. */
  function Join(parts: seq<string>, sep: string): string {
    if parts == [] then ""
    else if |parts| == 1 then parts[0]
    else parts[0] + sep + Join(parts[1..], sep)
  }

  /** `parts.join("")`. */
  function Concat(parts: seq<string>): string {
    if parts == [] then "" else parts[0] + Concat(parts[1..])
  }

  /** Joining non-empty trimmed parts with single spaces gives a trimmed string,
      empty exactly when there are no parts. */
  lemma {:induction false} JoinTrimmed(parts: seq<string>)
    requires forall i | 0 <= i < |parts| :: parts[i] != [] && Trimmed(parts[i])
    ensures Trimmed(Join(parts, " ")) && (Join(parts, " ") == [] <==> parts == [])
  {
    if |parts| > 1 {
      JoinTrimmed(parts[1..]);
      var rest := Join(parts[1..], " ");
      var r := parts[0] + " " + rest;
      assert r[0] == parts[0][0];
      assert r[|r| - 1] == rest[|rest| - 1];
    }
  }

  /** Joining with spaces adds nothing but white space. */
  lemma {:induction false} JoinKeepsText(parts: seq<string>)
    ensures NonSpace(Join(parts, " ")) == NonSpace(Concat(parts))
  {
    if |parts| == 1 {
      assert Concat(parts) == parts[0] + Concat([]);
      assert Concat(parts) == parts[0];
    } else if |parts| > 1 {
      JoinKeepsText(parts[1..]);
      NonSpaceConcat(parts[0] + " ", Join(parts[1..], " "));
      NonSpaceConcat(parts[0], " ");
      NonSpaceConcat(parts[0], Concat(parts[1..]));
    }
  }

  /** The number of occurrences of `c` in `s`. */
  function Count(s: string, c: char): nat {
    if s == [] then 0 else (if s[0] == c then 1 else 0) + Count(s[1..], c)
  }

  /** `s.split(c)` for a one-character separator: the pieces between occurrences of
      `c`, one more piece than there are separators, none containing `c`. */
  function Split(s: string, c: char): (r: seq<string>)
    ensures |r| == Count(s, c) + 1
    decreases |s|
  {
    if s == [] then [""]
    else
      var tail := Split(s[1..], c);
      if s[0] == c then [""] + tail else [[s[0]] + tail[0]] + tail[1..]
  }

  /** No piece of a split contains the separator. */
  lemma {:induction false} SplitPiecesFree(s: string, c: char)
    ensures forall i | 0 <= i < |Split(s, c)| :: c !in Split(s, c)[i]
    decreases |s|
  {
    if s != [] {
      var tail := Split(s[1..], c);
      SplitPiecesFree(s[1..], c);
      if s[0] != c {
        assert c !in [s[0]] + tail[0];
        var r := [[s[0]] + tail[0]] + tail[1..];
        assert forall i | 1 <= i < |r| :: r[i] == tail[i];
      }
    }
  }

  /** A prefix without the separator becomes the start of the first piece. */
  lemma {:induction false} SplitPrefix(x: string, rest: string, c: char)
    requires c !in x
    ensures Split(x + rest, c) == [x + Split(rest, c)[0]] + Split(rest, c)[1..]
  {
    if x != [] {
      var s := x + rest;
      var r := Split(rest, c);
      assert s[0] == x[0] && s[0] != c;
      assert s[1..] == x[1..] + rest;
      SplitPrefix(x[1..], rest, c);
      var tail := Split(s[1..], c);
      assert tail[0] == x[1..] + r[0] && tail[1..] == r[1..];
      assert Split(s, c) == [[s[0]] + tail[0]] + tail[1..];
      assert [x[0]] + (x[1..] + r[0]) == x + r[0];
    } else {
      var r := Split(rest, c);
      assert x + rest == rest;
      assert x + r[0] == r[0];
      assert r == [r[0]] + r[1..];
    }
  }

  /** The pieces of `x`, `c`, `y`, `c`, `z` for separator-free `x`, `y`, `z`. */
  lemma SplitThree(x: string, y: string, z: string, c: char)
    requires c !in x && c !in y && c !in z
    ensures Split(x + [c] + y + [c] + z, c) == [x, y, z]
  {
    var tail := y + [c] + z;
    SplitWord(z, c);
    SplitPiece(y, z, c);
    assert Split(tail, c) == [y, z];
    SplitPiece(x, tail, c);
    assert x + [c] + y + [c] + z == x + [c] + tail;
    assert [x] + [y, z] == [x, y, z];
  }

  /** A separator-free piece followed by the separator is split off. */
  lemma SplitPiece(x: string, rest: string, c: char)
    requires c !in x
    ensures Split(x + [c] + rest, c) == [x] + Split(rest, c)
  {
    SplitAfterSeparator(rest, c);
    SplitPrefix(x, [c] + rest, c);
    assert x + [c] + rest == x + ([c] + rest);
    assert x + "" == x;
  }

  /** A separator-free string is a single piece. */
  lemma SplitWord(z: string, c: char)
    requires c !in z
    ensures Split(z, c) == [z]
  {
    SplitPrefix(z, [], c);
    assert z + [] == z;
  }

  /** A leading separator starts with an empty piece. */
  lemma SplitAfterSeparator(z: string, c: char)
    ensures Split([c] + z, c) == [""] + Split(z, c)
  {
    assert ([c] + z)[1..] == z;
  }

  /** Joining the pieces of a split with the separator gives back the original string. */
  lemma {:induction false} SplitJoin(s: string, c: char)
    ensures Join(Split(s, c), [c]) == s
    decreases |s|
  {
    if s != [] {
      var tail := Split(s[1..], c);
      SplitJoin(s[1..], c);
      assert s == [s[0]] + s[1..];
      if s[0] != c {
        var r := [[s[0]] + tail[0]] + tail[1..];
        assert r[1..] == tail[1..];
        if |tail| > 1 {
          assert Join(tail, [c]) == tail[0] + [c] + Join(tail[1..], [c]);
        }
      }
    }
  }

  /** ASCII `toLowerCase` of one character. */
  function LowerChar(c: char): char {
    if 'A' <= c <= 'Z' then (c as int + 32) as char else c
  }

  /** ASCII `toUpperCase` of one character. */
  function UpperChar(c: char): char {
    if 'a' <= c <= 'z' then (c as int - 32) as char else c
  }

  function ToLower(s: string): (r: string)
    ensures |r| == |s| && forall i | 0 <= i < |s| :: r[i] == LowerChar(s[i])
  {
    if s == [] then [] else [LowerChar(s[0])] + ToLower(s[1..])
  }

  function ToUpper(s: string): (r: string)
    ensures |r| == |s| && forall i | 0 <= i < |s| :: r[i] == UpperChar(s[i])
  {
    if s == [] then [] else [UpperChar(s[0])] + ToUpper(s[1..])
  }

  /** No ASCII capital letter in `s`. */
  predicate NoUpper(s: string) {
    forall i | 0 <= i < |s| :: !('A' <= s[i] <= 'Z')
  }

  /** Lower-casing leaves a string without capitals as it is. */
  lemma LowerOfLower(s: string)
    requires NoUpper(s)
    ensures ToLower(s) == s
  {
    assert forall i | 0 <= i < |s| :: LowerChar(s[i]) == s[i];
  }

  /** Lower-casing forgets any earlier change of case. */
  lemma LowerOfUpper(s: string)
    ensures ToLower(ToUpper(s)) == ToLower(s)
  {
    assert forall i | 0 <= i < |s| :: LowerChar(UpperChar(s[i])) == LowerChar(s[i]);
  }

  /** `s.includes(sub)`. */
  predicate Contains(s: string, sub: string)
    decreases |s|
  {
    sub <= s || (s != [] && Contains(s[1..], sub))
  }

  /** `s.replace(/&nbsp;/g, "")`: every literal `&nbsp;`, scanned left to right, is
      deleted. */
  function RemoveNbsp(s: string): (r: string)
    ensures |r| <= |s|
    ensures '&' !in s ==> r == s
    decreases |s|
  {
    if |s| >= 6 && s[..6] == "&nbsp;" then RemoveNbsp(s[6..])
    else if s == [] then []
    else [s[0]] + RemoveNbsp(s[1..])
  }

  /** The value of `c` as a digit in bases up to 36, as `parseInt` reads it. */
  function DigitValue(c: char): Option<nat> {
    if '0' <= c <= '9' then Some(c as int - '0' as int)
    else if 'a' <= c <= 'z' then Some(c as int - 'a' as int + 10)
    else if 'A' <= c <= 'Z' then Some(c as int - 'A' as int + 10)
    else None
  }

  predicate IsDigitOf(c: char, radix: nat) {
    DigitValue(c).Some? && DigitValue(c).value < radix
  }

  /** The longest prefix of `s` made of digits of `radix`. */
  function DigitPrefix(s: string, radix: nat): (r: string)
    ensures r <= s
    ensures forall i | 0 <= i < |r| :: IsDigitOf(r[i], radix)
    ensures |r| < |s| ==> !IsDigitOf(s[|r|], radix)
  {
    if s != [] && IsDigitOf(s[0], radix) then [s[0]] + DigitPrefix(s[1..], radix) else []
  }

  /** The value of a digit string, most significant digit first. */
  function DigitsValue(ds: string, radix: nat): nat
    requires forall i | 0 <= i < |ds| :: IsDigitOf(ds[i], radix)
  {
    if ds == [] then 0
    else
      assert IsDigitOf(ds[|ds| - 1], radix);
      DigitsValue(ds[..|ds| - 1], radix) * radix + DigitValue(ds[|ds| - 1]).value
  }

  /** `parseInt(s)` without a radix argument: leading white space is skipped, an
      optional sign is read, a `0x`/`0X` prefix selects base 16, and the longest run
      of digits that follows is the number; no digit at all gives NaN (`None`). */
  function ParseInt(s: string): Option<int> {
    var t := TrimStart(s);
    var negative := t != [] && t[0] == '-';
    var unsigned := if t != [] && (t[0] == '-' || t[0] == '+') then t[1..] else t;
    var hex := |unsigned| >= 2 && unsigned[0] == '0' && (unsigned[1] == 'x' || unsigned[1] == 'X');
    var radix := if hex then 16 else 10;
    var body := if hex then unsigned[2..] else unsigned;
    var ds := DigitPrefix(body, radix);
    if ds == [] then None
    else
      var v: int := DigitsValue(ds, radix);
      Some(if negative then -v else v)
  }

  /** `parseInt` yields NaN for a string without any decimal digit. */
  lemma ParseIntNeedsDigit(s: string)
    ensures ParseInt(s).Some? ==> exists i | 0 <= i < |s| :: '0' <= s[i] <= '9'
  {
    var t := TrimStart(s);
    var unsigned := if t != [] && (t[0] == '-' || t[0] == '+') then t[1..] else t;
    var hex := |unsigned| >= 2 && unsigned[0] == '0' && (unsigned[1] == 'x' || unsigned[1] == 'X');
    var body := if hex then unsigned[2..] else unsigned;
    var ds := DigitPrefix(body, if hex then 16 else 10);
    if ds != [] {
      var at := |s| - |t| + (|t| - |unsigned|);
      assert hex ==> s[at] == '0';
      assert !hex ==> s[at] == ds[0];
    }
  }
}

=== FILE: style.dfy ===
/** Parsing of an inline `style` attribute and the four tests that decide which
    semantic inline tags a styled `<span>` turns into (dom-tree-manipulator.ts). */
module Style {
  import opened Wrappers
  import opened Strings

  /** One accepted `property: value` declaration. */
  datatype Declaration = Declaration(property: string, value: string) {
    /** Neither part is empty and neither holds a `:`. */
    predicate Valid() {
      property != "" && value != "" && ':' !in property && ':' !in value
    }
  }

  /** What one `;`-separated rule contributes: the trimmed text before the first
      `:` as the property and the trimmed text between the first and the second
      `:` as the value, unless either is empty. */
  function ParseRule(rule: string): Option<Declaration> {
    var parts := Split(rule, ':');
    var property := Trim(parts[0]);
    var value := if |parts| > 1 then Trim(parts[1]) else "";
    if property == "" || value == "" then None else Some(Declaration(property, value))
  }

  /** The accepted declarations of a list of rules, in order; empty rules are
      skipped (`.filter(Boolean)`). */
  function DeclarationsOf(rules: seq<string>): seq<Declaration> {
    if rules == [] then []
    else
      var rest := DeclarationsOf(rules[1..]);
      var head := if rules[0] == "" then None else ParseRule(rules[0]);
      if head.None? then rest else [head.value] + rest
  }

  /** The accepted declarations of a style string: split on `;`, then each rule
      parsed by `ParseRule`. */
  function Declarations(style: string): seq<Declaration> {
    DeclarationsOf(Split(style, ';'))
  }

  /** A rule yields a declaration with a non-empty property and value, neither
      holding a `:`. */
  lemma ParseRuleValid(rule: string)
    ensures ParseRule(rule).Some? ==> ParseRule(rule).value.Valid()
  {
    var parts := Split(rule, ':');
    SplitPiecesFree(rule, ':');
    TrimAddsNothing(parts[0], ':');
    if |parts| > 1 {
      TrimAddsNothing(parts[1], ':');
    }
  }

  /** Every accepted declaration of a style string is valid. */
  lemma {:induction false} DeclarationsValid(rules: seq<string>)
    ensures forall i | 0 <= i < |DeclarationsOf(rules)| :: DeclarationsOf(rules)[i].Valid()
  {
    if rules != [] {
      DeclarationsValid(rules[1..]);
      if rules[0] != "" {
        ParseRuleValid(rules[0]);
      }
      var r := DeclarationsOf(rules);
      var rest := DeclarationsOf(rules[1..]);
      assert r == rest || (r[0].Valid() && r[1..] == rest);
    }
  }

  /** The value of the last declaration of `property`, the reference meaning of
      "a later declaration overwrites an earlier one". */
  function LastValue(ds: seq<Declaration>, property: string): Option<string> {
    if ds == [] then None
    else if ds[|ds| - 1].property == property then Some(ds[|ds| - 1].value)
    else LastValue(ds[..|ds| - 1], property)
  }

  /** Setting the declarations into a map one after another, in order. */
  function SetAll(ds: seq<Declaration>): map<string, string> {
    if ds == [] then map[]
    else
      var last := ds[|ds| - 1];
      SetAll(ds[..|ds| - 1])[last.property := last.value]
  }

  /** The map holds exactly the properties that have a last value, each with
      that value. */
  lemma {:induction false} SetAllMeaning(ds: seq<Declaration>)
    ensures forall p :: p in SetAll(ds) <==> LastValue(ds, p).Some?
    ensures forall p | p in SetAll(ds) :: Some(SetAll(ds)[p]) == LastValue(ds, p)
  {
    if ds != [] {
      SetAllMeaning(ds[..|ds| - 1]);
    }
  }

  /** `styleStringToMap`: the accepted declarations set into a map in order. */
  function StyleStringToMap(style: string): map<string, string> {
    SetAll(Declarations(style))
  }

  /** A property is in the style map exactly when some accepted declaration
      names it, and its value is that of the last such declaration: a later
      declaration overrides an earlier one, as in the CSS cascade. */
  lemma StyleStringToMapMeaning(style: string)
    ensures var m := StyleStringToMap(style);
      forall p :: p in m <==> exists i | 0 <= i < |Declarations(style)| :: Declarations(style)[i].property == p
    ensures var m := StyleStringToMap(style);
      forall p | p in m :: Some(m[p]) == LastValue(Declarations(style), p)
  {
    var ds := Declarations(style);
    SetAllMeaning(ds);
    forall p
      ensures LastValue(ds, p).Some? <==> exists i | 0 <= i < |ds| :: ds[i].property == p
    {
      LastValueDefined(ds, p);
    }
  }

  lemma {:induction false} LastValueDefined(ds: seq<Declaration>, p: string)
    ensures LastValue(ds, p).Some? <==> exists i | 0 <= i < |ds| :: ds[i].property == p
  {
    if ds != [] {
      LastValueDefined(ds[..|ds| - 1], p);
      if ds[|ds| - 1].property != p {
        assert forall i | 0 <= i < |ds| - 1 :: ds[..|ds| - 1][i] == ds[i];
      }
    }
  }

  /** `styleMap.get(property) || ""`. */
  function Get(m: map<string, string>, property: string): string {
    if property in m then m[property] else ""
  }

  /** `isFontWeightBold`: the number `parseInt` reads at the start of the value
      is at least 700; NaN is not. */
  predicate IsFontWeightBold(fontWeight: string) {
    fontWeight != "" &&
    match ParseInt(fontWeight)
    case Some(w) => w >= 700
    case None => false
  }

  /** `isFontStyleItalic`: case-insensitively equal to `italic`. */
  predicate IsFontStyleItalic(fontStyle: string) {
    fontStyle != "" && ToLower(fontStyle) == "italic"
  }

  /** `isTextDecorationUnderline`: case-insensitively contains `underline`. */
  predicate IsTextDecorationUnderline(textDecoration: string) {
    textDecoration != "" && Contains(ToLower(textDecoration), "underline")
  }

  /** `isTextDecorationLineThrough`: case-insensitively contains `line-through`. */
  predicate IsTextDecorationLineThrough(textDecoration: string) {
    textDecoration != "" && Contains(ToLower(textDecoration), "line-through")
  }

  /** A weight written without any decimal digit, such as the keyword `bold`, is
      never bold: `parseInt` yields NaN for it. */
  lemma KeywordWeightIsNotBold(fontWeight: string)
    requires forall i | 0 <= i < |fontWeight| :: !('0' <= fontWeight[i] <= '9')
    ensures !IsFontWeightBold(fontWeight)
  {
    ParseIntNeedsDigit(fontWeight);
  }

  /** A decimal weight, possibly followed by a unit, is bold exactly when its
      number is at least 700. */
  lemma DecimalWeightIsBold(digits: string, unit: string)
    requires digits != [] && digits[0] != '0'
    requires forall i | 0 <= i < |digits| :: '0' <= digits[i] <= '9'
    requires unit == [] || !('0' <= unit[0] <= '9')
    ensures forall i | 0 <= i < |digits| :: IsDigitOf(digits[i], 10)
    ensures IsFontWeightBold(digits + unit) <==> DigitsValue(digits, 10) >= 700
  {
    var s := digits + unit;
    assert s[0] == digits[0];
    assert TrimStart(s) == s by {
      assert !IsSpace(s[0]);
    }
    assert DigitPrefix(s, 10) == digits by {
      DecimalPrefix(digits, unit);
    }
    assert ParseInt(s) == Some(DigitsValue(digits, 10));
  }

  lemma {:induction false} DecimalPrefix(digits: string, unit: string)
    requires forall i | 0 <= i < |digits| :: '0' <= digits[i] <= '9'
    requires unit == [] || !('0' <= unit[0] <= '9')
    ensures DigitPrefix(digits + unit, 10) == digits
  {
    if digits == [] {
      assert digits + unit == unit;
      if unit != [] {
        assert !IsDigitOf(unit[0], 10);
      }
    } else {
      assert (digits + unit)[1..] == digits[1..] + unit;
      DecimalPrefix(digits[1..], unit);
    }
  }

  /** The italic test ignores letter case. */
  lemma ItalicIgnoresCase(fontStyle: string)
    ensures IsFontStyleItalic(ToUpper(fontStyle)) <==> IsFontStyleItalic(fontStyle)
  {
    LowerOfUpper(fontStyle);
  }

  /** The two decoration tests ignore letter case. */
  lemma DecorationIgnoresCase(textDecoration: string)
    ensures IsTextDecorationUnderline(ToUpper(textDecoration)) <==> IsTextDecorationUnderline(textDecoration)
    ensures IsTextDecorationLineThrough(ToUpper(textDecoration)) <==> IsTextDecorationLineThrough(textDecoration)
  {
    LowerOfUpper(textDecoration);
  }
}

=== FILE: tables.dfy ===
/** Table rows (`processTableNodeToBlock` and `processTableRow` in
    editorjs-serializer.ts). */
module Tables {
  import opened Wrappers
  import opened Strings
  import opened Dom
  import opened Inline

  predicate IsCell(n: Node) {
    n.Element? && (n.name == "td" || n.name == "th")
  }

  predicate IsSection(n: Node) {
    n.Element? && (n.name == "thead" || n.name == "tbody" || n.name == "tfoot")
  }

  // ---------------------------------------------------------------------
  // The cells of a row, for any rule giving one cell's text
  // ---------------------------------------------------------------------

  /** One entry per `td`/`th` child, in order, the rule `text` applied to the
      cell's children; other children are skipped. */
  function CellsWith(text: seq<Node> -> string, cs: seq<Node>): (r: seq<string>)
    ensures |r| <= |cs|
  {
    if cs == [] then []
    else (if IsCell(cs[0]) then [text(cs[0].children)] else []) + CellsWith(text, cs[1..])
  }

  lemma CellsWithHead(text: seq<Node> -> string, a: seq<Node>)
    requires a != []
    ensures CellsWith(text, a) == CellsWith(text, [a[0]]) + CellsWith(text, a[1..])
  {
  }

  lemma {:induction false} CellsWithConcat(text: seq<Node> -> string, a: seq<Node>, b: seq<Node>)
    ensures CellsWith(text, a + b) == CellsWith(text, a) + CellsWith(text, b)
  {
    if a == [] {
      assert a + b == b;
    } else {
      CellsWithHead(text, a);
      CellsWithHead(text, a + b);
      assert (a + b)[0] == a[0];
      assert (a + b)[1..] == a[1..] + b;
      CellsWithConcat(text, a[1..], b);
    }
  }

  lemma CellsWithOne(text: seq<Node> -> string, c: Node)
    ensures CellsWith(text, [c]) == if IsCell(c) then [text(c.children)] else []
  {
    assert CellsWith(text, [c]) == (if IsCell(c) then [text(c.children)] else []) + CellsWith(text, []);
  }

  // ---------------------------------------------------------------------
  // The serializer's cells
  // ---------------------------------------------------------------------

  /** The text of one cell: the inline text of its children, trimmed. */
  function CellText(build: Build, cs: seq<Node>): (r: string)
    ensures Trimmed(r)
  {
    TrimIsTrimmed(NodeText(build, cs));
    Trim(NodeText(build, cs))
  }

  /** The cell rule of the chosen build, as the traversal takes it. */
  function CellTextOf(build: Build): seq<Node> -> string {
    cs => CellText(build, cs)
  }

  /** `processTableRow`: the trimmed inline text of each `td`/`th` child of a
      row, in order. */
  function RowCells(build: Build, cs: seq<Node>): (r: seq<string>)
    ensures |r| <= |cs|
    ensures forall i | 0 <= i < |r| :: Trimmed(r[i])
  {
    CellsTrimmed(build, cs);
    CellsWith(CellTextOf(build), cs)
  }

  lemma CellsTrimmed(build: Build, cs: seq<Node>)
    ensures forall i | 0 <= i < |CellsWith(CellTextOf(build), cs)| :: Trimmed(CellsWith(CellTextOf(build), cs)[i])
  {
    var text := CellTextOf(build);
    assert forall x :: Trimmed(text(x)) by {
      forall x
        ensures Trimmed(text(x))
      {
        assert text(x) == CellText(build, x);
      }
    }
    CellsWithTrimmed(text, cs);
  }

  lemma {:induction false} CellsWithTrimmed(text: seq<Node> -> string, cs: seq<Node>)
    requires forall x :: Trimmed(text(x))
    ensures forall i | 0 <= i < |CellsWith(text, cs)| :: Trimmed(CellsWith(text, cs)[i])
  {
    if cs != [] {
      CellsWithTrimmed(text, cs[1..]);
      CellsWithHead(text, cs);
      CellsWithOne(text, cs[0]);
      TrimmedConcat(CellsWith(text, [cs[0]]), CellsWith(text, cs[1..]));
    }
  }

  lemma TrimmedConcat(h: seq<string>, t: seq<string>)
    requires forall i | 0 <= i < |h| :: Trimmed(h[i])
    requires forall i | 0 <= i < |t| :: Trimmed(t[i])
    ensures forall i | 0 <= i < |h + t| :: Trimmed((h + t)[i])
  {
  }

  /** Cells keep document order: the cells of a run of children are those of
      its first part followed by those of the rest. */
  lemma RowCellsConcat(build: Build, a: seq<Node>, b: seq<Node>)
    ensures RowCells(build, a + b) == RowCells(build, a) + RowCells(build, b)
  {
    CellsWithConcat(CellTextOf(build), a, b);
  }

  /** A `td` or `th` child contributes exactly its trimmed inline text, which
      trimming leaves as it is; any other child contributes nothing. */
  lemma RowCellsOne(build: Build, c: Node)
    ensures RowCells(build, [c]) == if IsCell(c) then [Trim(NodeText(build, c.children))] else []
    ensures IsCell(c) ==> RowCells(build, [c]) == [NodeText(build, c.children)]
  {
    CellsWithOne(CellTextOf(build), c);
    if IsCell(c) {
      TrimOfTrimmed(NodeText(build, c.children));
    }
  }

  /** The rows of a `thead`, `tbody` or `tfoot`: text children are skipped,
      every other child is read as a row. A comment or directive has no children
      to read and the conversion fails. */
  function SectionRows(build: Build, cs: seq<Node>): (r: Result<seq<seq<string>>>)
    ensures r.Success? ==> forall i | 0 <= i < |r.value| :: r.value[i] != []
  {
    if cs == [] then Success([])
    else
      var c := cs[0];
      var head :- if c.Text? then Success([])
                  else if c.Element? || c.CData? then Success(NonEmpty(RowCells(build, c.children)))
                  else Failure(RowWithoutChildren);
      var rest :- SectionRows(build, cs[1..]);
      NonEmptyRowsConcat(head, rest);
      Success(head + rest)
  }

  /** The rows one child of a table contributes: the rows of a section, an
      other element read as a row, nothing for a non-element. */
  function ChildRows(build: Build, c: Node): (r: Result<seq<seq<string>>>)
    ensures r.Success? ==> forall i | 0 <= i < |r.value| :: r.value[i] != []
  {
    if IsSection(c) then SectionRows(build, c.children)
    else if c.Element? then Success(NonEmpty(RowCells(build, c.children)))
    else Success([])
  }

  /** The rows of a table, in document order, from its children one after the
      other; the first failure ends the conversion. */
  function TableRows(build: Build, cs: seq<Node>): (r: Result<seq<seq<string>>>)
    ensures r.Success? ==> forall i | 0 <= i < |r.value| :: r.value[i] != []
  {
    if cs == [] then Success([])
    else
      var head :- ChildRows(build, cs[0]);
      var rest :- TableRows(build, cs[1..]);
      NonEmptyRowsConcat(head, rest);
      Success(head + rest)
  }

  lemma NonEmptyRowsConcat(a: seq<seq<string>>, b: seq<seq<string>>)
    requires forall i | 0 <= i < |a| :: a[i] != []
    requires forall i | 0 <= i < |b| :: b[i] != []
    ensures forall i | 0 <= i < |a + b| :: (a + b)[i] != []
  {
  }

  /** Whether the loop over the table's children met a `thead`. */
  function SeenHead(cs: seq<Node>): bool {
    if cs == [] then false else IsElementNamed(cs[0], "thead") || SeenHead(cs[1..])
  }

  lemma {:induction false} SeenHeadMeaning(cs: seq<Node>)
    ensures SeenHead(cs) <==> exists i | 0 <= i < |cs| :: IsElementNamed(cs[i], "thead")
  {
    if cs != [] {
      SeenHeadMeaning(cs[1..]);
      if IsElementNamed(cs[0], "thead") {
        assert IsElementNamed(cs[0], "thead");
      } else {
        assert forall i | 1 <= i < |cs| :: cs[i] == cs[1..][i - 1];
      }
    }
  }

  /** A child a section cannot read as a row. */
  predicate Unreadable(n: Node) {
    n.Comment? || n.Directive?
  }

  /** A section fails exactly when it has a comment or directive child. */
  lemma {:induction false} SectionRowsFail(build: Build, cs: seq<Node>)
    ensures SectionRows(build, cs).Failure? <==> exists j | 0 <= j < |cs| :: Unreadable(cs[j])
  {
    if cs != [] {
      SectionRowsFail(build, cs[1..]);
      if !Unreadable(cs[0]) {
        assert forall j | 1 <= j < |cs| :: cs[j] == cs[1..][j - 1];
      }
    }
  }

  /** A section with an unreadable child. */
  predicate BrokenSection(n: Node) {
    IsSection(n) && exists j | 0 <= j < |n.children| :: Unreadable(n.children[j])
  }

  /** A table fails exactly when one of its sections has a comment or directive
      child; the same nodes directly inside the table are skipped. */
  lemma {:induction false} TableRowsFail(build: Build, cs: seq<Node>)
    ensures TableRows(build, cs).Failure? <==> exists i | 0 <= i < |cs| :: BrokenSection(cs[i])
  {
    if cs != [] {
      TableRowsFail(build, cs[1..]);
      if IsSection(cs[0]) {
        SectionRowsFail(build, cs[0].children);
      }
      if !BrokenSection(cs[0]) {
        assert forall i | 1 <= i < |cs| :: cs[i] == cs[1..][i - 1];
      }
    }
  }

  /** Rows keep document order: the rows of a table are those of its first
      children followed by those of the rest. */
  lemma {:induction false} TableRowsConcat(build: Build, a: seq<Node>, b: seq<Node>)
    requires TableRows(build, a + b).Success?
    ensures TableRows(build, a).Success? && TableRows(build, b).Success?
    ensures TableRows(build, a + b).value == TableRows(build, a).value + TableRows(build, b).value
  {
    if a == [] {
      assert a + b == b;
    } else {
      assert (a + b)[0] == a[0];
      assert (a + b)[1..] == a[1..] + b;
      TableRowsConcat(build, a[1..], b);
      var h := ChildRows(build, a[0]).value;
      assert TableRows(build, a + b).value == h + TableRows(build, a[1..] + b).value;
      assert TableRows(build, a).value == h + TableRows(build, a[1..]).value;
    }
  }

  /** A table made of plain rows has one row per element child that has a
      cell, holding the trimmed inline text of its cells. */
  lemma {:induction false} TableOfRows(build: Build, rows: seq<Node>)
    requires forall i | 0 <= i < |rows| :: rows[i].Element? && !IsSection(rows[i])
    ensures TableRows(build, rows).Success?
    ensures TableRows(build, rows).value == PlainRows(build, rows)
    decreases rows
  {
    if rows != [] {
      TableOfRows(build, rows[1..]);
      var h := NonEmpty(RowCells(build, rows[0].children));
      assert ChildRows(build, rows[0]) == Success(h);
      assert PlainRows(build, rows) == h + PlainRows(build, rows[1..]);
    }
  }

  /** The rows of element children read directly as rows. */
  function PlainRows(build: Build, rows: seq<Node>): seq<seq<string>>
    requires forall i | 0 <= i < |rows| :: rows[i].Element?
  {
    if rows == [] then [] else NonEmpty(RowCells(build, rows[0].children)) + PlainRows(build, rows[1..])
  }

  // ---------------------------------------------------------------------
  // The two builds
  // ---------------------------------------------------------------------

  /** Without an element named `constructor`, the two builds read the same
      rows. */
  lemma {:induction false} TableRowsBuildsAgree(cs: seq<Node>)
    requires NoConstructor(cs)
    ensures TableRows(AsWritten, cs) == TableRows(Corrected, cs)
  {
    if cs != [] {
      ChildRowsBuildsAgree(cs[0]);
      TableRowsBuildsAgree(cs[1..]);
    }
  }

  lemma ChildRowsBuildsAgree(c: Node)
    requires NoConstructorNode(c)
    ensures ChildRows(AsWritten, c) == ChildRows(Corrected, c)
  {
    if IsSection(c) {
      SectionRowsBuildsAgree(c.children);
    } else if c.Element? {
      RowCellsBuildsAgree(c.children);
    }
  }

  lemma {:induction false} SectionRowsBuildsAgree(cs: seq<Node>)
    requires NoConstructor(cs)
    ensures SectionRows(AsWritten, cs) == SectionRows(Corrected, cs)
  {
    if cs != [] {
      if cs[0].Element? || cs[0].CData? {
        RowCellsBuildsAgree(cs[0].children);
      }
      SectionRowsBuildsAgree(cs[1..]);
    }
  }

  lemma {:induction false} RowCellsBuildsAgree(cs: seq<Node>)
    requires NoConstructor(cs)
    ensures RowCells(AsWritten, cs) == RowCells(Corrected, cs)
  {
    if cs != [] {
      if IsCell(cs[0]) {
        NodeTextBuildsAgree(cs[0].children);
      }
      RowCellsBuildsAgree(cs[1..]);
      CellsWithHead(CellTextOf(AsWritten), cs);
      CellsWithHead(CellTextOf(Corrected), cs);
    }
  }
}

=== FILE: types.dfy ===
/** `getBlockType` and `getHeaderLevel` (editorjs-serializer.ts): the block type
    a tag name selects and the level of a heading. */
module BlockTypes {
  import opened Strings

  /** The block types the editor accepts. */
  const EditorTypes: set<string> := {
    "paragraph", "header", "list", "table", "image", "audioPlayer", "delimiter",
    "linkImage", "code", "unknown"
  }

  /** The tags whose blocks fall back to raw markup. */
  const CodeTags: set<string> := {
    "div", "script", "iframe", "blockquote", "object", "noscript", "pre", "form", "style"
  }

  const HeadingTags: set<string> := {"h1", "h2", "h3", "h4", "h5", "h6"}

  /** `getBlockType`: the block type of a tag name, ignoring letter case; `img`
      and every unlisted name are `unknown`. */
  function GetBlockType(tag: string): (r: string)
    ensures r in EditorTypes
  {
    TypeOfLowerName(ToLower(tag))
  }

  /** The `switch` of `getBlockType` on the lower-cased name. */
  function TypeOfLowerName(t: string): string {
    match t
    case "p" => "paragraph"
    case "h1" => "header"
    case "h2" => "header"
    case "h3" => "header"
    case "h4" => "header"
    case "h5" => "header"
    case "h6" => "header"
    case "ul" => "list"
    case "ol" => "list"
    case "div" => "code"
    case "script" => "code"
    case "iframe" => "code"
    case "blockquote" => "code"
    case "object" => "code"
    case "link-image" => "linkImage"
    case "hr" => "delimiter"
    case "noscript" => "code"
    case "pre" => "code"
    case "audio" => "audioPlayer"
    case "table" => "table"
    case "form" => "code"
    case "style" => "code"
    case _ => "unknown"
  }

  /** Headers are exactly the six heading tags. */
  lemma HeaderTypeTags(tag: string)
    ensures GetBlockType(tag) == "header" <==> ToLower(tag) in HeadingTags
  {
    var t := ToLower(tag);
    assert GetBlockType(tag) == TypeOfLowerName(t);
  }

  /** Lists are exactly `ul` and `ol`. */
  lemma ListTypeTags(tag: string)
    ensures GetBlockType(tag) == "list" <==> ToLower(tag) in {"ul", "ol"}
  {
    var t := ToLower(tag);
    assert GetBlockType(tag) == TypeOfLowerName(t);
  }

  /** The raw-markup fallback is exactly the nine code tags. */
  lemma CodeTypeTags(tag: string)
    ensures GetBlockType(tag) == "code" <==> ToLower(tag) in CodeTags
  {
    var t := ToLower(tag);
    assert GetBlockType(tag) == TypeOfLowerName(t);
  }

  /** Paragraphs come from `p` alone. */
  lemma ParagraphTypeTag(tag: string)
    ensures GetBlockType(tag) == "paragraph" <==> ToLower(tag) == "p"
  {
    var t := ToLower(tag);
    assert GetBlockType(tag) == TypeOfLowerName(t);
  }

  /** Tables come from `table` alone. */
  lemma TableTypeTag(tag: string)
    ensures GetBlockType(tag) == "table" <==> ToLower(tag) == "table"
  {
    var t := ToLower(tag);
    assert GetBlockType(tag) == TypeOfLowerName(t);
  }

  /** Delimiters come from `hr` alone. */
  lemma DelimiterTypeTag(tag: string)
    ensures GetBlockType(tag) == "delimiter" <==> ToLower(tag) == "hr"
  {
    var t := ToLower(tag);
    assert GetBlockType(tag) == TypeOfLowerName(t);
  }

  /** Audio players come from `audio` alone. */
  lemma AudioTypeTag(tag: string)
    ensures GetBlockType(tag) == "audioPlayer" <==> ToLower(tag) == "audio"
  {
    var t := ToLower(tag);
    assert GetBlockType(tag) == TypeOfLowerName(t);
  }

  /** Link images come from `link-image` alone. */
  lemma LinkImageTypeTag(tag: string)
    ensures GetBlockType(tag) == "linkImage" <==> ToLower(tag) == "link-image"
  {
    var t := ToLower(tag);
    assert GetBlockType(tag) == TypeOfLowerName(t);
  }

  /** No tag gives an image block: a bare `<img>` is unknown, and so is the name
      `image`. */
  lemma NoImageType(tag: string)
    ensures GetBlockType(tag) != "image"
    ensures GetBlockType("img") == "unknown" && GetBlockType("image") == "unknown"
  {
  }

  /** A name without capitals selects its type directly. */
  lemma TypeOfLowerCase(tag: string)
    requires NoUpper(tag)
    ensures GetBlockType(tag) == TypeOfLowerName(tag)
  {
    LowerOfLower(tag);
  }

  /** The code tags are written without capitals. */
  lemma CodeTagsLower(name: string)
    requires name in CodeTags
    ensures NoUpper(name)
  {
  }

  /** No code tag is a table, list, paragraph or heading tag. */
  lemma CodeTagsOther(name: string)
    requires name in CodeTags
    ensures name != "table" && name != "ol" && name != "ul" && name != "p" && !IsHeadingName(name)
  {
  }

  /** The list tags are written without capitals. */
  lemma ListTagsLower(name: string)
    requires name == "ol" || name == "ul"
    ensures NoUpper(name)
  {
  }

  /** The types the converters look up by name. */
  lemma ConverterTypes()
    ensures GetBlockType("p") == "paragraph"
    ensures GetBlockType("audio") == "audioPlayer"
    ensures GetBlockType("table") == "table"
  {
    TypeOfLowerCase("p");
    TypeOfLowerCase("audio");
    TypeOfLowerCase("table");
  }

  /** Letter case never changes a block type. */
  lemma BlockTypeIgnoresCase(tag: string)
    ensures GetBlockType(ToUpper(tag)) == GetBlockType(tag)
  {
    LowerOfUpper(tag);
  }

  // ---------------------------------------------------------------------
  // Headers
  // ---------------------------------------------------------------------

  /** The tag names `convertTagNodeToBlock` treats as headers (`/^h[1-6]$/`). */
  predicate IsHeadingName(name: string) {
    |name| == 2 && name[0] == 'h' && '1' <= name[1] <= '6'
  }

  /** `getHeaderLevel`: the digit of a name of the form `h<digit>`, as `parseInt`
      reads a single decimal digit, and 1 for any other name. */
  function GetHeaderLevel(name: string): (r: int) {
    if |name| == 2 && name[0] == 'h' && '0' <= name[1] <= '9'
    then name[1] as int - '0' as int
    else 1
  }

  /** The tag name of the heading at `level`. */
  function HeadingName(level: int): string
    requires 0 <= level <= 9
  {
    ['h', ('0' as int + level) as char]
  }

  /** The six heading tags are exactly the names with a level between 1 and 6
      read from their digit. */
  lemma HeaderLevels(name: string)
    ensures IsHeadingName(name) <==> name in HeadingTags
    ensures IsHeadingName(name) ==> 1 <= GetHeaderLevel(name) <= 6 && name == HeadingName(GetHeaderLevel(name))
    ensures GetHeaderLevel(name) != 1 ==> |name| == 2 && name[0] == 'h' && '0' <= name[1] <= '9'
    ensures 0 <= GetHeaderLevel(name) <= 9
  {
    if |name| == 2 && name[0] == 'h' {
      assert name == ['h', name[1]];
    }
  }

  /** A heading name selects the header type. */
  lemma HeadingType(name: string)
    requires IsHeadingName(name)
    ensures GetBlockType(name) == "header"
  {
    HeaderLevels(name);
    assert NoUpper(name);
    LowerOfLower(name);
    HeaderTypeTags(name);
  }

  /** `h0` and `h7` to `h9` match the level pattern without being headings. */
  lemma LevelWithoutHeading()
    ensures GetHeaderLevel("h0") == 0 && !IsHeadingName("h0")
    ensures GetHeaderLevel("h7") == 7 && !IsHeadingName("h7")
    ensures GetHeaderLevel("h8") == 8 && !IsHeadingName("h8")
    ensures GetHeaderLevel("h9") == 9 && !IsHeadingName("h9")
  {
  }
}

=== FILE: wrappers.dfy ===
/** Failure-compatible result types shared by the whole model. */
module Wrappers {

  /** A value that may be absent, as a JavaScript property lookup may yield `undefined`. */
  datatype Option<+T> = None | Some(value: T) {
    function GetOr(default: T): T {
      match this
      case Some(v) => v
      case None => default
    }
  }

  /** The ways the import pipeline throws a TypeError on input it does not anticipate. */
  datatype Error =
    /** An image `variant` attribute with fewer than three `-`-separated parts. */
    | VariantWithoutSize(variant: string)
    /** A table section child that is neither text nor a node with children. */
    | RowWithoutChildren

  /** The outcome of a step that may throw; usable with `:-`. */
  datatype Result<+T> = Success(value: T) | Failure(error: Error) {
    predicate IsFailure() {
      Failure?
    }

    function PropagateFailure<U>(): Result<U>
      requires Failure?
    {
      Failure(error)
    }

    function Extract(): T
      requires Success?
    {
      value
    }
  }
}
